=== FILE: README.md ===
# ReallyGoodJob in Dafny

ReallyGoodJob is an Express service. A signed-in Gmail user submits an
appreciation campaign: a name, a description and a list of recipients. An
admin approves or rejects it. Anyone may then browse the active campaigns and
send their messages through their own Gmail account. A premium tier is gated
by feature flags. A send worker registers the cron jobs for the three daily
sending windows. A small browser script keeps the light or dark theme.

This project models the decision logic of that service as pure Dafny
functions over immutable records, one module per source file:

- **Tables.** The user, campaign and recipient tables are sequences that an
  operation takes and returns.
- **The outside world as parameters.** The following become parameters:
  - the clock;
  - the random mood pick;
  - the Google OAuth exchange, profile lookup and token refresh;
  - the Gmail send call;
  - JWT signing and verification;
  - the `isEmail` validator;
  - the template files.
- **JavaScript semantics written out.** The model spells out:
  - `||` defaults, truthiness and `!`;
  - `String.prototype.trim`, `replace` with a string pattern (first
    occurrence only) and global replacement with `$` patterns;
  - `split`/`join`, `startsWith`/`endsWith`/`includes`;
  - `parseInt`;
  - computed object keys, including `[undefined]`.

The main results:

- **Error handling.** The error handler's seven rules, run in source order,
  equal a priority classification (`ErrorHandler.ClassifiedIsPriority`).
- **Premium gating.** Access for a feature is its own flag AND the premium
  test. A testing override never opens a feature whose flag is off.
- **Campaign lifecycle.** Approval and rejection move a campaign only out of
  Pending. A second review is refused. Editing never changes a status.
  Replacing recipients gives exactly the supplied list and is idempotent. The
  statistics total misses exactly the Expired campaigns.
- **Template rendering.** Rendering fills absent or empty fields with the
  documented defaults. It is idempotent when every `[` of the template opens
  a placeholder and no value holds `[` or `$`.
  - Placeholder-free values alone are NOT enough to leave no placeholder
    behind. `[Sender [Campaign Name]]` with the campaign name `Name` renders
    to `[Sender Name]` (`TemplateServiceExamples.PlaceholderCanSurvive`).
- **Template parsing.** Parsing a file in the documented layout gives back
  its subject and body.
- **Mood table.** The table of moods has four keys, because only three moods
  are configured. The six others collapse into the key `"undefined"`, which
  maps to `inspiring.txt`.
- **Send path.** Token refresh keeps the old refresh token. A token valid
  beyond the 5-minute buffer is not refreshed again. `sendEmail` never
  throws, and it succeeds exactly when the client is obtained and Gmail
  accepts the message.
- **Batch send.** Two defects of the batch send are modelled as written and
  corrected (see Findings).
- **Sign-in.** It admits every non-empty address, whatever its domain. The
  upsert keeps user ids and addresses unique. The dashboard token then passes
  the authentication guard as the signed-in user. As written, the code is
  handed to `getAccessToken`, so no callback reaches the dashboard (see
  Findings). The intended code exchange is modelled as a parameter.
- **Send worker.** Start is a no-op while running. Stop cancels nothing, so
  start, stop, start leaves eight jobs. The handlers change no schedule.
- **Theme.** The selector stays consistent under any sequence of operations.
  A stored theme pins the page against system changes.

Where the code and its own comments disagree, the model follows the code:

- `isGmailAccount` admits every address.
- `stop` cancels no job.
- `reject` passes a `rejectionReason` to `update`, but `campaignModel.js`
  declares no such column. Sequelize writes only declared attributes, so the
  model drops the reason and keeps only the status and the approver.

## Model

| member | source | states |
|---|---|---|
| Config.TierName | src/config/config.js:24-27 | each tier's name reads back as that tier, so the two names are distinct |
| Config.TierOf | src/config/config.js:24-27 | a string names a tier exactly when it is "Free" or "Premium" |
| Config.StatusName | src/config/config.js:29-34 | each campaign status name reads back as that status, so the four names are pairwise distinct |
| Config.StatusOf | src/config/config.js:29-34 | a string names a status exactly when it is one of Pending, Active, Rejected, Expired |
| Config.WindowName | src/config/config.js:36-40 | each window name reads back as that window, so the three names are pairwise distinct |
| Config.WindowOf | src/config/config.js:36-40 | a string names a window exactly when it is Morning, Afternoon or Evening, each mapping to its own window |
| Config.EmailStatusName | src/config/config.js:54-57 | the e-mail status names are distinct: "Sent" names exactly the Sent status |
| Config.WindowAtHour | src/config/config.js:42-46 | each window starts before it ends; the windows are contiguous and cover exactly the hours 8 to 21; an hour lies in at most one window |
| Config.Mood | src/config/config.js:48-52 | only Happy, Cheerful and Ecstatic are configured, each key to its own name; every other mood name is undefined |
| Config.MoodNamesDistinct | src/config/config.js:48-52 | two configured moods with the same name are the same mood |
| Config.SendsPerCampaignDay | src/config/config.js:59-64 | a Free campaign-day allows one send and a Premium one three |
| Config.PremiumSendsMore | src/config/config.js:59-64 | Premium allows strictly more sends per campaign-day than Free |
| Config.MaxSendsPerDay | src/config/config.js:21 | the parsed environment value when it parses to a non-zero number, else 100 |
| Config.MaxSendsPerDayOfNumeral | src/config/config.js:21 | a decimal numeral n gives n, except "0", which falls back to 100 |
| Config.Port | src/config/config.js:5 | a non-empty PORT is used as given; an absent or empty one gives "3000"; the result is never empty |
| Config.NodeEnv | src/config/config.js:6 | a non-empty NODE_ENV is used as given; an absent or empty one gives "development"; the result is "development" exactly when NODE_ENV is absent, empty or "development" |
| CampaignModel.MissingRequired | src/models/campaignModel.js:12-49 | a campaign lacks nothing exactly when name, description and creator are present; the creator is reported missing exactly when absent |
| CampaignModel.CreateCampaign | src/models/campaignModel.js:6-83 | creation fails exactly when a required column is missing; otherwise each omitted column takes its default (Pending, 90 days, 30, 5, 3) and the approver columns stay as given |
| CampaignModel.DefaultCampaign | src/models/campaignModel.js:20-69 | a campaign created from its required columns alone is Pending, expires 7776000000 ms later, has no approver, and has window 30 and limits 5 and 3 |
| CampaignModel.FindCampaign | src/models/campaignModel.js:7-11 | the primary-key lookup finds the first row with the id, or reports that no row has it |
| RecipientModel.BeforeCreate | src/models/recipientModel.js:46-50 | an absent or empty personalized name becomes the display name; a non-empty one is kept; no other field changes |
| RecipientModel.BeforeUpdate | src/models/recipientModel.js:51-55 | the same defaulting on update |
| RecipientModel.HooksIdempotent | src/models/recipientModel.js:45-56 | each hook applied twice is applied once, and update after create changes nothing |
| RecipientModel.HookNamePresent | src/models/recipientModel.js:30-53 | after creation a personalized name is always present, and it is empty only when the display name is |
| RecipientModel.Of | src/models/recipientModel.js:11-18 | the rows of a campaign are exactly the table's rows with that campaign id |
| RecipientModel.Without | src/models/recipientModel.js:11-18 | removing a campaign's rows keeps exactly the rows of other campaigns |
| RecipientModel.OfWithout | src/models/recipientModel.js:11-18 | after removing campaign c's rows, c has none and every other campaign keeps its rows |
| ScheduleModel.MissingRequired | src/models/scheduleModel.js:12-49 | a schedule lacks nothing exactly when campaign, user, mood, window and next run are all given |
| ScheduleModel.CreateSchedule | src/models/scheduleModel.js:12-71 | creation succeeds exactly when the required columns are present and the window is Morning, Afternoon or Evening; remaining sends default to 1, daily count to 0, active to true, and the note is optional |
| UserModel.EncryptTokens | src/services/encryptionService.js:65-68 | decrypting what was encrypted gives back the token record |
| UserModel.DecryptTokens | src/services/encryptionService.js:41-78 | decryption succeeds exactly on an encrypted record; anything else fails |
| UserModel.FindUser | src/models/userModel.js:6-11 | the lookup by primary key finds a user of the table with that id, or there is none |
| UserModel.FindByEmail | src/models/userModel.js:12-19 | the lookup by address finds the first row with that address, or there is none |
| JsValues.Not | src/services/featureFlagService.js:81 | `!v` is a boolean and the opposite of v's truthiness |
| Strings.Trim | src/controllers/campaignController.js:132-133 | trimmed text is the infix of the input between a run of leading and a run of trailing white space, and neither starts nor ends with white space |
| Strings.TrimInfix | src/controllers/campaignController.js:132-133 | removing leading and then trailing white space leaves an infix with only white space on either side |
| Strings.TrimEmptyIff | src/services/templateService.js:48 | a line trims to empty exactly when it is all white space |
| Strings.TrimIdempotent | src/controllers/campaignController.js:146 | trimming twice is trimming once |
| Strings.IndexOf | src/middleware/authMiddleware.js:7 | `indexOf` finds the first occurrence, and reports none exactly when the pattern does not occur |
| Strings.ReplaceFirst | src/middleware/authMiddleware.js:7 | `replace` with a string pattern rewrites only the first occurrence, and leaves text without one unchanged |
| Strings.ReplaceAllInverse | src/services/templateService.js:120 | replacing every occurrence by a fresh marker and back restores the text, so each occurrence is replaced exactly once |
| Strings.GlobalReplaceLiteral | src/services/templateService.js:120 | a global regular-expression replacement whose replacement text has no `$` inserts that text literally |
| Strings.GlobalReplaceAbsent | src/services/templateService.js:120 | a global replacement leaves text without the pattern unchanged, whatever the replacement |
| Strings.JoinSplit | src/services/templateService.js:42-49 | splitting on a character and joining with it gives back the text |
| Strings.BeforeFirst | src/controllers/adminController.js:296 | `split('@')[0]` is the prefix before the first `@`, or the whole text when there is none |
| Strings.ToUpperOfLower | src/services/featureFlagService.js:48 | upper-casing ignores the case of the input |
| Strings.ParseIntOfDecimal | src/config/config.js:21 | `parseInt` of a decimal numeral gives back its number |
| FeatureFlagService.InitialFlags | src/services/featureFlagService.js:8-14 | the three premium flags start on whatever the environment says; the two testing flags start on only for the exact string "true" |
| FeatureFlagService.IsPremiumUser | src/services/featureFlagService.js:30-42 | either testing flag makes every caller premium, even a missing one; otherwise exactly a Premium-tier user is |
| FeatureFlagService.FeatureFlagName | src/services/featureFlagService.js:48 | the gating flag is `PREMIUM_` followed by the feature name, of matching length |
| FeatureFlagService.MultipleSendsFlag | src/services/featureFlagService.js:48 | the feature name "multiple_sends" is gated by the constructor's PREMIUM_MULTIPLE_SENDS flag |
| FeatureFlagService.PersonalizedMessagesFlag | src/services/featureFlagService.js:48 | "personalized_messages" is gated by PREMIUM_PERSONALIZED_MESSAGES |
| FeatureFlagService.AdvancedSchedulingFlag | src/services/featureFlagService.js:48 | "advanced_scheduling" is gated by PREMIUM_ADVANCED_SCHEDULING |
| FeatureFlagService.CanAccessPremiumFeature | src/services/featureFlagService.js:47-57 | a disabled feature flag denies everyone, testing flags included; an enabled one defers to the premium test |
| FeatureFlagService.ValidatePremiumFeature | src/services/featureFlagService.js:62-72 | the feature is allowed exactly when access holds; a denial names the lower-cased feature and starts with the friendly name |
| FeatureFlagService.Get | src/services/featureFlagService.js:81 | reading a flag gives its own value; a missing name inherited from `Object.prototype` gives a truthy object; any other missing name gives `undefined` |
| FeatureFlagService.ToggleFlag | src/services/featureFlagService.js:77-86 | an omitted or null value negates the value read, inherited members included; any other value is stored as given; the result is the value read back; no other flag changes; `__proto__` never becomes a flag and reads back an object |
| FeatureFlagService.InheritedToggle | src/services/featureFlagService.js:77-86 | toggling an inherited name such as "toString" that is not yet a flag stores `false`; toggling `__proto__` leaves the table unchanged and enables nothing |
| FeatureFlagService.ToggleTwice | src/services/featureFlagService.js:77-86 | toggling a boolean flag twice restores the table |
| FeatureFlagService.StringTrueDisables | src/services/featureFlagService.js:23-25 | the string "true" is stored as given and leaves the flag disabled |
| FeatureFlagService.ForcePremiumOpensEveryFeature | src/services/featureFlagService.js:30-57 | with FORCE_PREMIUM_FOR_ALL on, every caller is premium and access depends on the feature flag alone |
| FeatureFlagService.GetAllFlags | src/services/featureFlagService.js:91-93 | the copy has the same flags with the same values |
| FeatureFlagService.GetAvailableFeatures | src/services/featureFlagService.js:98-108 | each feature is available exactly when the caller is premium and its flag is on; the tier defaults to Free |
| FeatureFlagService.FeaturesAgreeWithGate | src/services/featureFlagService.js:47-57 | the summary agrees with the per-feature gate for the three features |
| FeatureFlagService.InitialGate | src/services/featureFlagService.js:8-14 | at start a Free user is premium exactly when a testing variable is "true", and then has every feature |
| FeatureFlagController.GetUserFeatures | src/controllers/featureFlagController.js:8-29 | the caller's features are the service's summary for that caller; a missing caller is a 500 |
| FeatureFlagController.ToggleFeatureFlag | src/controllers/featureFlagController.js:35-67 | a non-admin gets 403, then a missing or empty name gets 400, both leaving the flags alone; only then is the flag toggled and reported |
| FeatureFlagController.GetAllFeatureFlags | src/controllers/featureFlagController.js:73-103 | non-admins get 403; admins get the flags and a description for every flag the service defines |
| FeatureFlagController.SimulateUserTier | src/controllers/featureFlagController.js:109-162 | guards in order: 403, 400 for missing fields, 400 for an unknown tier, 404 for an unknown user; any refusal leaves the table alone; success changes only that user's tier and reports features of the updated user |
| FeatureFlagController.SimulateThenGetFeatures | src/controllers/featureFlagController.js:142-154 | after a simulated change, the user's own feature endpoint reports the features the admin was shown |
| FeatureFlagController.SimulatePremium | src/controllers/featureFlagController.js:127-154 | simulating Premium for an existing user makes that user premium in the summary |
| TemplateService.Values | src/services/templateService.js:112-117 | absent or empty fields become 'Unknown Sender', 'Dear Friend', 'Campaign' and '' |
| TemplateService.RenderTemplate | src/services/templateService.js:108-124 | a template without `[` holds no placeholder and is returned unchanged |
| TemplateService.RenderLeavesNoBracket | src/services/templateService.js:119-121 | when every `[` of the template opens a placeholder and no value holds `[` or `$`, every placeholder is replaced and none remains |
| TemplateService.RenderIdempotent | src/services/templateService.js:108-124 | under the same conditions, rendering the rendered text again changes nothing |
| TemplateService.RenderSinglePlaceholder | src/services/templateService.js:112-121 | a template that is one placeholder renders to that field's value or its default |
| TemplateService.PassAnchored | src/services/templateService.js:119-121 | one substitution pass with a `[`-free value leaves every `[` opening one of the remaining placeholders |
| TemplateService.FirstSubjectLine | src/services/templateService.js:45 | `lines.find` returns the first line starting with "Subject:", or none |
| TemplateService.FirstBlankLine | src/services/templateService.js:48 | `findIndex` returns the first line that trims to empty, or none |
| TemplateService.ParseTemplateFile | src/services/templateService.js:42-49 | a subject exists exactly when some line starts with "Subject:"; with no blank line the whole file, trimmed, is the body |
| TemplateService.ParseFormat | src/services/templateService.js:42-49 | parsing "Subject: s", a blank line and body b gives back s and b when both are trimmed and s is one line |
| TemplateService.SubjectOfHead | src/services/templateService.js:45 | removing the first "Subject: " and trimming gives back a trimmed subject |
| TemplateService.MoodPropertyName | src/services/templateService.js:19-29 | a computed key is the mood's name, or "undefined" for a mood the configuration lacks |
| TemplateService.AssignLookup | src/services/templateService.js:19-29 | assigning a property stores the value under its key and leaves other keys alone |
| TemplateService.BuildTableLast | src/services/templateService.js:19-29 | in an object literal the last assignment to a key decides its value |
| TemplateService.MoodTableKeys | src/services/templateService.js:19-29 | the mood table has exactly four keys: Happy, Cheerful, Ecstatic and "undefined" |
| TemplateService.MoodTableFiles | src/services/templateService.js:19-29 | the three moods map to their own files and "undefined" maps to inspiring.txt |
| TemplateService.MoodEntriesAt | src/services/templateService.js:19-29 | the six unconfigured moods all produce the key "undefined" |
| TemplateMoods.ParsedRow | src/services/templateService.js:51-56 | a row is made only with a non-empty subject and body, under its mood's name |
| TemplateMoods.ParsedRowIff | src/services/templateService.js:45-61 | a row exists exactly when the parsed subject and body are both non-empty, and holds exactly those |
| TemplateMoods.Candidate | src/services/templateService.js:36-41 | a row is inserted only when the file exists, parses and the store accepts the name |
| TemplateMoods.LoadMoods | src/services/templateService.js:31-69 | existing rows are kept; each added row comes from an entry not stored before; added names are distinct; every entry that yields a row ends up stored |
| TemplateMoods.InitializeMoods | src/services/templateService.js:14-75 | only mood-table keys not already stored are added, each holding its file's parse; each creatable mood ends up stored exactly once |
| MoodRows.AddedMoodRows | src/services/templateService.js:31-61 | every added row is one of the four keys, holding what that key's file parses to |
| MoodRows.CreatableStored | src/services/templateService.js:31-69 | every key whose row can be created is stored after the load |
| TemplateServiceExamples.LaterPassRewritesEarlierValue | src/services/templateService.js:112-121 | a sender name that is itself a later placeholder is rewritten by that later pass |
| TemplateServiceExamples.PlaceholderCanSurvive | src/services/templateService.js:119-121 | values free of placeholders can still leave one: `[Sender [Campaign Name]]` with campaign name "Name" renders to `[Sender Name]` |
| GmailService.ExpiryRule | src/services/gmailService.js:52-56 | a token is expired exactly when it expires within 300000 ms of now, the boundary included; one without an expiry never is |
| GmailService.ExpiryMonotone | src/services/gmailService.js:52-56 | once expired, a token stays expired as time passes |
| GmailService.StoredTokens | src/services/gmailService.js:21-27 | a missing user or token column is the 'no tokens' error; otherwise the stored blob decrypts to the returned record |
| GmailService.SetTokensLookup | src/services/gmailService.js:81 | the update changes only that user's token column |
| GmailService.RefreshUserTokens | src/services/gmailService.js:61-90 | success stores the new access token and expiry with the old refresh token; every failure is the one refresh error and stores nothing |
| GmailService.RefreshStored | src/services/gmailService.js:73-81 | after a refresh the user reads back the refreshed record and the refresh token it had |
| GmailService.GetGmailClient | src/services/gmailService.js:19-47 | the client is built without refreshing exactly when the tokens are not expired; every error carries the 'Failed to initialize Gmail API: ' prefix |
| GmailService.RefreshSettles | src/services/gmailService.js:37-40 | after a refresh to a token valid beyond the buffer, asking again before then neither refreshes nor writes |
| GmailService.TrackingPixelUrl | src/services/gmailService.js:168-173 | the URL is the origin and tracking path followed by the id unescaped |
| GmailService.MimeLines | src/services/gmailService.js:146-160 | five headers in order, an empty line and the body; two more lines exactly when the log id is truthy |
| GmailService.MimeText | src/services/gmailService.js:145-163 | the message is those lines joined with CRLF, ending in the pixel tag exactly when the log id is truthy |
| GmailService.SendEmail | src/services/gmailService.js:101-140 | never throws; success exactly when the client is obtained and Gmail accepts, with status Sent and the message id; failure carries an error and status Failed |
| GmailService.SendBuildsMessage | src/services/gmailService.js:103-113 | once the client is obtained, the message is built from the sender's name and address, and success depends on delivery alone |
| CampaignController.ActiveCampaigns | src/controllers/campaignController.js:9-50 | exactly the Active campaigns whose expiry lies after now are listed |
| CampaignController.FindAvailable | src/controllers/campaignController.js:60-66 | a campaign is found by id only when it is Active and unexpired, and none is found exactly when no row with that id is |
| CampaignController.GetCampaignDetails | src/controllers/campaignController.js:56-106 | an unavailable campaign is 404; otherwise the campaign with exactly its recipients |
| CampaignController.DetailsIffListed | src/controllers/campaignController.js:11-17 | details are served exactly when a campaign with that id is listed |
| CampaignController.PersonalizedNameFor | src/controllers/campaignController.js:146 | the trimmed personalized name when that is non-empty, else the trimmed display name |
| CampaignController.NewRecipient | src/controllers/campaignController.js:142-147 | a new row holds the campaign id, the trimmed address and display name, and the defaulted personalized name |
| CampaignController.WellFormedRun | src/controllers/campaignController.js:140-149 | the elements before the first one lacking an address or display name are the ones whose creates are issued |
| CampaignController.NewCampaign | src/controllers/campaignController.js:131-137 | the new campaign is Pending, by the caller, trimmed, expiring 90 days after now, with no approval |
| CampaignController.CreateCampaign | src/controllers/campaignController.js:112-171 | 400 with nothing stored for missing fields or an empty list; 201 exactly when the fields are strings and every element is complete and valid; otherwise 500, which may still have stored the campaign and some recipients |
| CampaignController.CreatedCampaign | src/controllers/campaignController.js:131-164 | a 201 stores one Pending campaign and one recipient per element, in order, and echoes the campaign |
| CampaignController.SubmittedNotAvailable | src/controllers/campaignController.js:131-137 | a freshly submitted campaign is neither listed nor served |
| CampaignController.NewRecipientName | src/controllers/campaignController.js:146 | the beforeCreate hook has nothing left to change, and the name is empty only when both names trim to empty |
| CampaignController.SenderName | src/controllers/campaignController.js:265 | the sender is the user's name, or their address when the name is empty |
| CampaignController.MoodName | src/controllers/campaignController.js:255-265 | the picked mood's name, or 'Happy' when there is no mood or it has no name |
| CampaignController.SendLoop | src/controllers/campaignController.js:258-290 | every recipient is tried once, in order, each on the table the previous call left; as written sentCount equals the number of recipients and errors stay empty |
| CampaignController.SendLoopCorrected | src/controllers/campaignController.js:258-290 | the same attempts, with sentCount counting successes and one error per failure, so the two add up to the recipient count |
| CampaignController.SendCampaignEmails | src/controllers/campaignController.js:217-307 | 404 or 400 before any send; otherwise the loop as written over the campaign's recipients, reporting every recipient as sent |
| CampaignController.SendCampaignEmailsCorrected | src/controllers/campaignController.js:217-307 | the same guards; the intended call per recipient and a summary of successes and failures that add up to the recipient count |
| CampaignController.SentCountIgnoresFailures | src/controllers/campaignController.js:267-289 | with every delivery failing, no attempt succeeds, while the summary as written reports every recipient sent with no errors; for a non-empty list the reported count differs from the deliveries |
| CampaignController.ArgumentShift | src/controllers/campaignController.js:267-279 | as written, the message's Subject is the personalized name, its body is the subject line, and the tracking URL ends with the whole message text |
| CampaignController.IntendedMessage | src/services/gmailService.js:101-113 | with the arguments in place, Subject is the subject line, the body is the message and there is no pixel |
| CampaignController.CorrectedReportsFailures | src/controllers/campaignController.js:283-288 | with the corrected loop and every delivery failing, nothing counts as sent and every recipient has an error |
| AdminController.Approve | src/controllers/adminController.js:51-94 | 404 for an unknown id and 400 for a non-Pending campaign, both with no change; otherwise only that campaign becomes Active, approved by the admin at now |
| AdminController.Reject | src/controllers/adminController.js:100-144 | the same guards; otherwise only that campaign becomes Rejected by the admin and nothing else of it changes; the reason is not kept, and the answer echoes the reason as given |
| AdminController.ReasonArgument | src/controllers/adminController.js:123 | the reason handed to the update is the given one when non-empty and 'No reason provided' when absent or empty; it is never empty |
| AdminController.ApplyRejectUpdate | src/controllers/adminController.js:120-124 | the update sets status and approver; the reason it carries has no column in campaignModel.js and is dropped, and no other attribute changes |
| AdminController.ReasonNotPersisted | src/controllers/adminController.js:120-135 | two rejections differing only in the reason leave the same table; a successful one answers with the reason as given |
| AdminController.ReviewMovesOnlyPending | src/controllers/adminController.js:63-74 | review changes a campaign only from Pending to Active or Rejected, keeping its id |
| AdminController.ReviewFixedPoints | src/controllers/adminController.js:113-117 | Active, Rejected and Expired campaigns are answered 400 by both reviews and stay as they are |
| AdminController.ReviewOnce | src/controllers/adminController.js:63-67 | after a successful review, any further approval or rejection of that campaign is refused and changes nothing |
| AdminController.RejectEchoesRawReason | src/controllers/adminController.js:123-135 | a rejection without a reason hands the stock text to the update but answers with no reason |
| AdminController.EditText | src/controllers/adminController.js:165-166 | an omitted field keeps its value; a supplied one is trimmed |
| AdminController.UpdateCampaign | src/controllers/adminController.js:150-190 | 404 for an unknown id; 500 with no change for a non-string name or description; otherwise exactly the supplied fields change, in any status |
| AdminController.EditIdempotent | src/controllers/adminController.js:164-169 | editing keeps every status and id, and an edit applied twice equals it applied once |
| AdminController.ReplacementName | src/controllers/adminController.js:295-296 | the display name when non-empty; else the prefix of the address that holds no `@` and ends at its first `@`, or the whole address when it has none |
| AdminController.ReplacementNameFromAddress | src/controllers/adminController.js:295-296 | without a display name "ann@x.org" is listed as "ann"; an address without `@` is listed whole |
| AdminController.ReplacementRow | src/controllers/adminController.js:292-297 | the row carries the given id and campaign, the element's address, and the defaulted name as both display and personalized name; the element's own personalized name is ignored |
| AdminController.UpdateCampaignRecipients | src/controllers/adminController.js:273-316 | 404 removes nothing; otherwise the old rows go first, and then either the list is added and its length answered, or an element without an address leaves the campaign empty with a 500 |
| AdminController.ReplacementIsExact | src/controllers/adminController.js:287-301 | afterwards the campaign's recipients are exactly the list's rows, in order, and other campaigns keep theirs |
| AdminController.ReplacementIdempotent | src/controllers/adminController.js:287-308 | replacing with the same list twice gives what one replacement gives |
| AdminController.PendingCampaigns | src/controllers/adminController.js:9-45 | exactly the Pending campaigns are listed, each with the number of its recipients |
| AdminController.AllCampaigns | src/controllers/adminController.js:196-232 | every campaign, in table order, with the number of its recipients |
| AdminController.PendingIsFilteredListing | src/controllers/adminController.js:9-45 | the review queue is the full listing restricted to Pending campaigns |
| AdminController.CampaignRecipients | src/controllers/adminController.js:238-267 | 404 for an unknown id; otherwise exactly the recipients of that campaign |
| AdminController.ApprovedLeavesQueue | src/controllers/adminController.js:51-94 | an approved campaign is no longer in the review queue |
| AdminController.AdminStats | src/controllers/adminController.js:322-351 | the total is the sum of the three counts and falls short of the table by exactly the Expired campaigns; users are counted |
| AdminController.StatsTotalIff | src/controllers/adminController.js:324-339 | the total counts every campaign exactly when none has expired |
| AdminController.ReviewStats | src/controllers/adminController.js:324-339 | approval moves one from pending to active and rejection one from pending to rejected, with the total unchanged |
| ErrorHandler.ValidationDetails | src/middleware/errorHandler.js:23-26 | one detail per inner error, with its path and message |
| ErrorHandler.UniqueDetails | src/middleware/errorHandler.js:33-36 | one detail per inner error, with its path and "<path> already exists" |
| ErrorHandler.HandleError | src/middleware/errorHandler.js:3-74 | the response has the status and message of the strongest applicable rule; details are present exactly for the two Sequelize errors; the stack is present exactly in development |
| ErrorHandler.ClassifiedIsPriority | src/middleware/errorHandler.js:14-66 | running the seven rules in order equals choosing the strongest applicable rule, with earlier details surviving |
| ErrorHandler.LastRuleWins | src/middleware/errorHandler.js:46-66 | file size always wins; a token error beats a custom status; a custom status beats a unique error but keeps its details |
| ErrorHandler.UnrecognisedIs500 | src/middleware/errorHandler.js:14-17 | an error no rule recognises is a bare 500 'Internal Server Error' |
| AuthMiddleware.ExtractToken | src/middleware/authMiddleware.js:7 | the header with its first "Bearer " removed wherever it occurs; no header gives no token |
| AuthMiddleware.BearerRoundTrip | src/middleware/authMiddleware.js:7 | "Bearer " followed by a token yields exactly that token |
| AuthMiddleware.OnlyFirstBearerRemoved | src/middleware/authMiddleware.js:7 | "Bearer Bearer x" yields "Bearer x" |
| AuthMiddleware.Authenticate | src/middleware/authMiddleware.js:5-44 | an absent or empty token is 401 'Access denied. No token provided.'; the request goes on exactly when the token verifies to an existing user, carrying that user; a verified token of a missing user is 401 'Invalid token. User not found.'; a malformed token is 401 'Invalid token.', an expired one 401 'Token expired.', any other error 500 |
| AuthMiddleware.AdmittedUserExists | src/middleware/authMiddleware.js:15-25 | an admitted request carries a user of the table whose id the token names |
| AuthMiddleware.WellFormedHeader | src/middleware/authMiddleware.js:7-42 | a bearer header with a token of an existing user admits that user; an expired one is 401 'Token expired.' |
| AdminMiddleware.RequireAdmin | src/middleware/adminMiddleware.js:1-23 | exactly one of: 401 with no user, 403 for a non-admin, going on with the same user for an admin |
| AdminMiddleware.AdminChain | src/middleware/adminMiddleware.js:16 | a request that gets through both guards is the one the authentication guard admitted |
| AdminMiddleware.AdminChainIff | src/middleware/adminMiddleware.js:3-16 | both guards pass exactly for a token naming an existing admin; authentication refusals pass through, and the admin guard itself can only add 403 |
| AuthController.GmailCheckAdmitsAll | src/controllers/authController.js:98-115 | exactly the present, non-empty addresses pass, an address outside gmail.com included |
| AuthController.ExpiresAt | src/controllers/authController.js:130 | the token's expiry when present and non-zero, else an hour after now |
| AuthController.FindOrCreateUser | src/controllers/authController.js:120-163 | an existing address gets the new name and tokens and keeps its id, tier and admin flag; otherwise a Free, non-admin user is appended; the stored tokens decrypt to what was received |
| AuthController.UpsertKeepsKeys | src/controllers/authController.js:123-153 | the upsert keeps ids and addresses unique, and signing in again updates the same row |
| AuthController.SessionPayload | src/controllers/authController.js:168-181 | the session carries the user's id, address, tier and admin flag |
| AuthController.HandleCallback | src/controllers/authController.js:44-93 | with the exchange the code intends, in order: access denied, missing code, auth failed for a failed exchange, a missing or empty access token, or a failed profile lookup, Gmail required for a refused address; only then the upsert and the dashboard redirect with the signed token |
| AuthController.ReadTokens | src/controllers/authController.js:59-63 | whatever `getAccessToken(code)` gives back, reading `tokens.access_token` from it throws |
| AuthController.HandleCallbackAsWritten | src/controllers/authController.js:44-93 | with the call as written, the table never changes and no redirect goes to the dashboard; the error and missing-code redirects are unchanged |
| AuthController.CodeNeverSignsIn | src/controllers/authController.js:59-92 | as written, every callback with a code and no error ends at auth_failed, while the intended exchange of a token set with an access token signs a Gmail account in |
| AuthController.RedirectsDiffer | src/controllers/authController.js:51-87 | no error redirect is a dashboard redirect |
| AuthController.SignInThenAuthenticate | src/controllers/authController.js:79-87 | the dashboard token passes the authentication guard as the signed-in user |
| AuthController.Logout | src/controllers/authController.js:187-209 | a redirect home exactly when the Accept header mentions text/html; JSON otherwise |
| SendWorker.StartJobs | src/workers/sendWorker.js:21-46 | four jobs, each on the hour in UTC |
| SendWorker.Start | src/workers/sendWorker.js:9-50 | a running worker is unchanged; otherwise the four jobs are added and the worker runs |
| SendWorker.Stop | src/workers/sendWorker.js:83-93 | the worker stops and every registered job stays registered |
| SendWorker.JobsAtWindowStarts | src/workers/sendWorker.js:21-39 | each window's job fires at its start hour in the window table; the reset fires at midnight |
| SendWorker.RestartDuplicatesJobs | src/workers/sendWorker.js:9-93 | starting twice registers once; start, stop, start leaves eight jobs |
| SendWorker.JobsCount | src/workers/sendWorker.js:9-93 | after any starts and stops, the earlier jobs remain, plus four per start that found the worker stopped |
| SendWorker.RunTask | src/workers/sendWorker.js:52-81 | a handler always resolves and changes no schedule |
| SendWorker.FiringChangesNothing | src/workers/sendWorker.js:56-75 | firing any jobs, in any order, leaves the schedules as they were, because both handlers are still empty |
| Theme.Validated | public/js/theme.js:57-60 | a theme other than light or dark becomes light |
| Theme.SetTheme | public/js/theme.js:55-78 | the validated theme is shown with a matching body class, and it is stored exactly when asked to be |
| Theme.Init | public/js/theme.js:17-28 | the saved theme if any, else the system preference; nothing is stored |
| Theme.Toggle | public/js/theme.js:80-90 | dark becomes light and anything else becomes dark, and the new theme is stored |
| Theme.SystemChanged | public/js/theme.js:137-149 | a system change is followed, unstored, only when no theme is stored |
| Theme.ResetToSystem | public/js/theme.js:175-178 | the system theme is shown and stored |
| Theme.SetDarkMode | public/js/theme.js:167-169 | dark mode is shown and stored |
| Theme.SetLightMode | public/js/theme.js:171-173 | light mode is shown and stored |
| Theme.ExactlyOneMode | public/js/theme.js:159-165 | on a consistent page exactly one of dark and light mode holds, and the body class marks dark |
| Theme.ToggleTwice | public/js/theme.js:80-83 | two toggles restore a valid theme and leave it stored |
| Theme.ResetPinsTheme | public/js/theme.js:142-147 | after a reset, system changes no longer change the page |
| Theme.SavedThemeWins | public/js/theme.js:19-25 | a valid stored theme is shown at start and survives system changes |
| Theme.AlwaysConsistent | public/js/theme.js:55-178 | after any sequence of operations the page stays consistent, and only light, dark or what was already stored is stored |

## Left out

- **Persistence and queries.** Sequelize, the database connection, query
  orderings (`approvedAt`/`createdAt DESC`), joins and database errors other
  than those named below are not modelled. Tables are sequences in table
  order.
- **HTTP plumbing.** The server, the route files and the tracking route are
  left out. The auth, campaign, schedule and admin route files mount
  placeholder handlers, not these controllers. `featureFlagRoutes.js` does
  mount the four feature-flag handlers behind the authentication guard, but
  `server.js` never mounts that router. The model takes each handler on its
  own.
- **Controller operations not modelled.**
  - getUserCampaigns, getCurrentUser and redirectToGmail are plain
    projections or redirects.
  - checkGmailQuota, validateConnection and getGmailProfile are thin wrappers
    around Google calls.
  - getAllMoods and getMoodByName are single queries.
- **The outside world as parameters.** Google calls (code exchange, profile,
  token refresh, message send) and JWT signing and verification are outcome
  parameters. The shared `oauth2Client` credential state is not modelled.
- **Encryption.** AES-256-CBC, random IVs, base64 and JSON serialisation are
  left out. Encryption is an abstract inverse pair (`UserModel.EncryptTokens`
  and `UserModel.DecryptTokens`). The raw message's base64url encoding is
  left out too.
- **Clock and randomness.** There is one `now` per request and per batch, and
  the random mood pick is an index parameter. Dates are integer milliseconds,
  and `new Date(expirationAt)` parsing is not modelled.
- **Unimplemented worker bodies.** The TODO bodies of processWindow and
  dailyReset do nothing, so scheduled dispatch, quota decrement and the
  midnight reset have nothing to model. The cron runtime and time zones are
  left out; only the registration table is modelled.
- **Concurrency.** Parallel creates in `Promise.all` are modelled in order,
  and there is no locking.
- **Logging and browser side effects.** Console logging, the DOM toggle
  buttons, CSS injection, the theme-change event, the transition timer and
  localStorage exceptions are left out.
- **Number representation.** NaN and floating-point values are not JavaScript
  values in the model. Numbers are integers.
- **Model validators.** The `isEmail` validation on users is not modelled.
  For recipients it is a validator parameter.
- TemplateService.RenderLeavesNoBracket: requires that every `[` of the
  template opens a placeholder and that no value holds `[` or `$`. Without the
  first condition the property is false (see PlaceholderCanSurvive). The `$`
  patterns are modelled, but the guarantee is not stated for values that use
  them.
- FeatureFlagService.Get: after `__proto__` is toggled with an object value,
  the table inherits that object's keys. The model keeps reading the
  members of `Object.prototype`.
- AuthController.HandleCallback: the exchange parameter stands for the
  intended `getToken(code)`. The call the source makes is modelled separately
  (see Findings).
- FeatureFlagService.IsPremiumUser: returns `false` where the source returns
  the falsy `user` value itself (undefined or null). Both are falsy to every
  caller.
- Strings.ToUpper: upper-cases ASCII letters only. Full Unicode case mapping
  is not modelled. Strings.ToLower is limited the same way.
- CampaignController.CreateCampaign: recipients that are present but not an
  array are treated like absent ones. A name or description that is an
  object is treated like a number (the `.trim` call throws).
- CampaignController.ActiveCampaigns: the creator's name and the recipient
  count in each entry are not modelled. Nor is the 500 raised when a creator
  row is missing.
- AdminController.UpdateCampaignRecipients: a `recipients` value that is not
  an array is not modelled. The only bulk-insert failure modelled is an
  element without an address.
- GmailService.ExpiryRule: has no separate null expiry. A stored `null`
  `expires_at` compares as `0 <= now + buffer` in the source and counts as
  expired; the model treats every missing expiry like `undefined`, which never
  counts as expired.
- UserModel.DecryptTokens: the error text is the bare "Decryption failed"; the
  cipher's own message, which the source appends after a colon, is not
  modelled.
- ErrorHandler.HandleError: the inner `errors` of a Sequelize error are always
  a list. A missing list, which would throw inside the handler, is not
  modelled.

## Findings

| source | as written | input that shows it | evidently intended | confidence | as-written member | corrected member |
|---|---|---|---|---|---|---|
| src/controllers/campaignController.js:267-279 | `sendEmail` is called with six arguments, but it takes five: `(userId, recipientEmail, subject, bodyText, emailLogId)` (src/services/gmailService.js:101) | any recipient with personalized name "Ann": the message's Subject is "Ann", its body is the generated subject line, and the whole message text is appended unescaped to the tracking-pixel URL | `sendEmail(user.id, recipient.email, subject, message)` | not executed | CampaignController.ArgumentShift | CampaignController.IntendedMessage |
| src/controllers/campaignController.js:267-289 | the result of `sendEmail` is ignored and `sentCount++` always runs. `sendEmail` never throws, so the catch that records errors never runs | a campaign whose every delivery Gmail rejects: the answer reports all recipients sent and no errors, yet no message was delivered | count a recipient only when `result.success`, otherwise record `{ recipient, error }` | not executed | CampaignController.SentCountIgnoresFailures | CampaignController.CorrectedReportsFailures |
| src/controllers/authController.js:59 | the code is passed to `oauth2Client.getAccessToken(code)`. That method of google-auth-library takes only an optional callback: with a truthy argument it returns nothing, and otherwise it resolves to `{ token, res }`. Neither has a `tokens` property, so `tokens.access_token` throws | any callback with `code=abc` and no error: the browser is sent to `/?error=auth_failed` and no user is stored | `const { tokens } = await this.oauth2Client.getToken(code)` | not executed; rests on the library's published signature | AuthController.CodeNeverSignsIn | AuthController.HandleCallback |

=== FILE: admin_controller.dfy ===
/** The admin endpoints of `adminController.js`: the approval state machine
    of a campaign (approve, reject), editing a campaign and replacing its
    recipients, and the dashboard counts. The caller has already passed the
    admin guard; tables are passed in and handed back, the clock and the ids
    of new rows are parameters. */
module AdminController {
  import opened Wrappers
  import opened Strings
  import opened JsValues
  import opened Config
  import opened UserModel
  import opened CampaignModel
  import opened RecipientModel
  import opened Http

  const NOT_FOUND: string := "Campaign not found"
  const NOT_PENDING: string := "Campaign is not pending approval"
  const NO_REASON: string := "No reason provided"
  const UPDATE_FAILED: string := "Failed to update campaign"
  const RECIPIENTS_FAILED: string := "Failed to update campaign recipients"

  /** Every campaign other than the one at `i` is as it was. */
  predicate OthersUnchanged(cs: seq<Campaign>, cs': seq<Campaign>, i: nat) {
    |cs'| == |cs| && forall j :: 0 <= j < |cs| && j != i ==> cs'[j] == cs[j]
  }

  /* ------------------------------------------------------------ review */

  /** The summary of an approved campaign. */
  datatype Approved = Approved(id: string, name: string, status: CampaignStatus, approvedAt: int)

  /** `approveCampaign` of campaign `id` by `admin` at time `now`: 404 for an
      unknown id and 400 for a campaign that is not Pending, both leaving the
      table alone; otherwise that campaign becomes Active, approved by the
      admin at `now`, and nothing else changes. */
  function Approve(cs: seq<Campaign>, id: string, admin: User, now: int): (r: (seq<Campaign>, Response<Approved>))
    ensures FindCampaign(cs, id).None? ==> r == (cs, Failure(404, NOT_FOUND))
    ensures FindCampaign(cs, id).Some? && cs[FindCampaign(cs, id).value].status != Pending ==>
      r == (cs, Failure(400, NOT_PENDING))
    ensures r.1.Success? <==> FindCampaign(cs, id).Some? && cs[FindCampaign(cs, id).value].status == Pending
    ensures r.1.Success? ==>
      var i := FindCampaign(cs, id).value;
      && OthersUnchanged(cs, r.0, i)
      && r.0[i] == cs[i].(status := Active, approvedByAdminId := Some(admin.id), approvedAt := Some(now))
      && r.1.body == Approved(id, cs[i].name, Active, now)
  {
    match FindCampaign(cs, id)
    case None => (cs, Failure(404, NOT_FOUND))
    case Some(i) =>
      if cs[i].status != Pending then (cs, Failure(400, NOT_PENDING))
      else
        var c := cs[i].(status := Active, approvedByAdminId := Some(admin.id), approvedAt := Some(now));
        (cs[i := c], Success(Approved(c.id, c.name, c.status, now)))
  }

  /** The summary of a rejected campaign; `rejectionReason` is the reason as
      the request gave it. */
  datatype RejectedSummary = RejectedSummary(id: string, name: string, status: CampaignStatus, rejectionReason: Option<string>)

  /** The attributes `rejectCampaign` hands to `campaign.update`. */
  datatype RejectUpdate = RejectUpdate(status: CampaignStatus, approvedByAdminId: string, rejectionReason: string)

  /** `reason || 'No reason provided'`, the reason handed to the update, for an
      absent or string reason. */
  function ReasonArgument(reason: Option<string>): (r: string)
    ensures r != ""
    ensures reason.Some? && reason.value != "" ==> r == reason.value
    ensures reason.None? || reason.value == "" ==> r == NO_REASON
  {
    if reason.Some? && reason.value != "" then reason.value else NO_REASON
  }

  /** `campaign.update(attrs)` for the rejection attributes. Sequelize writes
      only attributes the model declares, and the Campaign model declares no
      `rejectionReason`, so the reason is dropped: only the status and the
      admin are written. */
  function ApplyRejectUpdate(c: Campaign, u: RejectUpdate): (r: Campaign)
    ensures r.status == u.status && r.approvedByAdminId == Some(u.approvedByAdminId)
    ensures r.(status := c.status, approvedByAdminId := c.approvedByAdminId) == c
  {
    c.(status := u.status, approvedByAdminId := Some(u.approvedByAdminId))
  }

  /** `rejectCampaign` of campaign `id` by `admin` with an optional `reason`:
      the same 404 and 400 guards as approval; otherwise that campaign becomes
      Rejected and records the admin, and nothing else changes. The reason is
      handed to the update but not kept; the answer echoes it as given. */
  function Reject(cs: seq<Campaign>, id: string, reason: Option<string>, admin: User): (r: (seq<Campaign>, Response<RejectedSummary>))
    ensures FindCampaign(cs, id).None? ==> r == (cs, Failure(404, NOT_FOUND))
    ensures FindCampaign(cs, id).Some? && cs[FindCampaign(cs, id).value].status != Pending ==>
      r == (cs, Failure(400, NOT_PENDING))
    ensures r.1.Success? <==> FindCampaign(cs, id).Some? && cs[FindCampaign(cs, id).value].status == Pending
    ensures r.1.Success? ==>
      var i := FindCampaign(cs, id).value;
      && OthersUnchanged(cs, r.0, i)
      && r.0[i].status == Rejected
      && r.0[i].approvedByAdminId == Some(admin.id)
      && r.0[i] == cs[i].(status := r.0[i].status, approvedByAdminId := r.0[i].approvedByAdminId)
      && r.1.body == RejectedSummary(id, cs[i].name, Rejected, reason)
  {
    match FindCampaign(cs, id)
    case None => (cs, Failure(404, NOT_FOUND))
    case Some(i) =>
      if cs[i].status != Pending then (cs, Failure(400, NOT_PENDING))
      else
        var c := ApplyRejectUpdate(cs[i], RejectUpdate(Rejected, admin.id, ReasonArgument(reason)));
        (cs[i := c], Success(RejectedSummary(c.id, c.name, c.status, reason)))
  }

  /** Review only ever moves a campaign out of Pending: after an approval or a
      rejection every campaign either is as it was, or was Pending and is now
      Active or Rejected. */
  predicate ReviewStep(cs: seq<Campaign>, cs': seq<Campaign>) {
    |cs'| == |cs| &&
    forall j :: 0 <= j < |cs| ==>
      cs'[j] == cs[j] || (cs[j].status == Pending && cs'[j].status in {Active, Rejected} && cs'[j].id == cs[j].id)
  }

  lemma ReviewMovesOnlyPending(cs: seq<Campaign>, id: string, reason: Option<string>, admin: User, now: int)
    ensures ReviewStep(cs, Approve(cs, id, admin, now).0)
    ensures ReviewStep(cs, Reject(cs, id, reason, admin).0)
  {
  }

  /** Active, Rejected and Expired are fixed points of review: a campaign in
      one of them is answered 400 by both and the table stays as it was. */
  lemma ReviewFixedPoints(cs: seq<Campaign>, id: string, reason: Option<string>, admin: User, now: int)
    requires FindCampaign(cs, id).Some? && cs[FindCampaign(cs, id).value].status in {Active, Rejected, Expired}
    ensures Approve(cs, id, admin, now) == (cs, Failure(400, NOT_PENDING))
    ensures Reject(cs, id, reason, admin) == (cs, Failure(400, NOT_PENDING))
  {
  }

  /** Review happens once: after a successful approval or rejection, a second
      approval or rejection of the same campaign is refused and changes
      nothing. */
  lemma ReviewOnce(cs: seq<Campaign>, id: string, reason: Option<string>, admin: User, other: User, now: int, later: int)
    requires Approve(cs, id, admin, now).1.Success? || Reject(cs, id, reason, admin).1.Success?
    ensures var after := if Approve(cs, id, admin, now).1.Success? then Approve(cs, id, admin, now).0
                         else Reject(cs, id, reason, admin).0;
      && Approve(after, id, other, later) == (after, Failure(400, NOT_PENDING))
      && Reject(after, id, reason, other) == (after, Failure(400, NOT_PENDING))
  {
    var i := FindCampaign(cs, id).value;
    var after := if Approve(cs, id, admin, now).1.Success? then Approve(cs, id, admin, now).0
                 else Reject(cs, id, reason, admin).0;
    SameKeysSameFind(cs, after, id);
  }

  /** Rewriting rows without touching their ids does not move a lookup. */
  lemma {:induction false} SameKeysSameFind(cs: seq<Campaign>, cs': seq<Campaign>, id: string)
    requires |cs'| == |cs| && forall j :: 0 <= j < |cs| ==> cs'[j].id == cs[j].id
    ensures FindCampaign(cs', id) == FindCampaign(cs, id)
    decreases |cs|
  {
    if |cs| > 0 && cs[0].id != id {
      SameKeysSameFind(cs[1..], cs'[1..], id);
    }
  }

  /** A rejection without a reason hands the stock text to the update but
      answers with no reason at all. */
  lemma RejectEchoesRawReason(cs: seq<Campaign>, id: string, admin: User)
    requires Reject(cs, id, None, admin).1.Success?
    ensures ReasonArgument(None) == "No reason provided"
    ensures Reject(cs, id, None, admin).1.body.rejectionReason.None?
  {
  }

  /** The reason leaves no trace in the table: rejecting with any two reasons
      leaves the same campaigns, and only the answers differ. */
  lemma ReasonNotPersisted(cs: seq<Campaign>, id: string, r1: Option<string>, r2: Option<string>, admin: User)
    ensures Reject(cs, id, r1, admin).0 == Reject(cs, id, r2, admin).0
    ensures Reject(cs, id, r1, admin).1.Success? ==>
      Reject(cs, id, r1, admin).1.body.rejectionReason == r1
  {
  }

  /* ------------------------------------------------------------ editing */

  /** The fields of an edit request; `Undefined` (or `None`) is a field the
      request leaves out. `expirationAt` is the already parsed timestamp. */
  datatype Edit = Edit(name: JsValue, description: JsValue, expirationAt: Option<int>)

  /** The summary of an edited campaign. */
  datatype Updated = Updated(id: string, name: string, description: string, status: CampaignStatus, expirationAt: int)

  /** `.trim()` of a supplied field can be evaluated: the field is left out or
      is a string. */
  predicate Trimmable(v: JsValue) {
    v.Undefined? || v.Str?
  }

  /** The new value of a trimmed text field. */
  function EditText(v: JsValue, current: string): (r: string)
    requires Trimmable(v)
    ensures v.Undefined? ==> r == current
    ensures v.Str? ==> r == Trim(v.s)
  {
    if v.Str? then Trim(v.s) else current
  }

  /** `updateCampaign`: 404 for an unknown id; 500 when a supplied name or
      description is not a string (its `.trim` throws before anything is
      written); otherwise exactly the supplied fields change — name and
      description trimmed, the expiry as given — in whatever status the
      campaign is. */
  function UpdateCampaign(cs: seq<Campaign>, id: string, e: Edit): (r: (seq<Campaign>, Response<Updated>))
    ensures FindCampaign(cs, id).None? ==> r == (cs, Failure(404, NOT_FOUND))
    ensures FindCampaign(cs, id).Some? && !(Trimmable(e.name) && Trimmable(e.description)) ==>
      r == (cs, Failure(500, UPDATE_FAILED))
    ensures r.1.Success? <==> FindCampaign(cs, id).Some? && Trimmable(e.name) && Trimmable(e.description)
    ensures r.1.Success? ==> OthersUnchanged(cs, r.0, FindCampaign(cs, id).value)
    ensures r.1.Success? ==>
      var i := FindCampaign(cs, id).value;
      var c := r.0[i];
      && (e.name.Undefined? ==> c.name == cs[i].name) && (e.name.Str? ==> c.name == Trim(e.name.s))
      && (e.description.Undefined? ==> c.description == cs[i].description)
      && (e.description.Str? ==> c.description == Trim(e.description.s))
      && c.expirationAt == e.expirationAt.GetOr(cs[i].expirationAt)
      && c == cs[i].(name := c.name, description := c.description, expirationAt := c.expirationAt)
      && r.1.body == Updated(id, c.name, c.description, cs[i].status, c.expirationAt)
  {
    match FindCampaign(cs, id)
    case None => (cs, Failure(404, NOT_FOUND))
    case Some(i) =>
      if !Trimmable(e.name) || !Trimmable(e.description) then (cs, Failure(500, UPDATE_FAILED))
      else
        var c := cs[i].(name := EditText(e.name, cs[i].name),
                        description := EditText(e.description, cs[i].description),
                        expirationAt := e.expirationAt.GetOr(cs[i].expirationAt));
        (cs[i := c], Success(Updated(c.id, c.name, c.description, c.status, c.expirationAt)))
  }

  /** Editing never moves a campaign through the approval states, and an edit
      applied twice is the same as applied once. */
  lemma EditIdempotent(cs: seq<Campaign>, id: string, e: Edit)
    requires UpdateCampaign(cs, id, e).1.Success?
    ensures var cs' := UpdateCampaign(cs, id, e).0;
      && (forall j :: 0 <= j < |cs| ==> cs'[j].status == cs[j].status && cs'[j].id == cs[j].id)
      && UpdateCampaign(cs', id, e) == UpdateCampaign(cs, id, e).(0 := cs')
  {
    var cs' := UpdateCampaign(cs, id, e).0;
    var i := FindCampaign(cs, id).value;
    SameKeysSameFind(cs, cs', id);
    if e.name.Str? { TrimIdempotent(e.name.s); }
    if e.description.Str? { TrimIdempotent(e.description.s); }
    assert cs'[i := UpdateCampaign(cs', id, e).0[i]] == cs';
  }

  /* ------------------------------------------------------------ recipients */

  /** One element of the replacement list. `email` is `None` when the element
      has none; `displayName` is the raw field. */
  datatype RecipientEntry = RecipientEntry(email: Option<string>, displayName: Option<string>)

  /** `recipient.displayName || recipient.email.split('@')[0]`: a non-empty
      display name, or else the address up to its first `@` (all of it when
      there is none). */
  function ReplacementName(x: RecipientEntry): (r: string)
    requires x.email.Some?
    ensures x.displayName.Some? && x.displayName.value != "" ==> r == x.displayName.value
    ensures (x.displayName.None? || x.displayName.value == "") ==>
      IsPrefix(r, x.email.value) && '@' !in r && (|r| < |x.email.value| ==> x.email.value[|r|] == '@')
  {
    if x.displayName.Some? && x.displayName.value != "" then x.displayName.value
    else BeforeFirst(x.email.value, '@')
  }

  /** Without a display name, "ann@x.org" is listed as "ann", and an address
      with no `@` is listed whole. */
  lemma ReplacementNameFromAddress()
    ensures ReplacementName(RecipientEntry(Some("ann@x.org"), None)) == "ann"
    ensures ReplacementName(RecipientEntry(Some("ann"), Some(""))) == "ann"
  {
    var r := ReplacementName(RecipientEntry(Some("ann@x.org"), None));
    var e := "ann@x.org";
    assert e[3] == '@' && '@' !in e[..3];
    assert r == e[..3];
  }

  /** The row bulk-created for element `x`. The display name and the
      personalized name are the same text; the element's own personalized
      name, if it had one, plays no part. */
  function ReplacementRow(id: string, campaignId: string, x: RecipientEntry): (r: Recipient)
    requires x.email.Some?
    ensures r.id == id && r.campaignId == campaignId && r.email == x.email.value
    ensures r.displayName == ReplacementName(x)
    ensures r.personalizedName == Some(r.displayName)
  {
    Recipient(id, campaignId, x.email.value, ReplacementName(x), Some(ReplacementName(x)))
  }

  /** Every element has an e-mail address. */
  predicate AllAddressed(xs: seq<RecipientEntry>) {
    forall i :: 0 <= i < |xs| ==> xs[i].email.Some?
  }

  /** The rows that replace a campaign's recipients; row `i` gets id `idOf(i)`. */
  function ReplacementRows(xs: seq<RecipientEntry>, campaignId: string, idOf: nat -> string): (r: seq<Recipient>)
    requires AllAddressed(xs)
    ensures |r| == |xs|
    ensures forall i :: 0 <= i < |xs| ==> r[i] == ReplacementRow(idOf(i), campaignId, xs[i])
  {
    seq(|xs|, i requires 0 <= i < |xs| => ReplacementRow(idOf(i), campaignId, xs[i]))
  }

  /** `updateCampaignRecipients` of campaign `id` with an optional list
      (`None` when absent): 404 for an unknown id, with nothing removed.
      Otherwise the campaign's recipients are removed first; when some
      element lacks an e-mail the name defaulting or the insert fails, so the
      answer is 500 and the campaign is left with no recipients; otherwise
      the rows of the list are added and the answer is its length. */
  function UpdateCampaignRecipients(cs: seq<Campaign>, rs: seq<Recipient>, id: string,
                                    recipients: Option<seq<RecipientEntry>>, idOf: nat -> string): (r: (seq<Recipient>, Response<nat>))
    ensures FindCampaign(cs, id).None? ==> r == (rs, Failure(404, NOT_FOUND))
    ensures r.1.Success? <==> FindCampaign(cs, id).Some? && (recipients.None? || AllAddressed(recipients.value))
    ensures r.1.Failure? && FindCampaign(cs, id).Some? ==> r == (Without(rs, id), Failure(500, RECIPIENTS_FAILED))
    ensures r.1.Success? ==>
      var xs := recipients.GetOr([]);
      && r.0 == Without(rs, id) + ReplacementRows(xs, id, idOf)
      && r.1.body == |xs|
  {
    if FindCampaign(cs, id).None? then (rs, Failure(404, NOT_FOUND))
    else
      var kept := Without(rs, id);
      if recipients.None? || |recipients.value| == 0 then (kept, Success(0))
      else if !AllAddressed(recipients.value) then (kept, Failure(500, RECIPIENTS_FAILED))
      else (kept + ReplacementRows(recipients.value, id, idOf), Success(|recipients.value|))
  }

  /** After a successful replacement the campaign's recipients are exactly
      the rows of the list, in order, and every other campaign's recipients
      are as they were. */
  lemma ReplacementIsExact(cs: seq<Campaign>, rs: seq<Recipient>, id: string,
                           recipients: Option<seq<RecipientEntry>>, idOf: nat -> string, other: string)
    requires UpdateCampaignRecipients(cs, rs, id, recipients, idOf).1.Success?
    requires other != id
    ensures var rs' := UpdateCampaignRecipients(cs, rs, id, recipients, idOf).0;
      && Of(rs', id) == ReplacementRows(recipients.GetOr([]), id, idOf)
      && Of(rs', other) == Of(rs, other)
  {
    var xs := recipients.GetOr([]);
    var rows := ReplacementRows(xs, id, idOf);
    OfAppend(Without(rs, id), rows, id);
    OfAppend(Without(rs, id), rows, other);
    OfWithout(rs, id, id);
    OfWithout(rs, id, other);
    OfAll(rows, id);
    OfNone(rows, id, other);
  }

  /** Replacing with the same list twice (with the same ids) gives the table
      a single replacement gives. */
  lemma ReplacementIdempotent(cs: seq<Campaign>, rs: seq<Recipient>, id: string,
                              recipients: Option<seq<RecipientEntry>>, idOf: nat -> string)
    requires UpdateCampaignRecipients(cs, rs, id, recipients, idOf).1.Success?
    ensures var once := UpdateCampaignRecipients(cs, rs, id, recipients, idOf);
      UpdateCampaignRecipients(cs, once.0, id, recipients, idOf) == once
  {
    var kept := Without(rs, id);
    WithoutTwice(rs, id);
    if recipients.Some? && |recipients.value| > 0 {
      var rows := ReplacementRows(recipients.value, id, idOf);
      WithoutAppend(kept, rows, id);
      WithoutAll(rows, id);
      assert Without(kept + rows, id) == kept;
    }
  }

  lemma {:induction false} WithoutAppend(a: seq<Recipient>, b: seq<Recipient>, c: string)
    ensures Without(a + b, c) == Without(a, c) + Without(b, c)
    decreases |a|
  {
    if |a| > 0 {
      assert (a + b)[1..] == a[1..] + b;
      WithoutAppend(a[1..], b, c);
    } else {
      assert a + b == b;
    }
  }

  lemma {:induction false} WithoutTwice(rs: seq<Recipient>, c: string)
    ensures Without(Without(rs, c), c) == Without(rs, c)
    decreases |rs|
  {
    if |rs| > 0 {
      WithoutTwice(rs[1..], c);
      var head := if rs[0].campaignId != c then [rs[0]] else [];
      WithoutAppend(head, Without(rs[1..], c), c);
    }
  }

  lemma {:induction false} WithoutAll(rs: seq<Recipient>, c: string)
    requires forall i :: 0 <= i < |rs| ==> rs[i].campaignId == c
    ensures Without(rs, c) == []
    decreases |rs|
  {
    if |rs| > 0 {
      WithoutAll(rs[1..], c);
    }
  }

  /* ------------------------------------------------------------ listings */

  /** One entry of the review queue. */
  datatype PendingEntry = PendingEntry(campaign: Campaign, recipientCount: nat)

  /** `getPendingCampaigns`: the Pending campaigns with the number of their
      recipients, in table order (the `createdAt DESC` ordering is not
      modelled). */
  function PendingCampaigns(cs: seq<Campaign>, rs: seq<Recipient>): (r: seq<PendingEntry>)
    ensures |r| <= |cs|
    ensures forall e :: e in r ==> e.campaign in cs && e.campaign.status == Pending && e.recipientCount == |Of(rs, e.campaign.id)|
    ensures forall c :: c in cs && c.status == Pending ==> PendingEntry(c, |Of(rs, c.id)|) in r
  {
    if |cs| == 0 then []
    else
      (if cs[0].status == Pending then [PendingEntry(cs[0], |Of(rs, cs[0].id)|)] else [])
      + PendingCampaigns(cs[1..], rs)
  }

  /** `getAllCampaigns`: every campaign, whatever its status, with the number
      of its recipients (ordering and the creator projection are not
      modelled). */
  function AllCampaigns(cs: seq<Campaign>, rs: seq<Recipient>): (r: seq<PendingEntry>)
    ensures |r| == |cs|
    ensures forall i :: 0 <= i < |cs| ==> r[i] == PendingEntry(cs[i], |Of(rs, cs[i].id)|)
  {
    seq(|cs|, i requires 0 <= i < |cs| => PendingEntry(cs[i], |Of(rs, cs[i].id)|))
  }

  /** The review queue is the full listing restricted to Pending campaigns. */
  lemma {:induction false} PendingIsFilteredListing(cs: seq<Campaign>, rs: seq<Recipient>)
    ensures forall e :: e in PendingCampaigns(cs, rs) <==> e in AllCampaigns(cs, rs) && e.campaign.status == Pending
  {
    forall e ensures e in PendingCampaigns(cs, rs) <==> e in AllCampaigns(cs, rs) && e.campaign.status == Pending {
      if e in PendingCampaigns(cs, rs) {
        var i :| 0 <= i < |cs| && cs[i] == e.campaign;
        assert AllCampaigns(cs, rs)[i] == e;
      }
      if e in AllCampaigns(cs, rs) && e.campaign.status == Pending {
        var i :| 0 <= i < |cs| && AllCampaigns(cs, rs)[i] == e;
        assert cs[i] in cs;
      }
    }
  }

  /** `getCampaignRecipients`: 404 for an unknown id, else the campaign's
      recipients. */
  function CampaignRecipients(cs: seq<Campaign>, rs: seq<Recipient>, id: string): (r: Response<seq<Recipient>>)
    ensures r.Failure? <==> FindCampaign(cs, id).None?
    ensures r.Failure? ==> r == Failure(404, NOT_FOUND)
    ensures r.Success? ==> forall x :: x in r.body <==> x in rs && x.campaignId == id
  {
    if FindCampaign(cs, id).None? then Failure(404, NOT_FOUND) else Success(Of(rs, id))
  }

  /** A campaign leaves the review queue once it is approved. */
  lemma ApprovedLeavesQueue(cs: seq<Campaign>, rs: seq<Recipient>, id: string, admin: User, now: int)
    requires Approve(cs, id, admin, now).1.Success?
    ensures var c := Approve(cs, id, admin, now).0[FindCampaign(cs, id).value];
      forall e :: e in PendingCampaigns(Approve(cs, id, admin, now).0, rs) ==> e.campaign != c
  {
  }

  /* ------------------------------------------------------------ statistics */

  /** The number of campaigns in status `st`. */
  function CountStatus(cs: seq<Campaign>, st: CampaignStatus): (n: nat)
    ensures n <= |cs|
  {
    if |cs| == 0 then 0
    else (if cs[0].status == st then 1 else 0) + CountStatus(cs[1..], st)
  }

  datatype Stats = Stats(pending: nat, active: nat, rejected: nat, total: nat, users: nat)

  /** `getAdminStats`: the per-status counts, their sum as the campaign total,
      and the number of users. Expired campaigns are in no count, so the
      total falls short of the table by exactly their number. */
  function AdminStats(cs: seq<Campaign>, users: seq<User>): (s: Stats)
    ensures s.total == s.pending + s.active + s.rejected
    ensures s.users == |users|
    ensures s.total + CountStatus(cs, Expired) == |cs|
  {
    StatusesPartition(cs);
    var p := CountStatus(cs, Pending);
    var a := CountStatus(cs, Active);
    var j := CountStatus(cs, Rejected);
    Stats(p, a, j, p + a + j, |users|)
  }

  lemma {:induction false} StatusesPartition(cs: seq<Campaign>)
    ensures CountStatus(cs, Pending) + CountStatus(cs, Active) + CountStatus(cs, Rejected)
            + CountStatus(cs, Expired) == |cs|
    decreases |cs|
  {
    if |cs| > 0 {
      StatusesPartition(cs[1..]);
    }
  }

  /** The total counts every campaign exactly when none has expired. */
  lemma StatsTotalIff(cs: seq<Campaign>, users: seq<User>)
    ensures AdminStats(cs, users).total == |cs| <==> forall c :: c in cs ==> c.status != Expired
  {
    ExpiredCount(cs);
  }

  lemma {:induction false} ExpiredCount(cs: seq<Campaign>)
    ensures CountStatus(cs, Expired) == 0 <==> forall c :: c in cs ==> c.status != Expired
    decreases |cs|
  {
    if |cs| > 0 {
      ExpiredCount(cs[1..]);
      assert forall c :: c in cs <==> c == cs[0] || c in cs[1..];
    }
  }

  /** Review keeps the total of the table's campaigns and moves one campaign
      from pending to active (approval) or rejected (rejection). */
  lemma ReviewStats(cs: seq<Campaign>, users: seq<User>, id: string, reason: Option<string>, admin: User, now: int)
    requires Approve(cs, id, admin, now).1.Success?
    ensures var s := AdminStats(cs, users);
      var a := AdminStats(Approve(cs, id, admin, now).0, users);
      var j := AdminStats(Reject(cs, id, reason, admin).0, users);
      && a.pending + 1 == s.pending && a.active == s.active + 1 && a.rejected == s.rejected
      && j.pending + 1 == s.pending && j.active == s.active && j.rejected == s.rejected + 1
      && a.total == s.total == j.total
  {
    var i := FindCampaign(cs, id).value;
    CountUpdate(cs, i, Approve(cs, id, admin, now).0[i]);
    CountUpdate(cs, i, Reject(cs, id, reason, admin).0[i]);
  }

  /** Replacing the row at `i` moves one unit of count from its old status
      to its new one. */
  lemma {:induction false} CountUpdate(cs: seq<Campaign>, i: nat, c: Campaign)
    requires i < |cs|
    ensures forall st :: (CountStatus(cs[i := c], st) ==
      CountStatus(cs, st) - (if cs[i].status == st then 1 else 0) + (if c.status == st then 1 else 0))
    decreases |cs|
  {
    if i > 0 {
      CountUpdate(cs[1..], i - 1, c);
      assert cs[i := c][1..] == cs[1..][i - 1 := c];
    } else {
      assert cs[i := c][1..] == cs[1..];
    }
  }
}

=== FILE: admin_middleware.dfy ===
/** The admin guard of `adminMiddleware.js`, which runs after the
    authentication guard: no user is 401, a user who is not an admin is 403,
    an admin goes on. */
module AdminMiddleware {
  import opened Wrappers
  import opened UserModel
  import opened AuthMiddleware

  const AUTH_REQUIRED: string := "Authentication required."
  const ADMIN_REQUIRED: string := "Access denied. Admin privileges required."

  /** `adminMiddleware` for a request whose `req.user` is `user` (`None` when
      unset). Exactly one of 401, 403 or passing on happens, and the request
      passes on with the same user. */
  function RequireAdmin(user: Option<User>): (r: Outcome)
    ensures user.None? <==> r == Deny(401, AUTH_REQUIRED)
    ensures user.Some? && !user.value.isAdmin <==> r == Deny(403, ADMIN_REQUIRED)
    ensures r.Next? <==> user.Some? && user.value.isAdmin
    ensures r.Next? ==> r.user == user.value
  {
    match user
    case None => Deny(401, AUTH_REQUIRED)
    case Some(u) => if !u.isAdmin then Deny(403, ADMIN_REQUIRED) else Next(u)
  }

  /** The two guards in sequence, the order the admin guard is written for:
      it runs only when authentication passed the request on. */
  function AdminChain(header: Option<string>, verify: string -> Result<string, string>, users: seq<User>): (r: Outcome)
    ensures r.Next? ==> r == Authenticate(header, verify, users)
  {
    var a := Authenticate(header, verify, users);
    if a.Deny? then a else RequireAdmin(Some(a.user))
  }

  /** A request gets through both guards exactly when its token names an
      existing admin, and then carries that admin; every refusal of the
      authentication guard is passed through unchanged, and the admin guard
      itself can then only answer 403. */
  lemma AdminChainIff(header: Option<string>, verify: string -> Result<string, string>, users: seq<User>)
    ensures var r := AdminChain(header, verify, users);
      var a := Authenticate(header, verify, users);
      && (r.Next? <==> a.Next? && a.user.isAdmin)
      && (a.Deny? ==> r == a)
      && (a.Next? && r.Deny? ==> r == Deny(403, ADMIN_REQUIRED))
      && (r.Next? ==> r.user in users && r.user.isAdmin)
  {
  }
}

=== FILE: auth_controller.dfy ===
/** The sign-in flow of `authController.js`: the Gmail OAuth callback with its
    ordered failure redirects, the account check, the find-or-create upsert
    of the user with its encrypted tokens, the session token's payload, and
    logout. The code exchange, the profile lookup and JWT signing are
    outcome parameters; the clock and the id of a new user are parameters. */
module AuthController {
  import opened Wrappers
  import opened Strings
  import opened JsValues
  import opened Config
  import opened UserModel
  import opened AuthMiddleware

  const ACCESS_DENIED: string := "/?error=access_denied"
  const MISSING_CODE: string := "/?error=missing_code"
  const GMAIL_REQUIRED: string := "/?error=gmail_required"
  const AUTH_FAILED: string := "/?error=auth_failed"
  const DASHBOARD: string := "/dashboard?token="
  const LOGGED_OUT: string := "/?success=logout"

  /** Default token lifetime when Google gives no expiry: one hour. */
  const DEFAULT_TOKEN_LIFETIME_MS: int := 3600 * 1000
  /** The `expiresIn` of the session token. */
  const SESSION_EXPIRES_IN: string := "7d"

  /* ------------------------------------------------------------ account check */

  /** `isGmailAccount(email)`: a present, non-empty address, whatever its
      domain, since the workspace check admits every account. */
  predicate IsGmailAccount(email: Option<string>) {
    email.Some? && email.value != "" && (EndsWith(email.value, "@gmail.com") || IsGoogleWorkspaceAccount(email.value))
  }

  /** `isGoogleWorkspaceAccount`: admits every address. */
  predicate IsGoogleWorkspaceAccount(email: string) {
    true
  }

  /** The domain test is dead: exactly the non-empty addresses pass, so an
      address outside gmail.com is admitted as well. */
  lemma GmailCheckAdmitsAll(email: Option<string>)
    ensures IsGmailAccount(email) <==> email.Some? && email.value != ""
    ensures IsGmailAccount(Some("someone@example.org"))
  {
  }

  /* ------------------------------------------------------------ upsert */

  /** The tokens Google returns for an authorization code. */
  datatype OAuthTokens = OAuthTokens(accessToken: Option<string>, refreshToken: Option<string>, expiryDate: Option<int>)

  /** `tokens.access_token` is truthy: present and not empty. */
  predicate HasAccessToken(t: OAuthTokens) {
    t.accessToken.Some? && t.accessToken.value != ""
  }

  /** The Google profile of the signed-in account. */
  datatype Profile = Profile(email: Option<string>, name: string)

  /** `tokens.expiry_date || Date.now() + 3600 * 1000` */
  function ExpiresAt(t: OAuthTokens, now: int): (e: int)
    ensures t.expiryDate.Some? && t.expiryDate.value != 0 ==> e == t.expiryDate.value
    ensures t.expiryDate.None? || t.expiryDate.value == 0 ==> e == now + 3600000
  {
    if t.expiryDate.Some? && t.expiryDate.value != 0 then t.expiryDate.value else now + DEFAULT_TOKEN_LIFETIME_MS
  }

  /** The token record that is encrypted and stored. */
  function StoredRecord(t: OAuthTokens, now: int): Tokens {
    Tokens(t.accessToken, t.refreshToken, Some(ExpiresAt(t, now)))
  }

  /** `findOrCreateUser(profile, tokens)`: the user with the profile's
      address gets the profile's name and fresh tokens and keeps its id,
      address, tier and admin flag; without one, a Free, non-admin user with
      id `newId` is appended. Either way the stored tokens decrypt to the
      access and refresh tokens received, expiring at the given expiry or an
      hour after `now`. */
  function FindOrCreateUser(users: seq<User>, p: Profile, t: OAuthTokens, now: int, newId: string): (r: (seq<User>, User))
    requires p.email.Some?
    ensures r.1.email == p.email.value && r.1.name == p.name
    ensures r.1.oauthEncryptedTokens.Some? && DecryptTokens(r.1.oauthEncryptedTokens.value) == Ok(StoredRecord(t, now))
    ensures FindByEmail(users, p.email.value).Some? ==>
      var i := FindByEmail(users, p.email.value).value;
      && |r.0| == |users| && r.0[i] == r.1
      && (forall j :: 0 <= j < |users| && j != i ==> r.0[j] == users[j])
      && r.1.id == users[i].id && r.1.tier == users[i].tier && r.1.isAdmin == users[i].isAdmin
    ensures FindByEmail(users, p.email.value).None? ==>
      r.0 == users + [r.1] && r.1.id == newId && r.1.tier == Free && !r.1.isAdmin
  {
    var sealed := EncryptTokens(StoredRecord(t, now));
    match FindByEmail(users, p.email.value)
    case Some(i) =>
      var u := users[i].(name := p.name, oauthEncryptedTokens := Some(sealed));
      (users[i := u], u)
    case None =>
      var u := User(newId, p.email.value, p.name, Some(sealed), Free, false);
      (users + [u], u)
  }

  /** No two users share an id, and no two share an address. */
  predicate WellKeyed(users: seq<User>) {
    forall i, j :: 0 <= i < j < |users| ==> users[i].id != users[j].id && users[i].email != users[j].email
  }

  /** The upsert keeps the table well keyed when the new id is fresh, and
      signing in again with the same address updates the same row instead of
      adding one. */
  lemma UpsertKeepsKeys(users: seq<User>, p: Profile, t: OAuthTokens, t2: OAuthTokens, now: int, later: int,
                        newId: string, newId2: string)
    requires p.email.Some? && WellKeyed(users) && FindUser(users, newId).None?
    ensures var (once, u) := FindOrCreateUser(users, p, t, now, newId);
      && WellKeyed(once)
      && FindByEmail(once, p.email.value).Some?
      && var (twice, u2) := FindOrCreateUser(once, p, t2, later, newId2);
         |twice| == |once| && u2.id == u.id
  {
    var e := p.email.value;
    var (once, u) := FindOrCreateUser(users, p, t, now, newId);
    if FindByEmail(users, e).None? {
      assert once[|users|] == u;
      assert once[|users|].email == e;
      var k := FindByEmail(once, e).value;
      assert k == |users|;
    }
  }

  /* ------------------------------------------------------------ session token */

  /** The claims of the session token. */
  datatype Payload = Payload(userId: string, email: string, tier: Tier, isAdmin: bool)

  /** `generateJwtToken(user)`: the user's id, address, tier and admin flag,
      signed to expire in seven days. */
  function SessionPayload(u: User): (p: Payload)
    ensures p.userId == u.id && p.email == u.email && p.tier == u.tier && p.isAdmin == u.isAdmin
  {
    Payload(u.id, u.email, u.tier, u.isAdmin)
  }

  /* ------------------------------------------------------------ callback */

  /** The query of the callback request. */
  datatype CallbackQuery = CallbackQuery(code: JsValue, error: JsValue)

  /** `handleGmailCallback`: the redirect it answers with, and the user
      table after it. In order: an error from Google (access denied), no
      code (missing code), a failed exchange or one whose access token is
      missing or empty (auth failed), a failed profile lookup (auth failed),
      an account the check refuses (Gmail required); only then is the user
      upserted and the browser sent to the dashboard with the signed session
      token. The exchange stands for the intended `getToken(code)`; see
      `HandleCallbackAsWritten` for the call the source makes. */
  function HandleCallback(users: seq<User>, q: CallbackQuery, exchange: Result<OAuthTokens, string>,
                          profile: Result<Profile, string>, now: int, newId: string,
                          sign: Payload -> string): (r: (seq<User>, string))
    ensures Truthy(q.error) ==> r == (users, ACCESS_DENIED)
    ensures !Truthy(q.error) && !Truthy(q.code) ==> r == (users, MISSING_CODE)
    ensures !Truthy(q.error) && Truthy(q.code) && (exchange.Err? || !HasAccessToken(exchange.value) || profile.Err?) ==>
      r == (users, AUTH_FAILED)
    ensures r.1 == GMAIL_REQUIRED <==>
      !Truthy(q.error) && Truthy(q.code) && exchange.Ok? && HasAccessToken(exchange.value)
      && profile.Ok? && !IsGmailAccount(profile.value.email)
    ensures r.0 != users ==> IsPrefix(DASHBOARD, r.1)
    ensures IsPrefix(DASHBOARD, r.1) <==>
      !Truthy(q.error) && Truthy(q.code) && exchange.Ok? && HasAccessToken(exchange.value)
      && profile.Ok? && IsGmailAccount(profile.value.email)
    ensures IsPrefix(DASHBOARD, r.1) ==>
      var (us, u) := FindOrCreateUser(users, profile.value, exchange.value, now, newId);
      r == (us, DASHBOARD + sign(SessionPayload(u)))
  {
    RedirectsDiffer();
    if Truthy(q.error) then (users, ACCESS_DENIED)
    else if !Truthy(q.code) then (users, MISSING_CODE)
    else if exchange.Err? || !HasAccessToken(exchange.value) then (users, AUTH_FAILED)
    else if profile.Err? then (users, AUTH_FAILED)
    else if !IsGmailAccount(profile.value.email) then (users, GMAIL_REQUIRED)
    else
      var (us, u) := FindOrCreateUser(users, profile.value, exchange.value, now, newId);
      (us, DASHBOARD + sign(SessionPayload(u)))
  }

  /** The error redirects are not dashboard redirects. */
  lemma RedirectsDiffer()
    ensures forall url :: url in {ACCESS_DENIED, MISSING_CODE, AUTH_FAILED, GMAIL_REQUIRED} ==> !IsPrefix(DASHBOARD, url)
    ensures forall s :: (DASHBOARD + s)[1] == 'd' && GMAIL_REQUIRED[1] == '?'
  {
  }

  /** What `oauth2Client.getAccessToken(code)` gives back. That call
      exchanges no code: its one optional parameter is a callback, so with a
      truthy argument it returns nothing, and without one it resolves to
      `{ token, res }`, the client's own current access token. Neither holds
      a `tokens` property. */
  datatype AccessTokenReply = NoReply | AccessTokenResponse(token: Option<string>)

  /** `const { tokens } = await reply` followed by `tokens.access_token`:
      destructuring nothing throws, and reading `access_token` of the missing
      `tokens` throws as well, so every reply ends in the catch block. */
  function ReadTokens(reply: AccessTokenReply): (r: Result<OAuthTokens, string>)
    ensures r.Err?
  {
    match reply
    case NoReply => Err("Cannot destructure property 'tokens' of undefined")
    case AccessTokenResponse(_) => Err("Cannot read properties of undefined (reading 'access_token')")
  }

  /** `handleGmailCallback` with the call it actually makes: the code is
      handed to `getAccessToken`, whose reply yields no token set. */
  function HandleCallbackAsWritten(users: seq<User>, q: CallbackQuery, reply: AccessTokenReply,
                                   profile: Result<Profile, string>, now: int, newId: string,
                                   sign: Payload -> string): (r: (seq<User>, string))
    ensures r.0 == users && !IsPrefix(DASHBOARD, r.1)
    ensures Truthy(q.error) ==> r.1 == ACCESS_DENIED
    ensures !Truthy(q.error) && !Truthy(q.code) ==> r.1 == MISSING_CODE
  {
    HandleCallback(users, q, ReadTokens(reply), profile, now, newId, sign)
  }

  /** As written, no sign-in succeeds: every callback that carries a code
      ends at `auth_failed`, while the intended exchange of the same code
      for a token set with an access token reaches the dashboard for a
      Gmail account. */
  lemma {:induction false} CodeNeverSignsIn(users: seq<User>, q: CallbackQuery, reply: AccessTokenReply,
                                            exchanged: OAuthTokens, profile: Profile, now: int, newId: string,
                                            sign: Payload -> string)
    requires !Truthy(q.error) && Truthy(q.code)
    ensures HandleCallbackAsWritten(users, q, reply, Ok(profile), now, newId, sign) == (users, AUTH_FAILED)
    ensures HasAccessToken(exchanged) && IsGmailAccount(profile.email) ==>
      IsPrefix(DASHBOARD, HandleCallback(users, q, Ok(exchanged), Ok(profile), now, newId, sign).1)
  {
    assert ReadTokens(reply).Err?;
  }

  /** Sign-in and the authentication guard fit together: when verifying a
      signed payload gives back its user id, the dashboard token admits the
      signed-in user, with the tier and admin flag the table holds. */
  lemma SignInThenAuthenticate(users: seq<User>, q: CallbackQuery, exchange: Result<OAuthTokens, string>,
                               profile: Result<Profile, string>, now: int, newId: string,
                               sign: Payload -> string, verify: string -> Result<string, string>)
    requires WellKeyed(users) && FindUser(users, newId).None?
    requires forall p: Payload :: verify(sign(p)) == Ok(p.userId)
    requires IsPrefix(DASHBOARD, HandleCallback(users, q, exchange, profile, now, newId, sign).1)
    ensures var (us, url) := HandleCallback(users, q, exchange, profile, now, newId, sign);
      var u := FindOrCreateUser(users, profile.value, exchange.value, now, newId).1;
      var token := url[|DASHBOARD|..];
      token != "" ==> Authenticate(Some(BEARER + token), verify, us) == Next(u)
  {
    var (us, url) := HandleCallback(users, q, exchange, profile, now, newId, sign);
    var p := profile.value;
    var u := FindOrCreateUser(users, p, exchange.value, now, newId).1;
    var token := url[|DASHBOARD|..];
    assert token == sign(SessionPayload(u));
    assert verify(token) == Ok(u.id);
    UpsertFindsUser(users, p, exchange.value, now, newId);
    if token != "" {
      WellFormedHeader(token, verify, us);
    }
  }

  /** After the upsert, looking the user up by id finds the upserted row. */
  lemma UpsertFindsUser(users: seq<User>, p: Profile, t: OAuthTokens, now: int, newId: string)
    requires p.email.Some? && WellKeyed(users) && FindUser(users, newId).None?
    ensures var (us, u) := FindOrCreateUser(users, p, t, now, newId);
      FindUser(us, u.id) == Some(u)
  {
    var (us, u) := FindOrCreateUser(users, p, t, now, newId);
    match FindByEmail(users, p.email.value)
    case Some(i) =>
      FindUserAt(us, i);
    case None =>
      FindUserAppend(users, u);
  }

  /** In a table whose ids are distinct, the row at `i` is found by its id. */
  lemma {:induction false} FindUserAt(users: seq<User>, i: nat)
    requires i < |users| && forall a, b :: 0 <= a < b < |users| ==> users[a].id != users[b].id
    ensures FindUser(users, users[i].id) == Some(users[i])
    decreases i
  {
    if i > 0 {
      FindUserAt(users[1..], i - 1);
    }
  }

  /** A row appended with a fresh id is found by it. */
  lemma {:induction false} FindUserAppend(users: seq<User>, u: User)
    requires FindUser(users, u.id).None?
    ensures FindUser(users + [u], u.id) == Some(u)
    decreases |users|
  {
    if |users| > 0 {
      assert (users + [u])[1..] == users[1..] + [u];
      FindUserAppend(users[1..], u);
    }
  }

  /* ------------------------------------------------------------ logout */

  /** What logout answers: a redirect home, or a JSON acknowledgement. */
  datatype LogoutReply = RedirectTo(url: string) | LoggedOut(message: string)

  /** `logout`: a browser (an Accept header mentioning text/html) is sent
      home with a success flag; any other client gets JSON. */
  function Logout(accept: Option<string>): (r: LogoutReply)
    ensures r == RedirectTo(LOGGED_OUT) <==> accept.Some? && Contains(accept.value, "text/html")
    ensures r.LoggedOut? ==> r.message == "Logged out successfully"
  {
    if accept.Some? && Contains(accept.value, "text/html") then RedirectTo(LOGGED_OUT)
    else LoggedOut("Logged out successfully")
  }
}

=== FILE: auth_middleware.dfy ===
/** The authentication guard of `authMiddleware.js`: it takes the bearer
    token from the Authorization header, has it verified, and admits the
    request only when the token's user exists. Verification is an oracle from
    token text to the decoded user id or the name of the error it throws. */
module AuthMiddleware {
  import opened Wrappers
  import opened Strings
  import opened UserModel

  const BEARER: string := "Bearer "
  const NO_TOKEN: string := "Access denied. No token provided."
  const USER_NOT_FOUND: string := "Invalid token. User not found."
  const INVALID_TOKEN: string := "Invalid token."
  const TOKEN_EXPIRED: string := "Token expired."
  const AUTH_FAILED: string := "Internal server error during authentication."

  /** What a guard does with a request: answer it with an error, or pass it
      on with `req.user` set. */
  datatype Outcome = Deny(status: int, error: string) | Next(user: User)

  /** `req.header('Authorization')?.replace('Bearer ', '')`: the header with
      its first "Bearer " removed, wherever it occurs; `None` without a
      header. */
  function ExtractToken(header: Option<string>): (t: Option<string>)
    ensures header.None? <==> t.None?
    ensures header.Some? && !Contains(header.value, BEARER) ==> t == header
    ensures header.Some? && Contains(header.value, BEARER) ==>
      var i := IndexOf(header.value, BEARER).value;
      t == Some(header.value[..i] + header.value[i + |BEARER|..])
  {
    match header
    case None => None
    case Some(h) =>
      var r := ReplaceFirst(h, BEARER, "");
      assert Contains(h, BEARER) ==> r == h[..IndexOf(h, BEARER).value] + h[IndexOf(h, BEARER).value + |BEARER|..];
      Some(r)
  }

  /** A well-formed header yields exactly the token after the scheme. */
  lemma BearerRoundTrip(token: string)
    ensures ExtractToken(Some(BEARER + token)) == Some(token)
  {
    var h := BEARER + token;
    assert IsPrefix(BEARER, h);
    assert OccursAt(h, BEARER, 0) by { assert h[0..] == h; }
    assert IndexOf(h, BEARER) == Some(0);
    assert h[..0] + "" + h[7..] == token;
  }

  /** Only the first "Bearer " goes: a token that itself starts with the
      scheme keeps it. */
  lemma OnlyFirstBearerRemoved()
    ensures ExtractToken(Some("Bearer Bearer x")) == Some("Bearer x")
  {
    BearerRoundTrip("Bearer x");
  }

  /** `authMiddleware` for a request with the given Authorization header.
      An absent or empty token is refused before verification. A token that
      verifies names a user id; the request goes on exactly when that user
      exists, and then carries that user. A verification error is 401 for a
      malformed or expired token and 500 for anything else. */
  function Authenticate(header: Option<string>, verify: string -> Result<string, string>, users: seq<User>): (r: Outcome)
    ensures var t := ExtractToken(header);
      (t.None? || t.value == "") ==> r == Deny(401, NO_TOKEN)
    ensures r.Next? <==>
      var t := ExtractToken(header);
      t.Some? && t.value != "" && verify(t.value).Ok? && FindUser(users, verify(t.value).value).Some?
    ensures r.Next? ==> r.user == FindUser(users, verify(ExtractToken(header).value).value).value
    ensures var t := ExtractToken(header);
      (t.Some? && t.value != "" && verify(t.value).Ok? && FindUser(users, verify(t.value).value).None?) ==>
        r == Deny(401, USER_NOT_FOUND)
    ensures var t := ExtractToken(header);
      (t.Some? && t.value != "" && verify(t.value) == Err("JsonWebTokenError")) ==> r == Deny(401, INVALID_TOKEN)
    ensures var t := ExtractToken(header);
      (t.Some? && t.value != "" && verify(t.value) == Err("TokenExpiredError")) ==> r == Deny(401, TOKEN_EXPIRED)
    ensures r.Deny? ==> r.status in {401, 500}
    ensures r.Deny? && r.status == 500 <==>
      var t := ExtractToken(header);
      t.Some? && t.value != "" && verify(t.value).Err? && verify(t.value).error !in {"JsonWebTokenError", "TokenExpiredError"}
  {
    var t := ExtractToken(header);
    if t.None? || t.value == "" then Deny(401, NO_TOKEN)
    else match verify(t.value)
      case Ok(userId) =>
        (match FindUser(users, userId)
         case None => Deny(401, USER_NOT_FOUND)
         case Some(u) => Next(u))
      case Err(name) =>
        if name == "JsonWebTokenError" then Deny(401, INVALID_TOKEN)
        else if name == "TokenExpiredError" then Deny(401, TOKEN_EXPIRED)
        else Deny(500, AUTH_FAILED)
  }

  /** The user a request is admitted as is a user of the table whose id the
      token names. */
  lemma AdmittedUserExists(header: Option<string>, verify: string -> Result<string, string>, users: seq<User>)
    requires Authenticate(header, verify, users).Next?
    ensures var u := Authenticate(header, verify, users).user;
      u in users && u.id == verify(ExtractToken(header).value).value
  {
  }

  /** A well-formed header whose token verifies to an existing user is
      admitted as that user; one whose token has expired is refused with 401
      whatever the table holds. */
  lemma WellFormedHeader(token: string, verify: string -> Result<string, string>, users: seq<User>)
    requires token != ""
    ensures verify(token).Ok? && FindUser(users, verify(token).value).Some? ==>
      Authenticate(Some(BEARER + token), verify, users) == Next(FindUser(users, verify(token).value).value)
    ensures verify(token) == Err("TokenExpiredError") ==>
      Authenticate(Some(BEARER + token), verify, users) == Deny(401, TOKEN_EXPIRED)
  {
    BearerRoundTrip(token);
  }
}

=== FILE: campaign_controller.dfy ===
/** The user-facing campaign endpoints of `campaignController.js`: browsing
    available campaigns, submitting a campaign for approval, and the manual
    batch send. Tables are passed in and handed back; identifiers, the clock,
    the random mood pick and every outcome of the Gmail path are parameters. */
module CampaignController {
  import opened Wrappers
  import opened Strings
  import opened JsValues
  import opened Config
  import opened UserModel
  import opened CampaignModel
  import opened RecipientModel
  import opened GmailService
  import opened MoodRows
  import opened Http

  /* ------------------------------------------------------------ availability */

  /** The one filter behind listing, details and sending: an Active campaign
      whose expiry lies strictly after `now`. */
  predicate IsAvailable(c: Campaign, now: int) {
    c.status == Active && c.expirationAt > now
  }

  /** `getActiveCampaigns`: the available campaigns, in table order (the
      `approvedAt DESC` ordering is not modelled). */
  function ActiveCampaigns(cs: seq<Campaign>, now: int): (r: seq<Campaign>)
    ensures |r| <= |cs|
    ensures forall c :: c in r <==> c in cs && IsAvailable(c, now)
  {
    if |cs| == 0 then []
    else (if IsAvailable(cs[0], now) then [cs[0]] else []) + ActiveCampaigns(cs[1..], now)
  }

  /** `Campaign.findOne({ where: { id, status: Active, expirationAt > now } })`. */
  function FindAvailable(cs: seq<Campaign>, id: string, now: int): (r: Option<Campaign>)
    ensures r.Some? ==> r.value in cs && r.value.id == id && IsAvailable(r.value, now)
    ensures r.None? <==> forall c :: c in cs && c.id == id ==> !IsAvailable(c, now)
  {
    if |cs| == 0 then None
    else if cs[0].id == id && IsAvailable(cs[0], now) then Some(cs[0])
    else
      var r := FindAvailable(cs[1..], id, now);
      assert forall c :: c in cs ==> c == cs[0] || c in cs[1..];
      r
  }

  const NOT_AVAILABLE: string := "Campaign not found or not available"

  datatype Details = Details(campaign: Campaign, recipients: seq<Recipient>)

  /** `getCampaignDetails`: the campaign with its recipients, or 404. */
  function GetCampaignDetails(cs: seq<Campaign>, rs: seq<Recipient>, id: string, now: int): (r: Response<Details>)
    ensures r.Failure? ==> r == Failure(404, NOT_AVAILABLE)
    ensures r.Success? ==> r.body.campaign.id == id && IsAvailable(r.body.campaign, now)
                           && r.body.recipients == Of(rs, id)
  {
    match FindAvailable(cs, id, now)
    case None => Failure(404, NOT_AVAILABLE)
    case Some(c) => Success(Details(c, Of(rs, id)))
  }

  /** Listing and details agree: a campaign's details are served exactly
      when a campaign with that id is listed. */
  lemma DetailsIffListed(cs: seq<Campaign>, rs: seq<Recipient>, id: string, now: int)
    ensures GetCampaignDetails(cs, rs, id, now).Success? <==>
      exists c :: c in ActiveCampaigns(cs, now) && c.id == id
  {
  }

  /* ------------------------------------------------------------ submission */

  /** One element of the `recipients` array of the request body; a field the
      element lacks (or a null element) is `None`. */
  datatype RecipientInput = RecipientInput(email: Option<string>, displayName: Option<string>, personalizedName: Option<string>)

  /** The request body of `createCampaign`. `recipients` is `None` when it is
      absent or not an array. */
  datatype CampaignBody = CampaignBody(name: JsValue, description: JsValue, recipients: Option<seq<RecipientInput>>)

  /** The tables the handlers read and write. */
  datatype Store = Store(campaigns: seq<Campaign>, recipients: seq<Recipient>)

  /** The summary `createCampaign` answers with (status 201). */
  datatype Created = Created(id: string, name: string, description: string, status: CampaignStatus, recipientCount: nat)

  const FIELDS_REQUIRED: string := "Name, description, and recipients array are required"
  const NEED_RECIPIENT: string := "At least one recipient is required"
  const CREATE_FAILED: string := "Failed to create campaign"

  /** An element whose `email.trim()` and `displayName.trim()` can be
      evaluated. */
  predicate WellFormed(x: RecipientInput) {
    x.email.Some? && x.displayName.Some?
  }

  /** `recipient.personalizedName?.trim() || recipient.displayName.trim()` */
  function PersonalizedNameFor(x: RecipientInput): (r: string)
    requires WellFormed(x)
    ensures x.personalizedName.Some? && Trim(x.personalizedName.value) != "" ==> r == Trim(x.personalizedName.value)
    ensures (x.personalizedName.None? || Trim(x.personalizedName.value) == "") ==> r == Trim(x.displayName.value)
  {
    if x.personalizedName.Some? && Trim(x.personalizedName.value) != "" then Trim(x.personalizedName.value)
    else Trim(x.displayName.value)
  }

  /** The row `Recipient.create` stores for element `x`, after the
      `beforeCreate` hook. */
  function NewRecipient(id: string, campaignId: string, x: RecipientInput): (r: Recipient)
    requires WellFormed(x)
    ensures r.campaignId == campaignId && r.email == Trim(x.email.value) && r.displayName == Trim(x.displayName.value)
    ensures r.personalizedName == Some(PersonalizedNameFor(x))
  {
    BeforeCreate(Recipient(id, campaignId, Trim(x.email.value), Trim(x.displayName.value), Some(PersonalizedNameFor(x))))
  }

  /** The number of leading elements that are well-formed: `recipients.map`
      throws at the first element that is not, after the creates for the
      elements before it have been issued. */
  function WellFormedRun(xs: seq<RecipientInput>): (k: nat)
    ensures k <= |xs|
    ensures forall i :: 0 <= i < k ==> WellFormed(xs[i])
    ensures k < |xs| ==> !WellFormed(xs[k])
  {
    if |xs| == 0 || !WellFormed(xs[0]) then 0 else 1 + WellFormedRun(xs[1..])
  }

  /** The rows `Recipient.create` is asked to store for well-formed
      elements; row `i` gets id `idOf(i)`. */
  function NewRecipients(xs: seq<RecipientInput>, campaignId: string, idOf: nat -> string): (r: seq<Recipient>)
    requires forall i :: 0 <= i < |xs| ==> WellFormed(xs[i])
    ensures |r| == |xs|
    ensures forall i :: 0 <= i < |xs| ==> r[i] == NewRecipient(idOf(i), campaignId, xs[i])
  {
    seq(|xs|, i requires 0 <= i < |xs| => NewRecipient(idOf(i), campaignId, xs[i]))
  }

  /** The rows that pass the `isEmail` validation; the others are rejected. */
  function KeepValid(ys: seq<Recipient>, validEmail: string -> bool): (r: seq<Recipient>)
    ensures |r| <= |ys|
    ensures forall y :: y in r <==> y in ys && validEmail(y.email)
    ensures (forall i :: 0 <= i < |ys| ==> validEmail(ys[i].email)) ==> r == ys
  {
    if |ys| == 0 then []
    else (if validEmail(ys[0].email) then [ys[0]] else []) + KeepValid(ys[1..], validEmail)
  }

  /** Every element is well-formed and has a valid e-mail. */
  predicate AllValid(xs: seq<RecipientInput>, validEmail: string -> bool) {
    forall i :: 0 <= i < |xs| ==> WellFormed(xs[i]) && validEmail(Trim(xs[i].email.value))
  }

  /** The request passes the two 400 checks. */
  predicate Complete(body: CampaignBody) {
    Truthy(body.name) && Truthy(body.description) && body.recipients.Some? && |body.recipients.value| > 0
  }

  /** The campaign row `createCampaign` stores. */
  function NewCampaign(body: CampaignBody, user: User, now: int, newId: string): (c: Campaign)
    requires body.name.Str? && body.description.Str?
    ensures c.id == newId && c.status == Pending && c.createdByUserId == user.id
    ensures c.name == Trim(body.name.s) && c.description == Trim(body.description.s)
    ensures c.expirationAt == now + 90 * 24 * 60 * 60 * 1000
    ensures c.approvedAt.None? && c.approvedByAdminId.None?
  {
    var attrs := CampaignAttrs(Some(Trim(body.name.s)), Some(Trim(body.description.s)), Some(Pending), Some(user.id),
                               None, None, Some(now + LIFETIME_MS), None, None, None);
    CampaignModel.CreateCampaign(newId, attrs, now).value
  }

  /** `createCampaign` for `user` at time `now`, giving the new campaign id
      `newId` and its `i`-th recipient id `idOf(i)`; `validEmail` is the
      `isEmail` validator of the recipient model.
      - A falsy name or description, or recipients that are absent or not an
        array: 400, nothing stored.
      - An empty array: 400, nothing stored.
      - A name or description that is not a string (`.trim` throws): 500,
        nothing stored.
      - Otherwise the campaign is stored. The recipients before the first
        element that lacks an e-mail or display name are created, except
        those whose e-mail fails validation; if such an element or such an
        e-mail exists the answer is 500 even though rows were stored, else
        201 with the summary. */
  function CreateCampaign(store: Store, body: CampaignBody, user: User, now: int, newId: string,
                          idOf: nat -> string, validEmail: string -> bool): (r: (Store, Response<Created>))
    ensures !Truthy(body.name) || !Truthy(body.description) || body.recipients.None? ==>
      r == (store, Failure(400, FIELDS_REQUIRED))
    ensures Truthy(body.name) && Truthy(body.description) && body.recipients == Some([]) ==>
      r == (store, Failure(400, NEED_RECIPIENT))
    ensures r.1.Success? <==>
      Complete(body) && body.name.Str? && body.description.Str? && AllValid(body.recipients.value, validEmail)
    ensures r.1.Failure? ==> r.1.status in {400, 500}
    ensures r.1.Failure? && (r.1.status == 400 || !body.name.Str? || !body.description.Str?) ==> r.0 == store
    ensures Complete(body) && body.name.Str? && body.description.Str? ==>
      var xs := body.recipients.value;
      var k := WellFormedRun(xs);
      r.0 == Store(store.campaigns + [NewCampaign(body, user, now, newId)],
                   store.recipients + KeepValid(NewRecipients(xs[..k], newId, idOf), validEmail))
  {
    if !Truthy(body.name) || !Truthy(body.description) || body.recipients.None? then
      (store, Failure(400, FIELDS_REQUIRED))
    else if |body.recipients.value| == 0 then
      (store, Failure(400, NEED_RECIPIENT))
    else if !body.name.Str? || !body.description.Str? then
      (store, Failure(500, CREATE_FAILED))
    else
      var xs := body.recipients.value;
      var c := NewCampaign(body, user, now, newId);
      var k := WellFormedRun(xs);
      var stored := Store(store.campaigns + [c], store.recipients + KeepValid(NewRecipients(xs[..k], newId, idOf), validEmail));
      if AllValid(xs, validEmail) then (stored, Success(Created(newId, c.name, c.description, c.status, |xs|)))
      else (stored, Failure(500, CREATE_FAILED))
  }

  /** A successful submission stores one Pending campaign, trimmed, expiring
      90 days after `now`, and one recipient row per element, in order, with
      the answer echoing the campaign. */
  lemma CreatedCampaign(store: Store, body: CampaignBody, user: User, now: int, newId: string,
                        idOf: nat -> string, validEmail: string -> bool)
    requires CreateCampaign(store, body, user, now, newId, idOf, validEmail).1.Success?
    ensures var (s, resp) := CreateCampaign(store, body, user, now, newId, idOf, validEmail);
      var xs := body.recipients.value;
      var c := NewCampaign(body, user, now, newId);
      && s.campaigns == store.campaigns + [c]
      && s.recipients == store.recipients + NewRecipients(xs, newId, idOf)
      && resp.body == Created(newId, Trim(body.name.s), Trim(body.description.s), Pending, |xs|)
  {
    var xs := body.recipients.value;
    assert xs[..|xs|] == xs;
  }

  /** A freshly submitted campaign is not available: it is neither listed nor
      served until an admin approves it. */
  lemma SubmittedNotAvailable(store: Store, body: CampaignBody, user: User, now: int, later: int, newId: string,
                              idOf: nat -> string, validEmail: string -> bool)
    requires CreateCampaign(store, body, user, now, newId, idOf, validEmail).1.Success?
    ensures var c := CreateCampaign(store, body, user, now, newId, idOf, validEmail).0.campaigns[|store.campaigns|];
      !IsAvailable(c, later) && c !in ActiveCampaigns(CreateCampaign(store, body, user, now, newId, idOf, validEmail).0.campaigns, later)
  {
  }

  /** Each stored recipient's personalized name is its trimmed personalized
      name when that is non-empty, else its trimmed display name; the
      `beforeCreate` hook then has nothing left to change. */
  lemma NewRecipientName(id: string, campaignId: string, x: RecipientInput)
    requires WellFormed(x)
    ensures var y := NewRecipient(id, campaignId, x);
      && BeforeCreate(y) == y
      && (y.personalizedName.value == "" <==> (x.personalizedName.None? || Trim(x.personalizedName.value) == "")
                                              && Trim(x.displayName.value) == "")
  {
  }

  /* ------------------------------------------------------------ batch send */

  /** The appreciation subject line. */
  function SubjectLine(c: Campaign): string {
    c.name + " - You're appreciated! \U{1F389}"
  }

  /** `${value}` of a possibly-null string. */
  function Shown(s: Option<string>): string {
    if s.Some? then s.value else "null"
  }

  /** `user.name || user.email` */
  function SenderName(user: User): (r: string)
    ensures user.name != "" ==> r == user.name
    ensures user.name == "" ==> r == user.email
  {
    if user.name != "" then user.name else user.email
  }

  /** `randomMood?.name || 'Happy'`, where the random index is `pick`
      (an index past the end reads `undefined`). */
  function MoodName(moods: seq<MoodRow>, pick: nat): (r: string)
    ensures r != ""
    ensures pick < |moods| && moods[pick].name != "" ==> r == moods[pick].name
    ensures (pick >= |moods| || moods[pick].name == "") ==> r == "Happy"
  {
    if pick < |moods| && moods[pick].name != "" then moods[pick].name else "Happy"
  }

  /** The plain-text message composed for one recipient. */
  function MessageText(c: Campaign, r: Recipient, user: User, mood: string): string {
    "Hello " + Shown(r.personalizedName) + ",\n\n" + c.description
      + "\n\nThis message was sent with love through ReallyGoodJob!\n\nSent by: " + SenderName(user)
      + "\nMood: " + mood + "\n\nBest regards,\nThe ReallyGoodJob Team"
  }

  /** The call as written: six arguments to the five parameters
      `(userId, recipientEmail, subject, bodyText, emailLogId)`, so the
      personalized name lands in `subject`, the subject line in `bodyText`,
      the message in `emailLogId`, and the tracking object is dropped. */
  function AsWrittenCall(users: seq<User>, user: User, c: Campaign, r: Recipient, mood: string, settings: Settings,
                         now: int, response: Result<Credentials, string>, delivery: Result<string, string>): SendAttempt {
    SendEmail(users, user.id, r.email, Shown(r.personalizedName), SubjectLine(c), Some(MessageText(c, r, user, mood)),
              settings, now, response, delivery)
  }

  /** The call as evidently intended: the subject line as subject, the
      message as body, and no e-mail log id (none is created). */
  function IntendedCall(users: seq<User>, user: User, c: Campaign, r: Recipient, mood: string, settings: Settings,
                        now: int, response: Result<Credentials, string>, delivery: Result<string, string>): SendAttempt {
    SendEmail(users, user.id, r.email, SubjectLine(c), MessageText(c, r, user, mood), None,
              settings, now, response, delivery)
  }

  /** One call of `sendEmail` for a recipient: the table it starts from,
      the recipient, and the outcomes of the refresh and send calls. */
  type Call = (seq<User>, Recipient, Result<Credentials, string>, Result<string, string>) -> SendAttempt

  /** The call as written for a fixed campaign, sender and mood. */
  function AsWritten(user: User, c: Campaign, mood: string, settings: Settings, now: int): Call {
    (us, r, resp, del) => AsWrittenCall(us, user, c, r, mood, settings, now, resp, del)
  }

  /** The call as intended for a fixed campaign, sender and mood. */
  function Intended(user: User, c: Campaign, mood: string, settings: Settings, now: int): Call {
    (us, r, resp, del) => IntendedCall(us, user, c, r, mood, settings, now, resp, del)
  }

  /** The table before attempt `j`: the original, or what attempt `j - 1`
      left. */
  function Before(users: seq<User>, attempts: seq<SendAttempt>, j: nat): seq<User>
    requires j <= |attempts|
  {
    if j == 0 then users else attempts[j - 1].users
  }

  /** One entry of `errors`. */
  datatype SendError = SendError(recipient: string, error: string)

  /** The per-recipient outcomes of the Gmail path. */
  datatype Outcomes = Outcomes(responses: seq<Result<Credentials, string>>, deliveries: seq<Result<string, string>>)

  /** There is one outcome of each kind per recipient. */
  predicate Covers(o: Outcomes, rs: seq<Recipient>) {
    |o.responses| == |rs| && |o.deliveries| == |rs|
  }

  /** `attempts` are the calls for the first recipients, one each, in order,
      each starting from the table the previous one left. */
  predicate Chained(users: seq<User>, rs: seq<Recipient>, o: Outcomes, call: Call, attempts: seq<SendAttempt>) {
    && Covers(o, rs) && |attempts| <= |rs|
    && forall j :: 0 <= j < |attempts| ==> Step(users, rs, o, call, attempts, j)
  }

  /** Attempt `j` is the call for recipient `j` on the table before it. */
  predicate Step(users: seq<User>, rs: seq<Recipient>, o: Outcomes, call: Call, attempts: seq<SendAttempt>, j: nat)
    requires Covers(o, rs) && j < |attempts| <= |rs|
  {
    attempts[j] == call(Before(users, attempts, j), rs[j], o.responses[j], o.deliveries[j])
  }

  /** Chaining one more call keeps the earlier attempts chained. */
  lemma ChainedStep(users: seq<User>, rs: seq<Recipient>, o: Outcomes, call: Call, attempts: seq<SendAttempt>)
    requires Chained(users, rs, o, call, attempts) && |attempts| < |rs|
    ensures var i := |attempts|;
      Chained(users, rs, o, call, attempts + [call(Before(users, attempts, i), rs[i], o.responses[i], o.deliveries[i])])
  {
    var i := |attempts|;
    var next := attempts + [call(Before(users, attempts, i), rs[i], o.responses[i], o.deliveries[i])];
    forall j | 0 <= j <= i
      ensures Step(users, rs, o, call, next, j)
    {
      assert Before(users, next, j) == Before(users, attempts, j);
      if j < i {
        assert Step(users, rs, o, call, attempts, j);
      }
    }
  }

  /** The loop of `sendCampaignEmails` as written. Every recipient is tried
      once, in order, each call seeing the table the previous one left;
      `sendEmail` never throws and its result is ignored, so the catch never
      runs: `sentCount` ends equal to the number of recipients and `errors`
      empty, whatever the calls returned. */
  method SendLoop(users: seq<User>, rs: seq<Recipient>, o: Outcomes, call: Call)
    returns (out: seq<User>, attempts: seq<SendAttempt>, sentCount: nat, errors: seq<SendError>)
    requires Covers(o, rs)
    ensures |attempts| == |rs| && Chained(users, rs, o, call, attempts)
    ensures out == Before(users, attempts, |rs|)
    ensures sentCount == |rs| && errors == []
  {
    out := users;
    attempts := [];
    sentCount := 0;
    errors := [];
    for i := 0 to |rs|
      invariant |attempts| == i && sentCount == i && errors == []
      invariant Chained(users, rs, o, call, attempts)
      invariant out == Before(users, attempts, i)
    {
      var a := call(out, rs[i], o.responses[i], o.deliveries[i]);
      ChainedStep(users, rs, o, call, attempts);
      attempts := attempts + [a];
      out := a.users;
      sentCount := sentCount + 1;
    }
  }

  /** The number of attempts that succeeded. */
  function Delivered(attempts: seq<SendAttempt>): (n: nat)
    ensures n <= |attempts|
  {
    if |attempts| == 0 then 0
    else Delivered(attempts[..|attempts| - 1]) + (if attempts[|attempts| - 1].result.success then 1 else 0)
  }

  /** The errors of the failed attempts, with the recipient's address. */
  function Failures(rs: seq<Recipient>, attempts: seq<SendAttempt>): (es: seq<SendError>)
    requires |attempts| <= |rs|
    ensures Delivered(attempts) + |es| == |attempts|
  {
    if |attempts| == 0 then []
    else
      var j := |attempts| - 1;
      var a := attempts[j];
      Failures(rs, attempts[..j]) + (if a.result.success then [] else [SendError(rs[j].email, a.result.error.GetOr(""))])
  }

  /** The loop as evidently intended: a recipient counts as sent only when
      `sendEmail` reports success; a failure is recorded with its message
      instead. */
  method SendLoopCorrected(users: seq<User>, rs: seq<Recipient>, o: Outcomes, call: Call)
    returns (out: seq<User>, attempts: seq<SendAttempt>, sentCount: nat, errors: seq<SendError>)
    requires Covers(o, rs)
    ensures |attempts| == |rs| && Chained(users, rs, o, call, attempts)
    ensures out == Before(users, attempts, |rs|)
    ensures sentCount == Delivered(attempts) && errors == Failures(rs, attempts)
    ensures sentCount + |errors| == |rs|
  {
    out := users;
    attempts := [];
    sentCount := 0;
    errors := [];
    for i := 0 to |rs|
      invariant |attempts| == i && Chained(users, rs, o, call, attempts)
      invariant out == Before(users, attempts, i)
      invariant sentCount == Delivered(attempts) && errors == Failures(rs, attempts)
    {
      var a := call(out, rs[i], o.responses[i], o.deliveries[i]);
      ChainedStep(users, rs, o, call, attempts);
      assert (attempts + [a])[..i] == attempts;
      attempts := attempts + [a];
      out := a.users;
      if a.result.success {
        sentCount := sentCount + 1;
      } else {
        errors := errors + [SendError(rs[i].email, a.result.error.GetOr(""))];
      }
    }
  }

  /** The JSON body of a completed batch. */
  datatype SendSummary = SendSummary(sentCount: nat, totalRecipients: nat, errors: Option<seq<SendError>>, message: string)

  function Summary(sentCount: nat, total: nat, errors: seq<SendError>): SendSummary {
    SendSummary(sentCount, total, if |errors| > 0 then Some(errors) else None,
                "Successfully sent " + NatToDecimal(sentCount) + " out of " + NatToDecimal(total) + " emails")
  }

  const NO_RECIPIENTS: string := "No recipients found for this campaign"

  /** `sendCampaignEmails` for campaign `id` as `user`: 404 for a campaign
      that is not available and 400 for one without recipients, both before
      any send; otherwise the loop as written over the campaign's recipients,
      with the mood `pick` chooses among `moods`, reporting every recipient
      as sent. */
  method SendCampaignEmails(users: seq<User>, store: Store, id: string, user: User, moods: seq<MoodRow>, pick: nat,
                            settings: Settings, now: int, o: Outcomes)
    returns (out: seq<User>, attempts: seq<SendAttempt>, r: Response<SendSummary>)
    requires Covers(o, Of(store.recipients, id))
    ensures FindAvailable(store.campaigns, id, now).None? ==>
      out == users && attempts == [] && r == Failure(404, NOT_AVAILABLE)
    ensures FindAvailable(store.campaigns, id, now).Some? && Of(store.recipients, id) == [] ==>
      out == users && attempts == [] && r == Failure(400, NO_RECIPIENTS)
    ensures r.Failure? ==> r.status in {400, 404}
    ensures r.Success? ==>
      var rs := Of(store.recipients, id);
      && FindAvailable(store.campaigns, id, now).Some?
      && |attempts| == |rs| > 0
      && Chained(users, rs, o, AsWritten(user, FindAvailable(store.campaigns, id, now).value, MoodName(moods, pick), settings, now), attempts)
      && out == Before(users, attempts, |rs|)
      && r.body == Summary(|rs|, |rs|, [])
  {
    var found := FindAvailable(store.campaigns, id, now);
    if found.None? {
      return users, [], Failure(404, NOT_AVAILABLE);
    }
    var rs := Of(store.recipients, id);
    if |rs| == 0 {
      return users, [], Failure(400, NO_RECIPIENTS);
    }
    var sentCount, errors;
    out, attempts, sentCount, errors := SendLoop(users, rs, o, AsWritten(user, found.value, MoodName(moods, pick), settings, now));
    r := Success(Summary(sentCount, |rs|, errors));
  }

  /** `sendCampaignEmails` as evidently intended: the same guards, the
      arguments of `sendEmail` in their places, and a summary that counts
      only delivered messages and lists every failure. */
  method SendCampaignEmailsCorrected(users: seq<User>, store: Store, id: string, user: User, moods: seq<MoodRow>,
                                     pick: nat, settings: Settings, now: int, o: Outcomes)
    returns (out: seq<User>, attempts: seq<SendAttempt>, r: Response<SendSummary>)
    requires Covers(o, Of(store.recipients, id))
    ensures FindAvailable(store.campaigns, id, now).None? ==>
      out == users && attempts == [] && r == Failure(404, NOT_AVAILABLE)
    ensures FindAvailable(store.campaigns, id, now).Some? && Of(store.recipients, id) == [] ==>
      out == users && attempts == [] && r == Failure(400, NO_RECIPIENTS)
    ensures r.Failure? ==> r.status in {400, 404}
    ensures r.Success? ==>
      var rs := Of(store.recipients, id);
      && FindAvailable(store.campaigns, id, now).Some?
      && |attempts| == |rs| > 0
      && Chained(users, rs, o, Intended(user, FindAvailable(store.campaigns, id, now).value, MoodName(moods, pick), settings, now), attempts)
      && out == Before(users, attempts, |rs|)
      && r.body == Summary(Delivered(attempts), |rs|, Failures(rs, attempts))
      && r.body.sentCount + |Failures(rs, attempts)| == |rs|
  {
    var found := FindAvailable(store.campaigns, id, now);
    if found.None? {
      return users, [], Failure(404, NOT_AVAILABLE);
    }
    var rs := Of(store.recipients, id);
    if |rs| == 0 {
      return users, [], Failure(400, NO_RECIPIENTS);
    }
    var sentCount, errors;
    out, attempts, sentCount, errors := SendLoopCorrected(users, rs, o, Intended(user, found.value, MoodName(moods, pick), settings, now));
    r := Success(Summary(sentCount, |rs|, errors));
  }

  /** Whatever Gmail answers, the summary as written reports every recipient
      as sent: with every delivery failing, no attempt succeeds, while the
      summary `SendLoop` and `SendCampaignEmails` report counts every
      recipient as sent and lists no error. */
  lemma SentCountIgnoresFailures(users: seq<User>, user: User, c: Campaign, rs: seq<Recipient>, mood: string,
                                 settings: Settings, now: int, o: Outcomes, attempts: seq<SendAttempt>)
    requires |attempts| == |rs| && Chained(users, rs, o, AsWritten(user, c, mood, settings, now), attempts)
    requires AllFail(o)
    ensures Delivered(attempts) == 0
    ensures var reported := Summary(|rs|, |rs|, []);
      reported.errors.None? && (|rs| > 0 ==> reported.sentCount != Delivered(attempts))
  {
    AsWrittenHonest(users, user, c, rs, mood, settings, now, o, attempts);
    HonestNoneDelivered(o, attempts);
  }

  /** Gmail rejects every send. */
  predicate AllFail(o: Outcomes) {
    forall j :: 0 <= j < |o.deliveries| ==> o.deliveries[j].Err?
  }

  /** An attempt succeeds only when its delivery did. */
  predicate Honest(o: Outcomes, attempts: seq<SendAttempt>) {
    |attempts| <= |o.deliveries| &&
    forall j :: 0 <= j < |attempts| && attempts[j].result.success ==> o.deliveries[j].Ok?
  }

  /** As written, an attempt whose delivery fails does not succeed. */
  lemma AsWrittenHonest(users: seq<User>, user: User, c: Campaign, rs: seq<Recipient>, mood: string,
                        settings: Settings, now: int, o: Outcomes, attempts: seq<SendAttempt>)
    requires Chained(users, rs, o, AsWritten(user, c, mood, settings, now), attempts)
    ensures Honest(o, attempts)
  {
    forall j | 0 <= j < |attempts| && o.deliveries[j].Err? ensures !attempts[j].result.success {
      AsWrittenFails(users, user, c, rs, mood, settings, now, o, attempts, j);
    }
  }

  /** When every delivery fails, no honest attempt succeeds. */
  lemma {:induction false} HonestNoneDelivered(o: Outcomes, attempts: seq<SendAttempt>)
    requires Honest(o, attempts) && AllFail(o)
    ensures Delivered(attempts) == 0
    decreases |attempts|
  {
    if |attempts| > 0 {
      var k := |attempts| - 1;
      HonestNoneDelivered(o, attempts[..k]);
      assert o.deliveries[k].Err?;
    }
  }

  lemma AsWrittenFails(users: seq<User>, user: User, c: Campaign, rs: seq<Recipient>, mood: string,
                       settings: Settings, now: int, o: Outcomes, attempts: seq<SendAttempt>, j: nat)
    requires Chained(users, rs, o, AsWritten(user, c, mood, settings, now), attempts)
    requires j < |attempts| && o.deliveries[j].Err?
    ensures !attempts[j].result.success
  {
    var us := Before(users, attempts, j);
    assert Step(users, rs, o, AsWritten(user, c, mood, settings, now), attempts, j);
    assert attempts[j] == AsWrittenCall(us, user, c, rs[j], mood, settings, now, o.responses[j], o.deliveries[j]);
    FailedDelivery(attempts[j], us, user.id, rs[j].email, Shown(rs[j].personalizedName), SubjectLine(c),
                   Some(MessageText(c, rs[j], user, mood)), settings, now, o.responses[j], o.deliveries[j]);
  }

  /** A send whose delivery fails does not succeed. */
  lemma FailedDelivery(a: SendAttempt, users: seq<User>, userId: string, recipientEmail: string, subject: string,
                       bodyText: string, emailLogId: Option<string>, settings: Settings, now: int,
                       response: Result<Credentials, string>, delivery: Result<string, string>)
    requires a == SendEmail(users, userId, recipientEmail, subject, bodyText, emailLogId, settings, now, response, delivery)
    requires delivery.Err?
    ensures !a.result.success
  {
  }

  /** What the argument shift does to the message Gmail receives: its
      Subject header is the recipient's personalized name, its body is the
      subject line, and, the message text being non-empty and so a truthy
      `emailLogId`, it ends with a tracking pixel whose URL carries the
      whole message text unescaped. */
  lemma ArgumentShift(users: seq<User>, user: User, c: Campaign, r: Recipient, mood: string, settings: Settings,
                      now: int, response: Result<Credentials, string>, delivery: Result<string, string>)
    requires GetGmailClient(users, user.id, now, response).Ok?
    ensures var a := AsWrittenCall(users, user, c, r, mood, settings, now, response, delivery);
      var u := FindUser(users, user.id).value;
      var text := MessageText(c, r, user, mood);
      && a.message == Some(MimeHead(u.name + " <" + u.email + ">", r.email, Shown(r.personalizedName), SubjectLine(c))
                           + CRLF + (CRLF + PixelTag(settings, text)))
      && EndsWith(TrackingPixelUrl(settings, text), text)
  {
    var text := MessageText(c, r, user, mood);
    var u := FindUser(users, user.id).value;
    SendBuildsMessage(users, user.id, r.email, Shown(r.personalizedName), SubjectLine(c), Some(text), settings, now, response, delivery);
    assert text != "";
    MimeText(u.name + " <" + u.email + ">", r.email, Shown(r.personalizedName), SubjectLine(c), Some(text), settings);
  }

  /** With the arguments in place, the message has the subject line as its
      Subject header, the composed text as its body, and no pixel. */
  lemma IntendedMessage(users: seq<User>, user: User, c: Campaign, r: Recipient, mood: string, settings: Settings,
                        now: int, response: Result<Credentials, string>, delivery: Result<string, string>)
    requires GetGmailClient(users, user.id, now, response).Ok?
    ensures var a := IntendedCall(users, user, c, r, mood, settings, now, response, delivery);
      var u := FindUser(users, user.id).value;
      a.message == Some(MimeHead(u.name + " <" + u.email + ">", r.email, SubjectLine(c), MessageText(c, r, user, mood)))
  {
    var u := FindUser(users, user.id).value;
    var text := MessageText(c, r, user, mood);
    SendBuildsMessage(users, user.id, r.email, SubjectLine(c), text, None, settings, now, response, delivery);
    MimeText(u.name + " <" + u.email + ">", r.email, SubjectLine(c), text, None, settings);
  }

  /** The corrected loop reports failures: with every delivery failing,
      nothing counts as sent and every recipient has an error. */
  lemma CorrectedReportsFailures(users: seq<User>, user: User, c: Campaign, rs: seq<Recipient>, mood: string,
                                 settings: Settings, now: int, o: Outcomes, attempts: seq<SendAttempt>)
    requires |attempts| == |rs| && Chained(users, rs, o, Intended(user, c, mood, settings, now), attempts)
    requires AllFail(o)
    ensures Delivered(attempts) == 0 && |Failures(rs, attempts)| == |rs|
  {
    IntendedHonest(users, user, c, rs, mood, settings, now, o, attempts);
    HonestNoneDelivered(o, attempts);
  }

  /** As intended, an attempt whose delivery fails does not succeed. */
  lemma IntendedHonest(users: seq<User>, user: User, c: Campaign, rs: seq<Recipient>, mood: string,
                       settings: Settings, now: int, o: Outcomes, attempts: seq<SendAttempt>)
    requires Chained(users, rs, o, Intended(user, c, mood, settings, now), attempts)
    ensures Honest(o, attempts)
  {
    forall j | 0 <= j < |attempts| && o.deliveries[j].Err? ensures !attempts[j].result.success {
      IntendedFails(users, user, c, rs, mood, settings, now, o, attempts, j);
    }
  }

  lemma IntendedFails(users: seq<User>, user: User, c: Campaign, rs: seq<Recipient>, mood: string,
                      settings: Settings, now: int, o: Outcomes, attempts: seq<SendAttempt>, j: nat)
    requires Chained(users, rs, o, Intended(user, c, mood, settings, now), attempts)
    requires j < |attempts| && o.deliveries[j].Err?
    ensures !attempts[j].result.success
  {
    var us := Before(users, attempts, j);
    assert Step(users, rs, o, Intended(user, c, mood, settings, now), attempts, j);
    assert attempts[j] == IntendedCall(us, user, c, rs[j], mood, settings, now, o.responses[j], o.deliveries[j]);
    FailedDelivery(attempts[j], us, user.id, rs[j].email, SubjectLine(c),
                   MessageText(c, rs[j], user, mood), None, settings, now, o.responses[j], o.deliveries[j]);
  }
}

=== FILE: campaign_model.dfy ===
/** The Campaign record: its columns, which of them may be null, and the
    defaults the model definition supplies at creation. */
module CampaignModel {
  import opened Wrappers
  import opened Config

  const DAY_MS: int := 24 * 60 * 60 * 1000
  /** Campaigns expire 90 days after creation unless told otherwise. */
  const LIFETIME_MS: int := 90 * DAY_MS

  datatype Campaign = Campaign(
    id: string,
    name: string,
    description: string,
    status: CampaignStatus,
    createdByUserId: string,
    approvedByAdminId: Option<string>,
    approvedAt: Option<int>,
    expirationAt: int,
    duplicateWindowDays: int,
    freeTierLimitPerMonth: int,
    premiumTierLimitPerDay: int)

  /** The attributes handed to `Campaign.create`; `None` is an omitted
      attribute, the only kind that takes a default. */
  datatype CampaignAttrs = CampaignAttrs(
    name: Option<string>,
    description: Option<string>,
    status: Option<CampaignStatus>,
    createdByUserId: Option<string>,
    approvedByAdminId: Option<string>,
    approvedAt: Option<int>,
    expirationAt: Option<int>,
    duplicateWindowDays: Option<int>,
    freeTierLimitPerMonth: Option<int>,
    premiumTierLimitPerDay: Option<int>)

  /** The columns declared `allowNull: false` without a default that the
      attributes leave out, in declaration order. */
  function MissingRequired(a: CampaignAttrs): (r: seq<string>)
    ensures r == [] <==> a.name.Some? && a.description.Some? && a.createdByUserId.Some?
    ensures "createdByUserId" in r <==> a.createdByUserId.None?
  {
    (if a.name.None? then ["name"] else [])
    + (if a.description.None? then ["description"] else [])
    + (if a.createdByUserId.None? then ["createdByUserId"] else [])
  }

  /** `Campaign.create(attrs)` at time `now`: rejected with the list of missing
      required columns, otherwise every omitted column takes its default —
      status Pending, expiry 90 days after `now`, a 30-day duplicate window, 5
      free campaigns per month, 3 premium sends per day, no approver. */
  function CreateCampaign(id: string, a: CampaignAttrs, now: int): (r: Result<Campaign, seq<string>>)
    ensures r.Err? <==> MissingRequired(a) != []
    ensures r.Ok? ==> (r.value.id == id
      && r.value.name == a.name.value
      && r.value.description == a.description.value
      && r.value.createdByUserId == a.createdByUserId.value
      && r.value.status == a.status.GetOr(Pending)
      && r.value.expirationAt == a.expirationAt.GetOr(now + LIFETIME_MS)
      && r.value.duplicateWindowDays == a.duplicateWindowDays.GetOr(DUPLICATE_WINDOW_DAYS)
      && r.value.freeTierLimitPerMonth == a.freeTierLimitPerMonth.GetOr(FREE_TIER_MONTHLY_CAMPAIGNS)
      && r.value.premiumTierLimitPerDay == a.premiumTierLimitPerDay.GetOr(PREMIUM_TIER_SENDS_PER_CAMPAIGN_DAY)
      && r.value.approvedByAdminId == a.approvedByAdminId
      && r.value.approvedAt == a.approvedAt)
  {
    var missing := MissingRequired(a);
    if missing != [] then Err(missing)
    else Ok(Campaign(
      id, a.name.value, a.description.value, a.status.GetOr(Pending), a.createdByUserId.value,
      a.approvedByAdminId, a.approvedAt, a.expirationAt.GetOr(now + LIFETIME_MS),
      a.duplicateWindowDays.GetOr(DUPLICATE_WINDOW_DAYS),
      a.freeTierLimitPerMonth.GetOr(FREE_TIER_MONTHLY_CAMPAIGNS),
      a.premiumTierLimitPerDay.GetOr(PREMIUM_TIER_SENDS_PER_CAMPAIGN_DAY)))
  }

  /** Attributes naming only the required columns. */
  function MinimalAttrs(name: string, description: string, creator: string): CampaignAttrs {
    CampaignAttrs(Some(name), Some(description), None, Some(creator), None, None, None, None, None, None)
  }

  /** A campaign created from its required columns alone is Pending, expires
      90 days later, has no approver and carries the configured limits. */
  lemma DefaultCampaign(id: string, name: string, description: string, creator: string, now: int)
    ensures var r := CreateCampaign(id, MinimalAttrs(name, description, creator), now);
      && r.Ok?
      && r.value.status == Pending
      && r.value.expirationAt == now + 7776000000
      && r.value.duplicateWindowDays == 30
      && r.value.freeTierLimitPerMonth == 5
      && r.value.premiumTierLimitPerDay == 3
      && r.value.approvedByAdminId.None? && r.value.approvedAt.None?
  {
  }

  /** Position of the campaign with the given primary key (`Campaign.findByPk`). */
  function FindCampaign(cs: seq<Campaign>, id: string): (r: Option<nat>)
    ensures r.Some? ==> r.value < |cs| && cs[r.value].id == id
    ensures r.Some? ==> forall j :: 0 <= j < r.value ==> cs[j].id != id
    ensures r.None? ==> forall j :: 0 <= j < |cs| ==> cs[j].id != id
  {
    if |cs| == 0 then None
    else if cs[0].id == id then Some(0)
    else match FindCampaign(cs[1..], id)
      case None => None
      case Some(i) => Some(i + 1)
  }
}

=== FILE: config.dfy ===
/** Application constants and environment-derived settings of the configuration
    object: tiers, campaign and e-mail status names, the three daily sending
    windows, the mood names, tier limits and the numeric settings read from the
    environment. Environment variables are passed in as `Option<string>`
    (`None` when unset). */
module Config {
  import opened Wrappers
  import Strings

  /* ------------------------------------------------------------ enumerations */

  datatype Tier = Free | Premium

  datatype CampaignStatus = Pending | Active | Rejected | Expired

  datatype EmailWindow = Morning | Afternoon | Evening

  datatype EmailStatus = Sent | Failed

  /** The stored string of a tier; it reads back as the same tier, so
      distinct tiers have distinct names. */
  function TierName(t: Tier): (r: string)
    ensures TierOf(r) == Some(t)
  {
    match t
    case Free => "Free"
    case Premium => "Premium"
  }

  /** The tier a stored string denotes, if any. */
  function TierOf(s: string): (r: Option<Tier>)
    ensures r.None? <==> s !in {"Free", "Premium"}
  {
    if s == "Free" then Some(Free)
    else if s == "Premium" then Some(Premium)
    else None
  }

  /** The stored string of a campaign status; it reads back as the same
      status, so the four names are pairwise distinct. */
  function StatusName(st: CampaignStatus): (r: string)
    ensures StatusOf(r) == Some(st)
  {
    match st
    case Pending => "Pending"
    case Active => "Active"
    case Rejected => "Rejected"
    case Expired => "Expired"
  }

  /** The status a stored string denotes, if any. */
  function StatusOf(s: string): (r: Option<CampaignStatus>)
    ensures r.None? <==> s !in {"Pending", "Active", "Rejected", "Expired"}
  {
    if s == "Pending" then Some(Pending)
    else if s == "Active" then Some(Active)
    else if s == "Rejected" then Some(Rejected)
    else if s == "Expired" then Some(Expired)
    else None
  }

  /** The stored string of a sending window; it reads back as the same window,
      so the three names are pairwise distinct. */
  function WindowName(w: EmailWindow): (r: string)
    ensures WindowOf(r) == Some(w)
  {
    match w
    case Morning => "Morning"
    case Afternoon => "Afternoon"
    case Evening => "Evening"
  }

  /** The window a stored string denotes, if any. */
  function WindowOf(s: string): (r: Option<EmailWindow>)
    ensures r.None? <==> s !in {"Morning", "Afternoon", "Evening"}
    ensures r == Some(Morning) <==> s == "Morning"
    ensures r == Some(Afternoon) <==> s == "Afternoon"
    ensures r == Some(Evening) <==> s == "Evening"
  {
    if s == "Morning" then Some(Morning)
    else if s == "Afternoon" then Some(Afternoon)
    else if s == "Evening" then Some(Evening)
    else None
  }

  /** The stored string of an e-mail delivery status; the two are distinct. */
  function EmailStatusName(e: EmailStatus): (r: string)
    ensures r == "Sent" <==> e == Sent
  {
    match e
    case Sent => "Sent"
    case Failed => "Failed"
  }

  /* ---------------------------------------------------------------- windows */

  datatype WindowTime = WindowTime(start: nat, end: nat)

  /** The UTC hour range of each window. */
  function WindowTimes(w: EmailWindow): WindowTime
  {
    match w
    case Morning => WindowTime(8, 12)
    case Afternoon => WindowTime(12, 17)
    case Evening => WindowTime(17, 21)
  }

  /** The window a UTC hour falls into: the windows are non-empty, contiguous
      (each ends where the next starts) and together cover exactly 08:00-21:00. */
  function WindowAtHour(hour: nat): (r: Option<EmailWindow>)
    ensures r.Some? <==> 8 <= hour < 21
    ensures r.Some? ==> WindowTimes(r.value).start <= hour < WindowTimes(r.value).end
    ensures forall w: EmailWindow ::
      WindowTimes(w).start <= hour < WindowTimes(w).end ==> r == Some(w)
    ensures WindowTimes(Morning).end == WindowTimes(Afternoon).start
    ensures WindowTimes(Afternoon).end == WindowTimes(Evening).start
    ensures forall w: EmailWindow :: WindowTimes(w).start < WindowTimes(w).end
  {
    if 8 <= hour < 12 then Some(Morning)
    else if 12 <= hour < 17 then Some(Afternoon)
    else if 17 <= hour < 21 then Some(Evening)
    else None
  }

  /* ------------------------------------------------------------------ moods */

  /** The mood keys other modules look up in the MOODS table. */
  datatype MoodKey =
    | HAPPY | CHEERFUL | ECSTATIC | GRATEFUL | PROFESSIONAL
    | WARM | ENTHUSIASTIC | HEARTFELT | INSPIRING

  /** `config.MOODS[k]`: the table defines only three moods, every other key
      reads as `undefined` (`None`). */
  function Mood(k: MoodKey): (r: Option<string>)
    ensures r.Some? <==> k in {HAPPY, CHEERFUL, ECSTATIC}
    ensures k == HAPPY ==> r == Some("Happy")
    ensures k == CHEERFUL ==> r == Some("Cheerful")
    ensures k == ECSTATIC ==> r == Some("Ecstatic")
  {
    match k
    case HAPPY => Some("Happy")
    case CHEERFUL => Some("Cheerful")
    case ECSTATIC => Some("Ecstatic")
    case _ => None
  }

  /* ------------------------------------------------------------ tier limits */

  const FREE_TIER_MONTHLY_CAMPAIGNS: nat := 5
  const FREE_TIER_SENDS_PER_CAMPAIGN_DAY: nat := 1
  const PREMIUM_TIER_SENDS_PER_CAMPAIGN_DAY: nat := 3
  const DUPLICATE_WINDOW_DAYS: nat := 30

  /** Sends per campaign-day a tier allows: at least one, and Premium allows
      strictly more than Free. */
  function SendsPerCampaignDay(t: Tier): (r: nat)
    ensures r >= 1
    ensures t == Free ==> r == 1
    ensures t == Premium ==> r == 3
  {
    match t
    case Free => FREE_TIER_SENDS_PER_CAMPAIGN_DAY
    case Premium => PREMIUM_TIER_SENDS_PER_CAMPAIGN_DAY
  }

  /** Premium allows strictly more sends per campaign-day than Free. */
  lemma PremiumSendsMore()
    ensures SendsPerCampaignDay(Free) < SendsPerCampaignDay(Premium)
  {
  }

  /** The three configured moods have pairwise distinct names. */
  lemma MoodNamesDistinct(j: MoodKey, k: MoodKey)
    requires Mood(j).Some? && Mood(j) == Mood(k)
    ensures j == k
  {
  }

  /* ---------------------------------------------------- environment settings */

  const DEFAULT_MAX_SENDS_PER_DAY: int := 100

  /** `parseInt(process.env.MAX_SENDS_PER_DAY) || 100`: the parsed value, or 100
      when the variable is unset, does not parse, or parses to zero. */
  function MaxSendsPerDay(env: Option<string>): (r: int)
    ensures r != 0
    ensures env.None? ==> r == DEFAULT_MAX_SENDS_PER_DAY
    ensures env.Some? && Strings.ParseInt(env.value).Some? && Strings.ParseInt(env.value).value != 0
            ==> r == Strings.ParseInt(env.value).value
    ensures env.Some? && Strings.ParseInt(env.value).None? ==> r == DEFAULT_MAX_SENDS_PER_DAY
  {
    // parseInt(undefined) reads the string "undefined", which has no digits
    var parsed := if env.Some? then Strings.ParseInt(env.value) else None;
    match parsed
    case None => DEFAULT_MAX_SENDS_PER_DAY
    case Some(v) => if v == 0 then DEFAULT_MAX_SENDS_PER_DAY else v
  }

  /** A positive decimal setting is taken literally; "0" falls back to 100. */
  lemma MaxSendsPerDayOfNumeral(n: nat)
    ensures MaxSendsPerDay(Some(Strings.NatToDecimal(n))) == if n == 0 then 100 else n
  {
    Strings.ParseIntOfDecimal(n);
  }

  /** `process.env.PORT || 3000`, as it is later written into URLs. */
  function Port(env: Option<string>): (r: string)
    ensures r != ""
    ensures env.Some? && env.value != "" ==> r == env.value
    ensures env.None? || env.value == "" ==> r == Strings.NatToDecimal(3000)
  {
    if env.Some? && env.value != "" then env.value else Strings.NatToDecimal(3000)
  }

  /** `process.env.NODE_ENV || 'development'` */
  function NodeEnv(env: Option<string>): (r: string)
    ensures r != ""
    ensures env.Some? && env.value != "" ==> r == env.value
    ensures env.None? || env.value == "" ==> r == "development"
    ensures r == "development" <==> env.None? || env.value == "" || env.value == "development"
  {
    if env.Some? && env.value != "" then env.value else "development"
  }

  /** The settings the core reads from the environment. */
  datatype Settings = Settings(nodeEnv: string, port: string, maxSendsPerDay: int)

  function LoadSettings(nodeEnv: Option<string>, port: Option<string>, maxSends: Option<string>): Settings
  {
    Settings(NodeEnv(nodeEnv), Port(port), MaxSendsPerDay(maxSends))
  }
}

=== FILE: error_handler.dfy ===
/** The Express error handler of `errorHandler.js`: it classifies a thrown
    error into a status, a message and optional details by running a fixed
    sequence of rules over a draft response, each later rule overwriting
    what the earlier ones wrote. The model keeps that sequence as written
    and proves it equal to a priority-ordered reference classification. */
module ErrorHandler {
  import opened Wrappers
  import opened Config

  /** One inner error of a Sequelize validation or constraint error. */
  datatype ErrorItem = ErrorItem(path: string, message: string)

  /** The fields of a thrown error the handler reads. `status` is `None` when
      the error has none; `code` likewise. */
  datatype AppError = AppError(
    name: string,
    message: string,
    status: Option<int>,
    code: Option<string>,
    errors: seq<ErrorItem>,
    stack: string)

  /** One entry of `details`. */
  datatype Detail = Detail(field: string, message: string)

  /** The response under construction: `{ message, status, details? }`. */
  datatype Draft = Draft(message: string, status: int, details: Option<seq<Detail>>)

  /** The JSON body sent: `error`, then `details` and `stack` when present. */
  datatype ErrorBody = ErrorBody(status: int, error: string, details: Option<seq<Detail>>, stack: Option<string>)

  const VALIDATION: string := "SequelizeValidationError"
  const UNIQUE: string := "SequelizeUniqueConstraintError"
  const FOREIGN_KEY: string := "SequelizeForeignKeyConstraintError"
  const JWT_ERROR: string := "JsonWebTokenError"
  const EXPIRED_ERROR: string := "TokenExpiredError"
  const LIMIT_FILE_SIZE: string := "LIMIT_FILE_SIZE"

  /** `if (err.status)`: present and non-zero. */
  predicate HasCustomStatus(err: AppError) {
    err.status.Some? && err.status.value != 0
  }

  /** `err.errors.map(e => ({ field: e.path, message: e.message }))` */
  function ValidationDetails(items: seq<ErrorItem>): (ds: seq<Detail>)
    ensures |ds| == |items|
    ensures forall i :: 0 <= i < |items| ==> ds[i] == Detail(items[i].path, items[i].message)
  {
    seq(|items|, i requires 0 <= i < |items| => Detail(items[i].path, items[i].message))
  }

  /** ``err.errors.map(e => ({ field: e.path, message: `${e.path} already exists` }))`` */
  function UniqueDetails(items: seq<ErrorItem>): (ds: seq<Detail>)
    ensures |ds| == |items|
    ensures forall i :: 0 <= i < |items| ==> ds[i] == Detail(items[i].path, items[i].path + " already exists")
  {
    seq(|items|, i requires 0 <= i < |items| => Detail(items[i].path, items[i].path + " already exists"))
  }

  /* ------------------------------------------------------------ the rules, in source order */

  const DEFAULT_DRAFT: Draft := Draft("Internal Server Error", 500, None)

  function ValidationRule(err: AppError, d: Draft): Draft {
    if err.name == VALIDATION then Draft("Validation Error", 400, Some(ValidationDetails(err.errors))) else d
  }

  function UniqueRule(err: AppError, d: Draft): Draft {
    if err.name == UNIQUE then Draft("Duplicate entry", 409, Some(UniqueDetails(err.errors))) else d
  }

  function ForeignKeyRule(err: AppError, d: Draft): Draft {
    if err.name == FOREIGN_KEY then d.(message := "Invalid reference", status := 400) else d
  }

  function CustomRule(err: AppError, d: Draft): Draft {
    if HasCustomStatus(err) then d.(message := err.message, status := err.status.value) else d
  }

  function JwtRule(err: AppError, d: Draft): Draft {
    if err.name == JWT_ERROR then d.(message := "Invalid token", status := 401) else d
  }

  function ExpiredRule(err: AppError, d: Draft): Draft {
    if err.name == EXPIRED_ERROR then d.(message := "Token expired", status := 401) else d
  }

  function FileSizeRule(err: AppError, d: Draft): Draft {
    if err.code == Some(LIMIT_FILE_SIZE) then d.(message := "File too large", status := 413) else d
  }

  /** The draft after all seven rules, applied in the order they appear. */
  function Classified(err: AppError): Draft {
    FileSizeRule(err, ExpiredRule(err, JwtRule(err, CustomRule(err, ForeignKeyRule(err, UniqueRule(err,
      ValidationRule(err, DEFAULT_DRAFT)))))))
  }

  /** `errorHandler(err, …)` with the configured environment: the classified
      status and message, `details` exactly for the two Sequelize errors that
      carry them (an empty list still counts), and the stack exactly in
      development. */
  function HandleError(err: AppError, settings: Settings): (r: ErrorBody)
    ensures r.status == Priority(err).status && r.error == Priority(err).message
    ensures r.details == Priority(err).details
    ensures r.details.Some? <==> err.name == VALIDATION || err.name == UNIQUE
    ensures r.stack.Some? <==> settings.nodeEnv == "development"
    ensures r.stack.Some? ==> r.stack.value == err.stack
  {
    ClassifiedIsPriority(err);
    var d := Classified(err);
    ErrorBody(d.status, d.message, d.details, if settings.nodeEnv == "development" then Some(err.stack) else None)
  }

  /* ------------------------------------------------------------ reference classification */

  /** Which rule decides the status and message, the strongest first: the
      file-size code (7), an expired token (6), a malformed token (5), a
      custom status (4), a foreign-key error (3), a unique-constraint error
      (2), a validation error (1), none (0). */
  function PriorityOrder(err: AppError): (k: nat)
    ensures k <= 7
  {
    if err.code == Some(LIMIT_FILE_SIZE) then 7
    else if err.name == EXPIRED_ERROR then 6
    else if err.name == JWT_ERROR then 5
    else if HasCustomStatus(err) then 4
    else if err.name == FOREIGN_KEY then 3
    else if err.name == UNIQUE then 2
    else if err.name == VALIDATION then 1
    else 0
  }

  /** The status and message the deciding rule gives, and the details of the
      error's own kind. */
  function Priority(err: AppError): Draft {
    var details := if err.name == VALIDATION then Some(ValidationDetails(err.errors))
                   else if err.name == UNIQUE then Some(UniqueDetails(err.errors))
                   else None;
    match PriorityOrder(err)
    case 7 => Draft("File too large", 413, details)
    case 6 => Draft("Token expired", 401, details)
    case 5 => Draft("Invalid token", 401, details)
    case 4 => Draft(err.message, err.status.value, details)
    case 3 => Draft("Invalid reference", 400, details)
    case 2 => Draft("Duplicate entry", 409, details)
    case 1 => Draft("Validation Error", 400, details)
    case _ => Draft("Internal Server Error", 500, details)
  }

  /** Running the rules in source order is the same as asking the strongest
      applicable rule: the last rule that applies wins, and details set by an
      earlier rule survive the later ones. */
  lemma ClassifiedIsPriority(err: AppError)
    ensures Classified(err) == Priority(err)
  {
  }

  /* ------------------------------------------------------------ consequences */

  /** The file-size rule always wins; a token error beats any custom status;
      a custom status beats the Sequelize classification but keeps its
      details. */
  lemma LastRuleWins(err: AppError, settings: Settings)
    ensures err.code == Some(LIMIT_FILE_SIZE) ==>
      HandleError(err, settings).status == 413 && HandleError(err, settings).error == "File too large"
    ensures err.code != Some(LIMIT_FILE_SIZE) && err.name == EXPIRED_ERROR ==>
      HandleError(err, settings).status == 401 && HandleError(err, settings).error == "Token expired"
    ensures err.code != Some(LIMIT_FILE_SIZE) && err.name == JWT_ERROR ==>
      HandleError(err, settings).status == 401 && HandleError(err, settings).error == "Invalid token"
    ensures err.code != Some(LIMIT_FILE_SIZE) && err.name == UNIQUE && HasCustomStatus(err) ==>
      && HandleError(err, settings).status == err.status.value
      && HandleError(err, settings).error == err.message
      && HandleError(err, settings).details == Some(UniqueDetails(err.errors))
  {
  }

  /** An error no rule recognises is a bare 500. */
  lemma UnrecognisedIs500(err: AppError, settings: Settings)
    requires PriorityOrder(err) == 0
    ensures HandleError(err, settings) ==
      ErrorBody(500, "Internal Server Error", None, if settings.nodeEnv == "development" then Some(err.stack) else None)
  {
  }
}

=== FILE: feature_flag_controller.dfy ===
/** The admin-facing feature-flag endpoints of `featureFlagController.js`. The
    flag table and the user table are passed in and handed back. */
module FeatureFlagController {
  import opened Wrappers
  import opened JsValues
  import opened Config
  import opened UserModel
  import opened Http
  import opened FeatureFlagService

  /** The public part of a user echoed by the endpoints. */
  datatype UserSummary = UserSummary(id: string, email: string, tier: Tier, isAdmin: bool)

  datatype UserFeatures = UserFeatures(features: AvailableFeatures, user: UserSummary)

  /** `getUserFeatures`. Reading a field of a missing user throws, which the
      handler turns into a 500. */
  function GetUserFeatures(flags: Flags, user: Option<User>): (r: Response<UserFeatures>)
    ensures user.None? ==> r == Failure(500, "Failed to get user features")
    ensures user.Some? ==> (
      && r.Success?
      && r.body.features == GetAvailableFeatures(flags, user)
      && r.body.user.id == user.value.id
      && r.body.user.tier == user.value.tier
      && r.body.user.isAdmin == user.value.isAdmin)
  {
    match user
    case None => Failure(500, "Failed to get user features")
    case Some(u) =>
      Success(UserFeatures(GetAvailableFeatures(flags, user), UserSummary(u.id, u.email, u.tier, u.isAdmin)))
  }

  datatype Toggled = Toggled(flagName: string, newValue: JsValue, allFlags: Flags)

  /** `toggleFeatureFlag`: only an admin may toggle, and only a non-empty flag
      name; the admin check comes first. `flagName` is `None` when the body
      omits it. */
  function ToggleFeatureFlag(flags: Flags, user: User, flagName: Option<string>, value: JsValue): (r: (Flags, Response<Toggled>))
    ensures !user.isAdmin ==> r == (flags, Failure(403, "Admin access required to toggle feature flags"))
    ensures user.isAdmin && (flagName.None? || flagName.value == "")
            ==> r == (flags, Failure(400, "Flag name is required"))
    ensures r.1.Success? <==> user.isAdmin && flagName.Some? && flagName.value != ""
    ensures r.1.Success? ==>
      var (f, v) := ToggleFlag(flags, flagName.value, value);
      r.0 == f && r.1.body == Toggled(flagName.value, v, f)
  {
    if !user.isAdmin then (flags, Failure(403, "Admin access required to toggle feature flags"))
    else if flagName.None? || flagName.value == "" then (flags, Failure(400, "Flag name is required"))
    else
      var (f, v) := ToggleFlag(flags, flagName.value, value);
      (f, Success(Toggled(flagName.value, v, GetAllFlags(f))))
  }

  /** The table with its human-readable descriptions. */
  datatype FlagListing = FlagListing(flags: Flags, descriptions: map<string, string>)

  const DESCRIPTIONS: map<string, string> := map[
    PREMIUM_MULTIPLE_SENDS := "Allow premium users to send multiple times per day",
    PREMIUM_PERSONALIZED_MESSAGES := "Allow premium users to add personalized messages",
    PREMIUM_ADVANCED_SCHEDULING := "Allow premium users advanced scheduling features",
    FORCE_PREMIUM_FOR_ALL := "Force all users to have premium features (testing)",
    DISABLE_PREMIUM_CHECKS := "Disable all premium checks (testing)"
  ]

  /** `getAllFeatureFlags`: admins only. */
  function GetAllFeatureFlags(flags: Flags, user: User): (r: Response<FlagListing>)
    ensures r.Failure? <==> !user.isAdmin
    ensures r.Failure? ==> r.status == 403
    ensures r.Success? ==> r.body.flags == flags && r.body.descriptions.Keys == InitialFlags(FlagEnv(None, None, None, None, None)).Keys
  {
    if !user.isAdmin then Failure(403, "Admin access required to view feature flags")
    else Success(FlagListing(GetAllFlags(flags), DESCRIPTIONS))
  }

  datatype TierChange = TierChange(message: string, user: UserSummary, features: AvailableFeatures)

  /** `simulateUserTier`: admin check, then both fields present and non-empty,
      then the tier name valid, then the user found; the tier is written only
      when every check has passed, and the reported features are those of the
      updated user. */
  function SimulateUserTier(flags: Flags, users: seq<User>, admin: User, userId: Option<string>, tier: Option<string>)
    : (r: (seq<User>, Response<TierChange>))
    ensures r.1.Failure? ==> r.0 == users
    ensures !admin.isAdmin ==> r.1 == Failure(403, "Admin access required to simulate user tier")
    ensures admin.isAdmin && (userId.None? || userId.value == "" || tier.None? || tier.value == "")
            ==> r.1 == Failure(400, "User ID and tier are required")
    ensures (admin.isAdmin && userId.Some? && userId.value != "" && tier.Some? && tier.value != ""
             && TierOf(tier.value).None?) ==> r.1 == Failure(400, "Tier must be Free or Premium")
    ensures r.1.Failure? && r.1.status == 404 <==>
      admin.isAdmin && userId.Some? && userId.value != "" && tier.Some? && TierOf(tier.value).Some?
      && IndexOfUser(users, userId.value).None?
    ensures r.1.Success? ==>
      && admin.isAdmin && userId.Some? && tier.Some? && TierOf(tier.value).Some?
      && IndexOfUser(users, userId.value).Some?
      && var i := IndexOfUser(users, userId.value).value;
      && |r.0| == |users|
      && r.0[i] == users[i].(tier := TierOf(tier.value).value)
      && (forall j :: 0 <= j < |users| && j != i ==> r.0[j] == users[j])
      && r.1.body.user.tier == TierOf(tier.value).value
      && r.1.body.features == GetAvailableFeatures(flags, Some(r.0[i]))
  {
    if !admin.isAdmin then (users, Failure(403, "Admin access required to simulate user tier"))
    else if userId.None? || userId.value == "" || tier.None? || tier.value == "" then
      (users, Failure(400, "User ID and tier are required"))
    else match TierOf(tier.value)
      case None => (users, Failure(400, "Tier must be Free or Premium"))
      case Some(t) =>
        match IndexOfUser(users, userId.value)
        case None => (users, Failure(404, "User not found"))
        case Some(i) =>
          var updated := users[i].(tier := t);
          (users[i := updated],
           Success(TierChange(
             "User " + updated.email + " tier changed to " + tier.value,
             UserSummary(updated.id, updated.email, updated.tier, updated.isAdmin),
             GetAvailableFeatures(flags, Some(updated)))))
  }

  /** After a simulated tier change the user's own feature summary is the one
      the admin was shown: the two endpoints agree. */
  lemma SimulateThenGetFeatures(flags: Flags, users: seq<User>, admin: User, userId: Option<string>, tier: Option<string>)
    requires SimulateUserTier(flags, users, admin, userId, tier).1.Success?
    ensures var (users', resp) := SimulateUserTier(flags, users, admin, userId, tier);
      var u := FindUser(users', userId.value);
      && u.Some?
      && GetUserFeatures(flags, u) == Success(UserFeatures(resp.body.features, resp.body.user))
  {
    var (users', resp) := SimulateUserTier(flags, users, admin, userId, tier);
    var i := IndexOfUser(users, userId.value).value;
    FindAfterIndexUpdate(users, i, users'[i]);
  }

  /** Replacing the first user with a given id by a record with the same id
      makes that record the one found. */
  lemma {:induction false} FindAfterIndexUpdate(users: seq<User>, i: nat, u: User)
    requires IndexOfUser(users, u.id) == Some(i)
    ensures FindUser(users[i := u], u.id) == Some(u)
    decreases |users|
  {
    if users[0].id != u.id {
      assert i > 0;
      assert users[i := u][1..] == users[1..][i - 1 := u];
      FindAfterIndexUpdate(users[1..], i - 1, u);
    }
  }

  /** Simulating the Premium tier for a user makes that user premium in the
      feature summary, whatever the flags. */
  lemma SimulatePremium(flags: Flags, users: seq<User>, admin: User, userId: string)
    requires admin.isAdmin && userId != ""
    requires IndexOfUser(users, userId).Some?
    ensures var r := SimulateUserTier(flags, users, admin, Some(userId), Some("Premium"));
      r.1.Success? && r.1.body.features.isPremium && r.1.body.features.userTier == "Premium"
  {
  }
}

=== FILE: feature_flag_service.dfy ===
/** The in-memory feature-flag table of `featureFlagService.js` and the premium
    gate built on it. */
module FeatureFlagService {
  import opened Wrappers
  import opened JsValues
  import opened Config
  import Strings
  import opened UserModel

  type Flags = map<string, JsValue>

  const PREMIUM_PREFIX: string := "PREMIUM_"
  const PREMIUM_MULTIPLE_SENDS: string := PREMIUM_PREFIX + "MULTIPLE_SENDS"
  const PREMIUM_PERSONALIZED_MESSAGES: string := PREMIUM_PREFIX + "PERSONALIZED_MESSAGES"
  const PREMIUM_ADVANCED_SCHEDULING: string := PREMIUM_PREFIX + "ADVANCED_SCHEDULING"
  const FORCE_PREMIUM_FOR_ALL: string := "FORCE_PREMIUM_FOR_ALL"
  const DISABLE_PREMIUM_CHECKS: string := "DISABLE_PREMIUM_CHECKS"

  /** The FEATURE_* environment variables read when the service is built. */
  datatype FlagEnv = FlagEnv(
    multipleSends: Option<string>,
    personalizedMessages: Option<string>,
    advancedScheduling: Option<string>,
    forcePremiumForAll: Option<string>,
    disablePremiumChecks: Option<string>)

  /** `process.env.X === 'true'` */
  predicate EnvTrue(v: Option<string>) {
    v == Some("true")
  }

  /** The table the constructor builds. The three premium flags are written
      `env === 'true' || true` and so are on whatever the environment says; the
      two testing flags are on only for the exact string "true". */
  function InitialFlags(env: FlagEnv): (f: Flags)
    ensures f.Keys == {PREMIUM_MULTIPLE_SENDS, PREMIUM_PERSONALIZED_MESSAGES, PREMIUM_ADVANCED_SCHEDULING,
                       FORCE_PREMIUM_FOR_ALL, DISABLE_PREMIUM_CHECKS}
    ensures forall k :: k in f ==> f[k].Bool?
    ensures IsEnabled(f, PREMIUM_MULTIPLE_SENDS) && IsEnabled(f, PREMIUM_PERSONALIZED_MESSAGES)
            && IsEnabled(f, PREMIUM_ADVANCED_SCHEDULING)
    ensures IsEnabled(f, FORCE_PREMIUM_FOR_ALL) <==> EnvTrue(env.forcePremiumForAll)
    ensures IsEnabled(f, DISABLE_PREMIUM_CHECKS) <==> EnvTrue(env.disablePremiumChecks)
  {
    // the five keys differ: the premium ones in length, the others in their first letter
    assert |PREMIUM_MULTIPLE_SENDS| == 22 && |PREMIUM_PERSONALIZED_MESSAGES| == 29 && |PREMIUM_ADVANCED_SCHEDULING| == 27;
    assert PREMIUM_MULTIPLE_SENDS[0] == PREMIUM_PERSONALIZED_MESSAGES[0] == PREMIUM_ADVANCED_SCHEDULING[0] == 'P';
    map[
      PREMIUM_MULTIPLE_SENDS := Bool(EnvTrue(env.multipleSends) || true),
      PREMIUM_PERSONALIZED_MESSAGES := Bool(EnvTrue(env.personalizedMessages) || true),
      PREMIUM_ADVANCED_SCHEDULING := Bool(EnvTrue(env.advancedScheduling) || true),
      FORCE_PREMIUM_FOR_ALL := Bool(EnvTrue(env.forcePremiumForAll) || false),
      DISABLE_PREMIUM_CHECKS := Bool(EnvTrue(env.disablePremiumChecks) || false)
    ]
  }

  /** `isEnabled(name)`: the stored value is exactly the boolean `true`. An
      unknown name, or a truthy non-boolean such as the string "true", is off. */
  predicate IsEnabled(flags: Flags, name: string) {
    name in flags && flags[name] == Bool(true)
  }

  /** `isPremiumUser(user)`: either testing flag makes every caller premium,
      even a missing one; otherwise only a Premium-tier user is. */
  function IsPremiumUser(flags: Flags, user: Option<User>): (r: bool)
    ensures IsEnabled(flags, FORCE_PREMIUM_FOR_ALL) ==> r
    ensures IsEnabled(flags, DISABLE_PREMIUM_CHECKS) ==> r
    ensures !IsEnabled(flags, FORCE_PREMIUM_FOR_ALL) && !IsEnabled(flags, DISABLE_PREMIUM_CHECKS)
            ==> (r <==> user.Some? && user.value.tier == Premium)
  {
    if IsEnabled(flags, FORCE_PREMIUM_FOR_ALL) then true
    else if IsEnabled(flags, DISABLE_PREMIUM_CHECKS) then true
    else user.Some? && user.value.tier == Premium
  }

  /** The flag that gates a named premium feature. */
  function FeatureFlagName(featureName: string): (r: string)
    ensures Strings.IsPrefix(PREMIUM_PREFIX, r)
    ensures |r| == 8 + |featureName|
  {
    PREMIUM_PREFIX + Strings.ToUpper(featureName)
  }

  /* The three feature names callers pass to the gate upper-case to the
     names of the premium flags the constructor defines. */

  lemma MultipleSendsFlag()
    ensures FeatureFlagName("multiple_sends") == PREMIUM_MULTIPLE_SENDS
  {
    MultipleSendsUpper();
  }

  lemma MultipleSendsUpper()
    ensures Strings.ToUpper("multiple_sends") == "MULTIPLE_SENDS"
  {
    var s, u := "multiple_sends", "MULTIPLE_SENDS";
    assert forall i :: 0 <= i < |s| ==> Strings.UpperChar(s[i]) == u[i];
  }

  lemma PersonalizedMessagesFlag()
    ensures FeatureFlagName("personalized_messages") == PREMIUM_PERSONALIZED_MESSAGES
  {
    PersonalizedMessagesUpper();
  }

  lemma PersonalizedMessagesUpper()
    ensures Strings.ToUpper("personalized_messages") == "PERSONALIZED_MESSAGES"
  {
    var s, u := "personalized_messages", "PERSONALIZED_MESSAGES";
    assert forall i :: 0 <= i < |s| ==> Strings.UpperChar(s[i]) == u[i];
  }

  lemma AdvancedSchedulingFlag()
    ensures FeatureFlagName("advanced_scheduling") == PREMIUM_ADVANCED_SCHEDULING
  {
    AdvancedSchedulingUpper();
  }

  lemma AdvancedSchedulingUpper()
    ensures Strings.ToUpper("advanced_scheduling") == "ADVANCED_SCHEDULING"
  {
    var s, u := "advanced_scheduling", "ADVANCED_SCHEDULING";
    assert forall i :: 0 <= i < |s| ==> Strings.UpperChar(s[i]) == u[i];
  }

  /** `canAccessPremiumFeature(user, name)`: the feature's own flag must be on —
      no testing flag overrides that — and then the user must be premium. */
  function CanAccessPremiumFeature(flags: Flags, user: Option<User>, featureName: string): (r: bool)
    ensures !IsEnabled(flags, FeatureFlagName(featureName)) ==> !r
    ensures IsEnabled(flags, FeatureFlagName(featureName)) ==> r == IsPremiumUser(flags, user)
  {
    if !IsEnabled(flags, FeatureFlagName(featureName)) then false
    else IsPremiumUser(flags, user)
  }

  datatype Validation =
    | Allowed
    | Denied(error: string, premiumFeature: string)

  /** `validatePremiumFeature(user, name, friendlyName)` */
  function ValidatePremiumFeature(flags: Flags, user: Option<User>, featureName: string, friendlyName: string): (v: Validation)
    ensures v.Allowed? <==> CanAccessPremiumFeature(flags, user, featureName)
    ensures v.Denied? ==> v.premiumFeature == Strings.ToLower(featureName)
    ensures v.Denied? ==> Strings.IsPrefix(friendlyName, v.error)
  {
    if !CanAccessPremiumFeature(flags, user, featureName) then
      Denied(friendlyName + " is a Premium feature. Please upgrade your account.", Strings.ToLower(featureName))
    else Allowed
  }

  const PROTO: string := "__proto__"

  /** The names a plain object inherits from `Object.prototype`. Read through
      a missing own key, each yields a function, or for `__proto__` the
      prototype object itself: a truthy value that is never `true`. */
  predicate Inherited(name: string) {
    || name == "constructor" || name == "hasOwnProperty" || name == "isPrototypeOf"
    || name == "propertyIsEnumerable" || name == "toLocaleString" || name == "toString"
    || name == "valueOf" || name == PROTO || name == "__defineGetter__"
    || name == "__defineSetter__" || name == "__lookupGetter__" || name == "__lookupSetter__"
  }

  /** `flags[name]`: an own key's value; else an inherited member, which is
      an object; else `undefined`. */
  function Get(flags: Flags, name: string): (v: JsValue)
    ensures name in flags ==> v == flags[name]
    ensures name !in flags ==> (v == Obj <==> Inherited(name)) && (v == Undefined <==> !Inherited(name))
  {
    if name in flags then flags[name] else if Inherited(name) then Obj else Undefined
  }

  /** `toggleFlag(name, value)`. An omitted (`undefined`) or `null` value falls
      back to negation, which always stores a boolean; any other value is
      stored as given. Returns the new table and the value now read back. No
      other flag changes. Assigning to `__proto__` goes to its setter, which
      ignores a boolean or string and never creates an own key, so that name
      leaves the table as it was and reads back the prototype object. */
  function ToggleFlag(flags: Flags, name: string, value: JsValue): (r: (Flags, JsValue))
    ensures name != PROTO ==> r.0.Keys == flags.Keys + {name} && r.0[name] == r.1
    ensures name == PROTO ==> r.0 == flags && r.1 == Obj
    ensures forall k :: k in flags && k != name ==> r.0[k] == flags[k]
    ensures name != PROTO && (value.Undefined? || value.Null?) ==> r.1 == Bool(!Truthy(Get(flags, name)))
    ensures name != PROTO && !(value.Undefined? || value.Null?) ==> r.1 == value
  {
    // the default parameter `value = null` also replaces an explicit undefined
    var v := if value.Undefined? || value.Null? then Not(Get(flags, name)) else value;
    if name == PROTO then (flags, Obj) else (flags[name := v], v)
  }

  /** An inherited name that is not yet a flag toggles from its truthy
      inherited member to `false`; `__proto__` never becomes a flag. */
  lemma {:induction false} InheritedToggle(flags: Flags, name: string, value: JsValue)
    requires Inherited(name) && name !in flags
    ensures name != PROTO ==> ToggleFlag(flags, name, Null) == (flags[name := Bool(false)], Bool(false))
    ensures name == PROTO ==> ToggleFlag(flags, name, value) == (flags, Obj) && !IsEnabled(flags, name)
  {
    assert Get(flags, name) == Obj;
  }

  /** Toggling a boolean flag twice without a value restores the table. */
  lemma ToggleTwice(flags: Flags, name: string)
    requires name in flags && flags[name].Bool?
    ensures ToggleFlag(ToggleFlag(flags, name, Null).0, name, Null).0 == flags
  {
    var once := ToggleFlag(flags, name, Null).0;
    var twice := ToggleFlag(once, name, Null).0;
    assert twice.Keys == flags.Keys;
    assert forall k :: k in twice ==> twice[k] == flags[k];
  }

  /** A string "true" forwarded as a value is stored as-is and switches the flag
      off, whatever it was. */
  lemma StringTrueDisables(flags: Flags, name: string)
    ensures var r := ToggleFlag(flags, name, Str("true"));
      (name != PROTO ==> r.1 == Str("true")) && (name != PROTO || name !in flags ==> !IsEnabled(r.0, name))
  {
  }

  /** Switching FORCE_PREMIUM_FOR_ALL on makes every caller premium, and then
      feature access depends on the feature flag alone. */
  lemma ForcePremiumOpensEveryFeature(flags: Flags, user: Option<User>, featureName: string)
    ensures var f := ToggleFlag(flags, FORCE_PREMIUM_FOR_ALL, Bool(true)).0;
      && IsPremiumUser(f, user)
      && (CanAccessPremiumFeature(f, user, featureName)
          <==> IsEnabled(flags, FeatureFlagName(featureName)))
  {
    var name := FeatureFlagName(featureName);
    assert name[0] == PREMIUM_PREFIX[0] == 'P';
    assert FORCE_PREMIUM_FOR_ALL[0] == 'F';
  }

  /** `getAllFlags()` hands out a copy: as values are immutable here, the copy
      equals the table and no change to it can reach the service. */
  function GetAllFlags(flags: Flags): (r: Flags)
    ensures r.Keys == flags.Keys
    ensures forall k :: k in r ==> r[k] == flags[k]
  {
    flags
  }

  datatype AvailableFeatures = AvailableFeatures(
    multipleSends: bool,
    personalizedMessages: bool,
    advancedScheduling: bool,
    userTier: string,
    isPremium: bool)

  /** `getAvailableFeatures(user)` */
  function GetAvailableFeatures(flags: Flags, user: Option<User>): (r: AvailableFeatures)
    ensures r.isPremium == IsPremiumUser(flags, user)
    ensures r.multipleSends <==> r.isPremium && IsEnabled(flags, PREMIUM_MULTIPLE_SENDS)
    ensures r.personalizedMessages <==> r.isPremium && IsEnabled(flags, PREMIUM_PERSONALIZED_MESSAGES)
    ensures r.advancedScheduling <==> r.isPremium && IsEnabled(flags, PREMIUM_ADVANCED_SCHEDULING)
    ensures user.None? ==> r.userTier == "Free"
    ensures user.Some? ==> r.userTier == TierName(user.value.tier)
  {
    var isPremium := IsPremiumUser(flags, user);
    AvailableFeatures(
      isPremium && IsEnabled(flags, PREMIUM_MULTIPLE_SENDS),
      isPremium && IsEnabled(flags, PREMIUM_PERSONALIZED_MESSAGES),
      isPremium && IsEnabled(flags, PREMIUM_ADVANCED_SCHEDULING),
      if user.Some? then TierName(user.value.tier) else "Free",
      isPremium)
  }

  /** The summary agrees with the per-feature gate for the three features it
      reports, named the way callers name them. */
  lemma FeaturesAgreeWithGate(flags: Flags, user: Option<User>)
    ensures var f := GetAvailableFeatures(flags, user);
      && f.multipleSends == CanAccessPremiumFeature(flags, user, "multiple_sends")
      && f.personalizedMessages == CanAccessPremiumFeature(flags, user, "personalized_messages")
      && f.advancedScheduling == CanAccessPremiumFeature(flags, user, "advanced_scheduling")
  {
    MultipleSendsFlag();
    PersonalizedMessagesFlag();
    AdvancedSchedulingFlag();
  }

  /** Freshly started service: a Free user is premium exactly when one of the
      testing variables is the string "true", and then has every feature. */
  lemma InitialGate(env: FlagEnv, u: User)
    requires u.tier == Free
    ensures var f := GetAvailableFeatures(InitialFlags(env), Some(u));
      && (f.isPremium <==> EnvTrue(env.forcePremiumForAll) || EnvTrue(env.disablePremiumChecks))
      && (f.isPremium ==> f.multipleSends && f.personalizedMessages && f.advancedScheduling)
  {
  }
}

=== FILE: gmail_service.dfy ===
/** The send path of `gmailService.js`: the token-expiry rule, the lookup and
    refresh that precede every Gmail call, the MIME text of a message with its
    optional tracking pixel, and `sendEmail`, which turns every failure into a
    result value. The clock, the OAuth refresh response and the Gmail send
    response are parameters; the user table is passed in and handed back. */
module GmailService {
  import opened Wrappers
  import opened Strings
  import opened Config
  import opened UserModel

  /* ------------------------------------------------------------ token expiry */

  /** Tokens are refreshed this long before they actually expire: 5 minutes. */
  const EXPIRY_BUFFER_MS: int := 5 * 60 * 1000

  /** `isTokenExpired(expiresAt)` at clock reading `now` (milliseconds).
      An absent expiry compares as `undefined <= n`, which is false. A stored
      `null` would compare as `0 <= n` and count as expired; the model has no
      separate null expiry. */
  predicate IsTokenExpired(expiresAt: Option<int>, now: int) {
    expiresAt.Some? && expiresAt.value <= now + EXPIRY_BUFFER_MS
  }

  /** The rule in plain numbers: a token counts as expired exactly when it
      expires within 300000 ms from now, the boundary instant included; one
      with no expiry never does. */
  lemma ExpiryRule(e: int, now: int)
    ensures IsTokenExpired(Some(e), now) <==> e - now <= 300000
    ensures IsTokenExpired(Some(now + 300000), now)
    ensures !IsTokenExpired(Some(now + 300001), now)
    ensures !IsTokenExpired(None, now)
  {
  }

  /** Once expired, a token stays expired as the clock moves on. */
  lemma ExpiryMonotone(expiresAt: Option<int>, now: int, later: int)
    requires now <= later && IsTokenExpired(expiresAt, now)
    ensures IsTokenExpired(expiresAt, later)
  {
  }

  /* ------------------------------------------------------------ stored tokens */

  const NO_TOKENS: string := "User not found or no Gmail tokens available"
  const REFRESH_FAILED: string := "Failed to refresh Gmail access token"
  const INIT_PREFIX: string := "Failed to initialize Gmail API: "

  /** `!user.oauthEncryptedTokens` is false: the column holds a non-empty value. */
  predicate HasStoredTokens(u: User) {
    u.oauthEncryptedTokens.Some? && u.oauthEncryptedTokens.value != Garbled("")
  }

  /** The decrypted tokens of user `id`, or the message of the error thrown
      on the way: no such user or no token column, or a blob that does not
      decrypt. */
  function StoredTokens(users: seq<User>, id: string): (r: Result<Tokens, string>)
    ensures r.Ok? <==> FindUser(users, id).Some? && HasStoredTokens(FindUser(users, id).value)
                       && FindUser(users, id).value.oauthEncryptedTokens.value.Sealed?
    ensures r.Ok? ==> EncryptTokens(r.value) == FindUser(users, id).value.oauthEncryptedTokens.value
    ensures (FindUser(users, id).None? || !HasStoredTokens(FindUser(users, id).value)) <==> r == Err(NO_TOKENS)
  {
    match FindUser(users, id)
    case None => Err(NO_TOKENS)
    case Some(u) =>
      if !HasStoredTokens(u) then Err(NO_TOKENS)
      else match DecryptTokens(u.oauthEncryptedTokens.value)
        case Err(e) => Err(e)
        case Ok(t) => Ok(t)
  }

  /** `user.update({ oauthEncryptedTokens })`: the row with primary key `id`
      gets the new blob. */
  function SetTokens(users: seq<User>, id: string, b: Blob): (r: seq<User>)
    ensures |r| == |users|
  {
    if |users| == 0 then []
    else
      var u := if users[0].id == id then users[0].(oauthEncryptedTokens := Some(b)) else users[0];
      [u] + SetTokens(users[1..], id, b)
  }

  /** After the update, looking up `id` finds the same user with the new blob,
      and looking up any other id finds what it found before. */
  lemma {:induction false} SetTokensLookup(users: seq<User>, id: string, b: Blob, other: string)
    ensures FindUser(SetTokens(users, id, b), id) ==
      (if FindUser(users, id).Some? then Some(FindUser(users, id).value.(oauthEncryptedTokens := Some(b))) else None)
    ensures other != id ==> FindUser(SetTokens(users, id, b), other) == FindUser(users, other)
    decreases |users|
  {
    if |users| > 0 {
      SetTokensLookup(users[1..], id, b, other);
      assert SetTokens(users, id, b)[1..] == SetTokens(users[1..], id, b);
    }
  }

  /* ------------------------------------------------------------ refresh */

  /** What `refreshAccessToken` hands back: `credentials.access_token` and
      `credentials.expiry_date`. */
  datatype Credentials = Credentials(accessToken: Option<string>, expiryDate: Option<int>)

  /** The record the refresh stores: the new access token and expiry, and
      the refresh token that was already stored. */
  function Refreshed(prev: Tokens, c: Credentials): Tokens {
    Tokens(c.accessToken, prev.refreshToken, c.expiryDate)
  }

  /** `refreshUserTokens(user)`, where `response` is the outcome of the OAuth
      refresh call. On success the table holds the encrypted updated record
      for the user and the record is returned; every failure (no blob, a blob
      that does not decrypt, a failed refresh call) is the one error
      'Failed to refresh Gmail access token' and stores nothing. */
  function RefreshUserTokens(users: seq<User>, user: User, response: Result<Credentials, string>)
    : (r: Result<(seq<User>, Tokens), string>)
    ensures r.Err? ==> r.error == REFRESH_FAILED
    ensures r.Ok? <==> user.oauthEncryptedTokens.Some? && user.oauthEncryptedTokens.value.Sealed? && response.Ok?
    ensures r.Ok? ==>
      && r.value.1.refreshToken == user.oauthEncryptedTokens.value.tokens.refreshToken
      && r.value.1.accessToken == response.value.accessToken
      && r.value.1.expiresAt == response.value.expiryDate
      && r.value.0 == SetTokens(users, user.id, EncryptTokens(r.value.1))
  {
    if user.oauthEncryptedTokens.None? then Err(REFRESH_FAILED)
    else match DecryptTokens(user.oauthEncryptedTokens.value)
      case Err(_) => Err(REFRESH_FAILED)
      case Ok(prev) =>
        match response
        case Err(_) => Err(REFRESH_FAILED)
        case Ok(c) =>
          var updated := Refreshed(prev, c);
          Ok((SetTokens(users, user.id, EncryptTokens(updated)), updated))
  }

  /** After a successful refresh, user `id` reads back the refreshed record,
      and so still reads back the refresh token it had. */
  lemma RefreshStored(users: seq<User>, id: string, response: Result<Credentials, string>)
    requires StoredTokens(users, id).Ok?
    ensures var r := RefreshUserTokens(users, FindUser(users, id).value, response);
      response.Ok? ==>
        && r.Ok?
        && StoredTokens(r.value.0, id) == Ok(r.value.1)
        && r.value.1.refreshToken == StoredTokens(users, id).value.refreshToken
  {
    var u := FindUser(users, id).value;
    var r := RefreshUserTokens(users, u, response);
    if response.Ok? {
      SetTokensLookup(users, id, EncryptTokens(r.value.1), id);
    }
  }

  /* ------------------------------------------------------------ client */

  /** The authorised Gmail client: whose it is and the token record it
      carries. */
  datatype GmailClient = GmailClient(userId: string, credentials: Tokens)

  /** `getGmailClient(userId)`: look the user up, decrypt the tokens and
      refresh them first when they are expired; any error is rethrown with
      the prefix 'Failed to initialize Gmail API: '. */
  function GetGmailClient(users: seq<User>, userId: string, now: int, response: Result<Credentials, string>)
    : (r: Result<(seq<User>, GmailClient), string>)
    ensures r.Err? ==> StartsWith(r.error, INIT_PREFIX)
    ensures StoredTokens(users, userId).Err? ==> r == Err(INIT_PREFIX + StoredTokens(users, userId).error)
    ensures StoredTokens(users, userId).Ok? ==>
      var t := StoredTokens(users, userId).value;
      && (!IsTokenExpired(t.expiresAt, now) ==> r == Ok((users, GmailClient(userId, t))))
      && (IsTokenExpired(t.expiresAt, now) && response.Err? ==> r == Err(INIT_PREFIX + REFRESH_FAILED))
      && (IsTokenExpired(t.expiresAt, now) && response.Ok? ==>
            && r.Ok?
            && r.value.1 == GmailClient(userId, Refreshed(t, response.value))
            && StoredTokens(r.value.0, userId) == Ok(Refreshed(t, response.value)))
  {
    match StoredTokens(users, userId)
    case Err(e) => Err(INIT_PREFIX + e)
    case Ok(tokens) =>
      if IsTokenExpired(tokens.expiresAt, now) then
        RefreshStored(users, userId, response);
        match RefreshUserTokens(users, FindUser(users, userId).value, response)
        case Err(e) => Err(INIT_PREFIX + e)
        case Ok((stored, updated)) => Ok((stored, GmailClient(userId, updated)))
      else Ok((users, GmailClient(userId, tokens)))
  }

  /** A refresh that yields a token valid beyond the buffer settles the
      matter: asking for the client again, any time before that token comes
      within the buffer, neither refreshes nor changes the table. */
  lemma RefreshSettles(users: seq<User>, userId: string, now: int, later: int,
                       response: Result<Credentials, string>, again: Result<Credentials, string>)
    requires StoredTokens(users, userId).Ok? && IsTokenExpired(StoredTokens(users, userId).value.expiresAt, now)
    requires response.Ok? && response.value.expiryDate.Some?
    requires response.value.expiryDate.value > later + EXPIRY_BUFFER_MS
    ensures var first := GetGmailClient(users, userId, now, response);
      first.Ok? && GetGmailClient(first.value.0, userId, later, again) == first
  {
  }

  /* ------------------------------------------------------------ MIME text */

  /** The origin the tracking link points at. */
  function BaseUrl(settings: Settings): string
  {
    if settings.nodeEnv == "production" then "https://yourdomain.com" else "http://localhost:" + settings.port
  }

  const TRACK_PATH: string := "/track/open.png?emailLogId="

  /** `getTrackingPixelUrl(emailLogId)`: the origin and the tracking path,
      followed by the id exactly as given (nothing is escaped). */
  function TrackingPixelUrl(settings: Settings, emailLogId: string): (r: string)
    ensures |r| == |BaseUrl(settings)| + |TRACK_PATH| + |emailLogId|
    ensures IsPrefix(BaseUrl(settings) + TRACK_PATH, r)
    ensures EndsWith(r, emailLogId)
  {
    Framed(BaseUrl(settings) + TRACK_PATH, emailLogId);
    BaseUrl(settings) + TRACK_PATH + emailLogId
  }

  /** A concatenation starts with its first part and ends with its second. */
  lemma Framed(a: string, b: string)
    ensures IsPrefix(a, a + b) && EndsWith(a + b, b)
  {
    assert (a + b)[..|a|] == a;
    assert (a + b)[|a + b| - |b|..] == b;
  }

  /** `if (emailLogId)`: null, undefined and the empty string are falsy. */
  predicate Tracked(emailLogId: Option<string>) {
    emailLogId.Some? && emailLogId.value != ""
  }

  /** The `<img>` line that requests the tracking pixel. */
  function PixelTag(settings: Settings, emailLogId: string): string {
    "<img src=\"" + TrackingPixelUrl(settings, emailLogId) + "\" alt=\"\" width=\"1\" height=\"1\" style=\"display:none;\" />"
  }

  const CONTENT_TYPE: string := "Content-Type: text/plain; charset=\"UTF-8\""
  const MIME_VERSION: string := "MIME-Version: 1.0"

  /** The lines of `buildMimeMessage`: five headers, an empty line, the body,
      and, for a truthy `emailLogId`, an empty line and the pixel tag. */
  function MimeLines(from: string, to: string, subject: string, bodyText: string,
                     emailLogId: Option<string>, settings: Settings): (lines: seq<string>)
    ensures |lines| == if Tracked(emailLogId) then 9 else 7
    ensures lines[..7] == ["From: " + from, "To: " + to, "Subject: " + subject, CONTENT_TYPE, MIME_VERSION, "", bodyText]
  {
    var lines := ["From: " + from, "To: " + to, "Subject: " + subject, CONTENT_TYPE, MIME_VERSION, "", bodyText];
    if Tracked(emailLogId) then lines + ["", PixelTag(settings, emailLogId.value)] else lines
  }

  /** `buildMimeMessage(...)`: the lines joined with CRLF. */
  function BuildMimeMessage(from: string, to: string, subject: string, bodyText: string,
                            emailLogId: Option<string>, settings: Settings): string
  {
    Join(MimeLines(from, to, subject, bodyText, emailLogId, settings), "\r\n")
  }

  const CRLF: string := "\r\n"

  /** The headers, each ended by CRLF, an empty line and the body. */
  function MimeHead(from: string, to: string, subject: string, bodyText: string): string {
    ("From: " + from) + CRLF + (("To: " + to) + CRLF + (("Subject: " + subject) + CRLF
      + (CONTENT_TYPE + CRLF + (MIME_VERSION + CRLF + (CRLF + bodyText)))))
  }

  /** The message text spelled out: the headers in order, a blank line, the
      body, and the pixel after another blank line exactly when
      `emailLogId` is truthy. */
  lemma MimeText(from: string, to: string, subject: string, bodyText: string,
                 emailLogId: Option<string>, settings: Settings)
    ensures var head := MimeHead(from, to, subject, bodyText);
      BuildMimeMessage(from, to, subject, bodyText, emailLogId, settings) ==
        if Tracked(emailLogId) then head + CRLF + (CRLF + PixelTag(settings, emailLogId.value)) else head
  {
    var lines := MimeLines(from, to, subject, bodyText, emailLogId, settings);
    var first := lines[..7];
    Join7(first, CRLF);
    assert "" + CRLF == CRLF;
    if Tracked(emailLogId) {
      assert lines == first + ["", PixelTag(settings, emailLogId.value)];
      JoinAppend(first, ["", PixelTag(settings, emailLogId.value)], CRLF);
    } else {
      assert lines == first;
    }
  }

  /** `Join` of seven parts, spelled out. */
  lemma Join7(p: seq<string>, sep: string)
    requires |p| == 7
    ensures Join(p, sep) == p[0] + sep + (p[1] + sep + (p[2] + sep + (p[3] + sep + (p[4] + sep + (p[5] + sep + p[6])))))
  {
    JoinCons(p, sep);
    JoinCons(p[1..], sep);
    JoinCons(p[2..], sep);
    JoinCons(p[3..], sep);
    JoinCons(p[4..], sep);
    JoinCons(p[5..], sep);
    assert p[1..][1..] == p[2..];
    assert p[2..][1..] == p[3..];
    assert p[3..][1..] == p[4..];
    assert p[4..][1..] == p[5..];
    assert p[5..][1..] == p[6..];
  }

  /** `Join` on two or more parts peels off the first. */
  lemma JoinCons(parts: seq<string>, sep: string)
    requires |parts| >= 2
    ensures Join(parts, sep) == parts[0] + sep + Join(parts[1..], sep)
  {
  }

  /** `Join` of two non-empty runs of parts is the joins of the runs,
      separated once more. */
  lemma {:induction false} JoinAppend(p: seq<string>, q: seq<string>, sep: string)
    requires |p| >= 1 && |q| >= 1
    ensures Join(p + q, sep) == Join(p, sep) + sep + Join(q, sep)
    decreases |p|
  {
    if |p| == 1 {
      assert (p + q)[1..] == q;
    } else {
      JoinAppend(p[1..], q, sep);
      assert (p + q)[1..] == p[1..] + q;
    }
  }

  /* ------------------------------------------------------------ sending */

  /** The object `sendEmail` resolves to. */
  datatype SendResult = SendResult(success: bool, messageId: Option<string>, error: Option<string>, status: EmailStatus)

  /** What one call of `sendEmail` does: the table after any refresh, the
      MIME text handed to Gmail (if it got that far), and the result. */
  datatype SendAttempt = SendAttempt(users: seq<User>, message: Option<string>, result: SendResult)

  /** Reading `user.name` of a user that is gone throws this. */
  const NULL_USER: string := "Cannot read properties of null (reading 'name')"

  function Failure(message: string): SendResult {
    SendResult(false, None, Some(message), Failed)
  }

  /** `sendEmail(userId, recipientEmail, subject, bodyText, emailLogId)`.
      `response` is the outcome of the refresh call (used only when the
      tokens are expired) and `delivery` that of the Gmail send call (the
      message id, or the error's message). It never throws: every failure
      becomes `{ success: false, error, status: 'Failed' }`. */
  function SendEmail(users: seq<User>, userId: string, recipientEmail: string, subject: string,
                     bodyText: string, emailLogId: Option<string>, settings: Settings, now: int,
                     response: Result<Credentials, string>, delivery: Result<string, string>)
    : (r: SendAttempt)
    ensures r.result.success <==> r.result.status == Sent
    ensures r.result.success ==> delivery.Ok? && r.result.error.None? && r.result.messageId == Some(delivery.value)
    ensures !r.result.success ==> r.result.messageId.None? && r.result.error.Some?
    ensures var c := GetGmailClient(users, userId, now, response);
      && (c.Err? ==> r == SendAttempt(users, None, Failure(c.error)))
      && (c.Ok? ==> r.users == c.value.0)
      && (r.result.success <==> c.Ok? && r.message.Some? && delivery.Ok?)
    ensures r.message.Some? ==>
      var u := FindUser(r.users, userId).value;
      r.message.value == BuildMimeMessage(u.name + " <" + u.email + ">", recipientEmail, subject, bodyText, emailLogId, settings)
  {
    match GetGmailClient(users, userId, now, response)
    case Err(e) => SendAttempt(users, None, Failure(e))
    case Ok((stored, _)) =>
      match FindUser(stored, userId)
      case None => SendAttempt(stored, None, Failure(NULL_USER))
      case Some(u) =>
        var raw := BuildMimeMessage(u.name + " <" + u.email + ">", recipientEmail, subject, bodyText, emailLogId, settings);
        match delivery
        case Ok(id) => SendAttempt(stored, Some(raw), SendResult(true, Some(id), None, Sent))
        case Err(e) => SendAttempt(stored, Some(raw), Failure(e))
  }

  /** The second lookup in `sendEmail` always finds the user the client was
      made for: whenever the client is obtained, the message is built, and
      it is from that user. */
  lemma SendBuildsMessage(users: seq<User>, userId: string, recipientEmail: string, subject: string,
                          bodyText: string, emailLogId: Option<string>, settings: Settings, now: int,
                          response: Result<Credentials, string>, delivery: Result<string, string>)
    requires GetGmailClient(users, userId, now, response).Ok?
    ensures var r := SendEmail(users, userId, recipientEmail, subject, bodyText, emailLogId, settings, now, response, delivery);
      var u := FindUser(users, userId).value;
      && r.message == Some(BuildMimeMessage(u.name + " <" + u.email + ">", recipientEmail, subject, bodyText, emailLogId, settings))
      && (r.result.success <==> delivery.Ok?)
  {
    var u := FindUser(users, userId).value;
    var t := StoredTokens(users, userId).value;
    if IsTokenExpired(t.expiresAt, now) {
      SetTokensLookup(users, userId, EncryptTokens(Refreshed(t, response.value)), userId);
    }
  }
}

=== FILE: http.dfy ===
/** What an Express handler sends back: an error status with its `error`
    message, or a success body. Redirects and HTML pages have their own
    datatypes in the modules that produce them. */
module Http {

  datatype Response<+T> =
    | Failure(status: int, error: string)
    | Success(body: T)
}

=== FILE: js_values.dfy ===
/** The dynamically typed values that flow through request bodies and the
    feature-flag table, with JavaScript's notion of truthiness. Floating-point
    numbers are represented by their integer value (NaN is not modelled). */
module JsValues {

  datatype JsValue =
    | Undefined
    | Null
    | Bool(b: bool)
    | Num(n: int)
    | Str(s: string)
    | Obj   // any object or array: always truthy

  /** `!!v` in JavaScript. */
  predicate Truthy(v: JsValue) {
    match v
    case Undefined => false
    case Null => false
    case Bool(b) => b
    case Num(n) => n != 0
    case Str(s) => s != ""
    case Obj => true
  }

  /** `!v` in JavaScript, which always yields a boolean. */
  function Not(v: JsValue): (r: JsValue)
    ensures r.Bool? && r.b == !Truthy(v)
    ensures Truthy(r) != Truthy(v)
  {
    Bool(!Truthy(v))
  }
}

=== FILE: recipient_model.dfy ===
/** The Recipient record and its two persistence hooks, which default the
    personalized name to the display name. */
module RecipientModel {
  import opened Wrappers

  datatype Recipient = Recipient(
    id: string,
    campaignId: string,
    email: string,
    displayName: string,
    personalizedName: Option<string>)

  /** `!recipient.personalizedName`: absent, null or empty. */
  predicate NeedsDefaultName(r: Recipient) {
    r.personalizedName.None? || r.personalizedName.value == ""
  }

  /** The `beforeCreate` hook: an absent or empty personalized name becomes the
      display name; a non-empty one and every other field stay as they are. */
  function BeforeCreate(r: Recipient): (r': Recipient)
    ensures NeedsDefaultName(r) ==> r'.personalizedName == Some(r.displayName)
    ensures !NeedsDefaultName(r) ==> r' == r
    ensures r' == r.(personalizedName := r'.personalizedName)
  {
    if NeedsDefaultName(r) then r.(personalizedName := Some(r.displayName)) else r
  }

  /** The `beforeUpdate` hook has the same body as `beforeCreate`, so it is
      that hook. */
  function BeforeUpdate(r: Recipient): (r': Recipient)
    ensures NeedsDefaultName(r) ==> r'.personalizedName == Some(r.displayName)
    ensures !NeedsDefaultName(r) ==> r' == r
    ensures r' == r.(personalizedName := r'.personalizedName)
  {
    BeforeCreate(r)
  }

  /** Both hooks are idempotent, and after either one the record is already in
      the form the other produces. */
  lemma HooksIdempotent(r: Recipient)
    ensures BeforeCreate(BeforeCreate(r)) == BeforeCreate(r)
    ensures BeforeUpdate(BeforeUpdate(r)) == BeforeUpdate(r)
    ensures BeforeUpdate(BeforeCreate(r)) == BeforeCreate(r)
  {
  }

  /** After a hook the personalized name is present, and it is empty only when
      the display name is. */
  lemma HookNamePresent(r: Recipient)
    ensures BeforeCreate(r).personalizedName.Some?
    ensures BeforeCreate(r).personalizedName.value == "" ==> r.displayName == ""
  {
  }

  /** The recipients of one campaign, in table order. */
  function Of(rs: seq<Recipient>, campaignId: string): (r: seq<Recipient>)
    ensures |r| <= |rs|
    ensures forall x :: x in r <==> x in rs && x.campaignId == campaignId
  {
    if |rs| == 0 then []
    else (if rs[0].campaignId == campaignId then [rs[0]] else []) + Of(rs[1..], campaignId)
  }

  /** The recipients of every campaign except one, in table order (what
      `Recipient.destroy({ where: { campaignId } })` leaves). */
  function Without(rs: seq<Recipient>, campaignId: string): (r: seq<Recipient>)
    ensures |r| <= |rs|
    ensures forall x :: x in r <==> x in rs && x.campaignId != campaignId
  {
    if |rs| == 0 then []
    else (if rs[0].campaignId != campaignId then [rs[0]] else []) + Without(rs[1..], campaignId)
  }

  lemma {:induction false} OfAppend(a: seq<Recipient>, b: seq<Recipient>, c: string)
    ensures Of(a + b, c) == Of(a, c) + Of(b, c)
    decreases |a|
  {
    if |a| > 0 {
      assert (a + b)[0] == a[0];
      assert (a + b)[1..] == a[1..] + b;
      OfAppend(a[1..], b, c);
    } else {
      assert a + b == b;
    }
  }

  lemma {:induction false} OfWithout(rs: seq<Recipient>, c: string, d: string)
    ensures Of(Without(rs, c), d) == if c == d then [] else Of(rs, d)
    decreases |rs|
  {
    if |rs| > 0 {
      OfWithout(rs[1..], c, d);
      var head := if rs[0].campaignId != c then [rs[0]] else [];
      OfAppend(head, Without(rs[1..], c), d);
    }
  }

  /** Every element of `rs` belongs to campaign `c`. */
  lemma {:induction false} OfAll(rs: seq<Recipient>, c: string)
    requires forall i :: 0 <= i < |rs| ==> rs[i].campaignId == c
    ensures Of(rs, c) == rs
    decreases |rs|
  {
    if |rs| > 0 {
      OfAll(rs[1..], c);
      assert rs == [rs[0]] + rs[1..];
    }
  }

  lemma {:induction false} OfNone(rs: seq<Recipient>, c: string, d: string)
    requires forall i :: 0 <= i < |rs| ==> rs[i].campaignId == c
    requires c != d
    ensures Of(rs, d) == []
    decreases |rs|
  {
    if |rs| > 0 {
      OfNone(rs[1..], c, d);
    }
  }
}

=== FILE: schedule_model.dfy ===
/** The SendSchedule record: the per-schedule quota counters of the scheduled
    sender, with their declared defaults and required columns. */
module ScheduleModel {
  import opened Wrappers
  import opened Config

  datatype SendSchedule = SendSchedule(
    id: string,
    campaignId: string,
    userId: string,
    currentMoodId: string,
    window: EmailWindow,
    nextRunAt: int,
    remainingSendsThisWindow: int,
    dailySendsCount: int,
    senderNote: Option<string>,
    isActive: bool)

  /** The attributes handed to `SendSchedule.create`; the window arrives as the
      stored string and is checked against the enumeration. */
  datatype ScheduleAttrs = ScheduleAttrs(
    campaignId: Option<string>,
    userId: Option<string>,
    currentMoodId: Option<string>,
    window: Option<string>,
    nextRunAt: Option<int>,
    remainingSendsThisWindow: Option<int>,
    dailySendsCount: Option<int>,
    senderNote: Option<string>,
    isActive: Option<bool>)

  datatype ScheduleError = MissingColumns(columns: seq<string>) | InvalidWindow(value: string)

  function MissingRequired(a: ScheduleAttrs): (r: seq<string>)
    ensures r == [] <==>
      a.campaignId.Some? && a.userId.Some? && a.currentMoodId.Some? && a.window.Some? && a.nextRunAt.Some?
  {
    (if a.campaignId.None? then ["campaignId"] else [])
    + (if a.userId.None? then ["userId"] else [])
    + (if a.currentMoodId.None? then ["currentMoodId"] else [])
    + (if a.window.None? then ["window"] else [])
    + (if a.nextRunAt.None? then ["nextRunAt"] else [])
  }

  /** `SendSchedule.create(attrs)`: campaign, user, mood, window and next run
      time are required and the window must be Morning, Afternoon or Evening;
      a new schedule has one send left in its window, no sends today and is
      active, while the sender note stays optional. */
  function CreateSchedule(id: string, a: ScheduleAttrs): (r: Result<SendSchedule, ScheduleError>)
    ensures r.Ok? <==> MissingRequired(a) == [] && a.window.value in {"Morning", "Afternoon", "Evening"}
    ensures r.Ok? ==> var s := r.value;
      && s.id == id
      && s.campaignId == a.campaignId.value && s.userId == a.userId.value
      && s.currentMoodId == a.currentMoodId.value && s.nextRunAt == a.nextRunAt.value
      && WindowName(s.window) == a.window.value
      && s.remainingSendsThisWindow == a.remainingSendsThisWindow.GetOr(1)
      && s.dailySendsCount == a.dailySendsCount.GetOr(0)
      && s.isActive == a.isActive.GetOr(true)
      && s.senderNote == a.senderNote
  {
    var missing := MissingRequired(a);
    if missing != [] then Err(MissingColumns(missing))
    else match WindowOf(a.window.value)
      case None => Err(InvalidWindow(a.window.value))
      case Some(w) =>
        Ok(SendSchedule(
          id, a.campaignId.value, a.userId.value, a.currentMoodId.value, w, a.nextRunAt.value,
          a.remainingSendsThisWindow.GetOr(1), a.dailySendsCount.GetOr(0),
          a.senderNote, a.isActive.GetOr(true)))
  }
}

=== FILE: send_worker.dfy ===
/** The send worker of `sendWorker.js`: a running flag and the cron jobs it
    has registered. Starting registers one job at the opening hour of each
    sending window and a midnight reset, all in UTC; stopping clears the flag
    but cancels nothing. The two job handlers have no body beyond logging and
    swallow every error, so running one leaves the schedule table as it was. */
module SendWorker {
  import opened Wrappers
  import opened Strings
  import opened Config
  import opened ScheduleModel

  /** What a job does when it fires: process a window (named as the source
      names it), or reset the daily counters. */
  datatype Task = ProcessWindow(window: string) | DailyReset

  /** A registered cron job: `minute hour * * *` in the given time zone. */
  datatype Job = Job(minute: nat, hour: nat, timezone: string, task: Task)

  datatype Worker = Worker(isRunning: bool, jobs: seq<Job>)

  /** The worker as constructed: stopped, with nothing registered. */
  const INITIAL: Worker := Worker(false, [])

  /** The cron expression of a job. */
  function Expression(j: Job): string {
    NatToDecimal(j.minute) + " " + NatToDecimal(j.hour) + " * * *"
  }

  /** The four jobs one start registers, in registration order. */
  function StartJobs(): (js: seq<Job>)
    ensures |js| == 4
    ensures forall j :: j in js ==> j.minute == 0 && j.timezone == "UTC"
  {
    [ Job(0, 8, "UTC", ProcessWindow("Morning")),
      Job(0, 12, "UTC", ProcessWindow("Afternoon")),
      Job(0, 17, "UTC", ProcessWindow("Evening")),
      Job(0, 0, "UTC", DailyReset) ]
  }

  /** `start()`: a no-op on a running worker; otherwise the four jobs are
      added to whatever is registered already and the worker runs. */
  function Start(w: Worker): (r: Worker)
    ensures w.isRunning ==> r == w
    ensures !w.isRunning ==> r.isRunning && r.jobs == w.jobs + StartJobs()
    ensures r.isRunning
  {
    if w.isRunning then w else Worker(true, w.jobs + StartJobs())
  }

  /** `stop()`: a no-op on a stopped worker; otherwise only the flag is
      cleared and every registered job stays registered. */
  function Stop(w: Worker): (r: Worker)
    ensures !r.isRunning && r.jobs == w.jobs
  {
    if !w.isRunning then w else w.(isRunning := false)
  }

  /** The window jobs fire at the opening hour of their window, and every
      registered time is a whole hour in UTC; the reset fires at midnight. */
  lemma JobsAtWindowStarts()
    ensures forall w: EmailWindow :: exists j :: j in StartJobs() && j.task == ProcessWindow(WindowName(w))
                                                  && j.hour == WindowTimes(w).start
    ensures forall j :: j in StartJobs() && j.task.ProcessWindow? ==>
      WindowOf(j.task.window).Some? && j.hour == WindowTimes(WindowOf(j.task.window).value).start
    ensures forall j :: j in StartJobs() && j.task == DailyReset ==> j.hour == 0
    ensures Expression(StartJobs()[0]) == "0 8 * * *"
  {
    var js := StartJobs();
    assert js[0] in js && js[1] in js && js[2] in js;
    assert NatToDecimal(0) == "0" && NatToDecimal(8) == "8";
  }

  /** Starting twice registers once; stopping and starting again registers
      another four, so a start, a stop and a start leave eight jobs. */
  lemma RestartDuplicatesJobs()
    ensures Start(Start(INITIAL)) == Start(INITIAL)
    ensures Stop(Stop(Start(INITIAL))) == Stop(Start(INITIAL))
    ensures |Start(Stop(Start(INITIAL))).jobs| == 8
    ensures Start(Stop(Start(INITIAL))).jobs == StartJobs() + StartJobs()
  {
  }

  datatype Command = StartCmd | StopCmd

  /** The worker after a sequence of starts and stops. */
  function Run(w: Worker, cs: seq<Command>): Worker
    decreases |cs|
  {
    if |cs| == 0 then w
    else Run(if cs[0] == StartCmd then Start(w) else Stop(w), cs[1..])
  }

  /** The number of starts in `cs` that find the worker stopped. */
  function EffectiveStarts(running: bool, cs: seq<Command>): nat
    decreases |cs|
  {
    if |cs| == 0 then 0
    else if cs[0] == StartCmd then (if running then 0 else 1) + EffectiveStarts(true, cs[1..])
    else EffectiveStarts(false, cs[1..])
  }

  /** After any sequence of starts and stops, the jobs registered before
      are still there, followed by four more for every start that found the
      worker stopped. */
  lemma {:induction false} JobsCount(w: Worker, cs: seq<Command>)
    ensures |Run(w, cs).jobs| == |w.jobs| + 4 * EffectiveStarts(w.isRunning, cs)
    ensures Run(w, cs).jobs[..|w.jobs|] == w.jobs
    decreases |cs|
  {
    if |cs| > 0 {
      var w' := if cs[0] == StartCmd then Start(w) else Stop(w);
      JobsCount(w', cs[1..]);
      assert w'.jobs[..|w.jobs|] == w.jobs;
    }
  }

  /* ------------------------------------------------------------ handlers */

  /** How running a job's handler settles. */
  datatype Settled = Resolved | RejectedWith(error: string)

  /** Running a handler against the schedule table. `logError` is the error,
      if any, thrown inside its `try` block (only logging happens there).
      The handler catches it, so it always resolves, and its body changes no
      schedule. */
  function RunTask(t: Task, schedules: seq<SendSchedule>, logError: Option<string>): (r: (seq<SendSchedule>, Settled))
    ensures r.1 == Resolved
    ensures r.0 == schedules
  {
    match t
    case ProcessWindow(_) => (schedules, Resolved)
    case DailyReset => (schedules, Resolved)
  }

  /** Firing every registered job, in any order and however often, leaves
      the schedules exactly as they were: counters are never decremented nor
      reset. This holds only because both handlers are still empty (their
      bodies are TODO comments); it says nothing about how sends would be
      scheduled once they are written. */
  lemma {:induction false} FiringChangesNothing(js: seq<Job>, schedules: seq<SendSchedule>, errors: seq<Option<string>>)
    requires |errors| == |js|
    ensures FireAll(js, schedules, errors) == schedules
    decreases |js|
  {
    if |js| > 0 {
      FiringChangesNothing(js[1..], RunTask(js[0].task, schedules, errors[0]).0, errors[1..]);
    }
  }

  /** The schedule table after the jobs fire one after the other. */
  function FireAll(js: seq<Job>, schedules: seq<SendSchedule>, errors: seq<Option<string>>): seq<SendSchedule>
    requires |errors| == |js|
    decreases |js|
  {
    if |js| == 0 then schedules
    else FireAll(js[1..], RunTask(js[0].task, schedules, errors[0]).0, errors[1..])
  }
}

=== FILE: strings.dfy ===
/** The JavaScript string operations the core relies on (`trim`, `startsWith`,
    `endsWith`, `includes`, `replace`, a global literal `RegExp` replace,
    `split`/`join` on a separator, ASCII case mapping, `parseInt`), written
    as total functions over `seq<char>`, with the facts the rest of the model
    needs about them. */
module Strings {
  import opened Wrappers

  /* ---------------------------------------------------------------- trim */

  /** The characters `String.prototype.trim` removes: white space and line
      terminators. */
  predicate IsSpace(c: char) {
    c in SPACES || ('\U{2000}' <= c <= '\U{200A}')
  }

  const SPACES: set<char> := {
    ' ', '\t', '\n', '\r', '\U{000B}', '\U{000C}', '\U{00A0}', '\U{1680}',
    '\U{2028}', '\U{2029}', '\U{202F}', '\U{205F}', '\U{3000}', '\U{FEFF}'
  }

  predicate AllSpace(s: string) {
    forall i :: 0 <= i < |s| ==> IsSpace(s[i])
  }

  function TrimStart(s: string): (r: string)
    ensures |r| <= |s| && r == s[|s| - |r|..]
    ensures forall i :: 0 <= i < |s| - |r| ==> IsSpace(s[i])
    ensures r == [] || !IsSpace(r[0])
  {
    if |s| > 0 && IsSpace(s[0]) then
      var r := TrimStart(s[1..]);
      assert s[1..][|s| - 1 - |r|..] == s[|s| - |r|..];
      r
    else s
  }

  function TrimEnd(s: string): (r: string)
    ensures |r| <= |s| && r == s[..|r|]
    ensures forall i :: |r| <= i < |s| ==> IsSpace(s[i])
    ensures r == [] || !IsSpace(r[|r| - 1])
  {
    if |s| > 0 && IsSpace(s[|s| - 1]) then
      var r := TrimEnd(s[..|s| - 1]);
      assert s[..|s| - 1][..|r|] == s[..|r|];
      r
    else s
  }

  /** `r` sits in `s` at offset `i` with nothing but white space on either
      side of it. */
  predicate PaddedInfix(s: string, r: string, i: nat) {
    i + |r| <= |s| && r == s[i..i + |r|] && AllSpace(s[..i]) && AllSpace(s[i + |r|..])
  }

  /** `s.trim()`: the infix of `s` left after removing white space from both
      ends; it neither starts nor ends with white space, so it is the longest
      such infix. */
  function Trim(s: string): (r: string)
    ensures |r| <= |s|
    ensures r == [] || (!IsSpace(r[0]) && !IsSpace(r[|r| - 1]))
    ensures PaddedInfix(s, r, |s| - |TrimStart(s)|)
  {
    TrimInfix(s);
    TrimEnd(TrimStart(s))
  }

  /** Removing leading and then trailing white space leaves a padded infix. */
  lemma {:induction false} TrimInfix(s: string)
    ensures PaddedInfix(s, TrimEnd(TrimStart(s)), |s| - |TrimStart(s)|)
  {
    LeadingSpace(s);
    TrailingSpace(TrimStart(s));
    InfixBetweenSpace(s, TrimStart(s), TrimEnd(TrimStart(s)));
  }

  /** A white-space-padded suffix `a` of `s`, cut back to a prefix `r` of it
      with only white space after, leaves `r` padded inside `s`. */
  lemma InfixBetweenSpace(s: string, a: string, r: string)
    requires |a| <= |s| && a == s[|s| - |a|..] && AllSpace(s[..|s| - |a|])
    requires |r| <= |a| && r == a[..|r|] && AllSpace(a[|r|..])
    ensures PaddedInfix(s, r, |s| - |a|)
  {
    var i := |s| - |a|;
    assert s[i + |r|..] == a[|r|..];
  }

  /** What `TrimStart` drops is white space. */
  lemma {:induction false} LeadingSpace(s: string)
    ensures AllSpace(s[..|s| - |TrimStart(s)|])
  {
    var n := |s| - |TrimStart(s)|;
    var head := s[..n];
    forall k | 0 <= k < |head|
      ensures IsSpace(head[k])
    {
      assert head[k] == s[k];
    }
  }

  /** What `TrimEnd` drops is white space. */
  lemma {:induction false} TrailingSpace(a: string)
    ensures AllSpace(a[|TrimEnd(a)|..])
  {
    var n := |TrimEnd(a)|;
    var tail := a[n..];
    forall k | 0 <= k < |tail|
      ensures IsSpace(tail[k])
    {
      assert tail[k] == a[n + k];
    }
  }

  /** A string trims to the empty string exactly when it is all white space. */
  lemma TrimEmptyIff(s: string)
    ensures Trim(s) == [] <==> AllSpace(s)
  {
    var a := TrimStart(s);
    var r := TrimEnd(a);
    if a != [] {
      assert a[0] == s[|s| - |a|];
      if |r| < |a| { assert IsSpace(a[|r|]); }
    }
    if r == [] {
      assert a == [];
    }
  }

  /** A string with no white space at either end is its own trim. */
  lemma TrimOfTrimmed(s: string)
    requires s == [] || (!IsSpace(s[0]) && !IsSpace(s[|s| - 1]))
    ensures Trim(s) == s
  {
    assert TrimStart(s) == s;
  }

  /** Trimming twice is trimming once. */
  lemma TrimIdempotent(s: string)
    ensures Trim(Trim(s)) == Trim(s)
  {
    var r := Trim(s);
    if r != [] {
      assert TrimStart(r) == r;
      assert TrimEnd(r) == r;
    }
  }

  /* ---------------------------------------------------- prefix and search */

  predicate IsPrefix(p: string, s: string) {
    |p| <= |s| && s[..|p|] == p
  }

  /** `s.startsWith(p)` */
  predicate StartsWith(s: string, p: string) {
    IsPrefix(p, s)
  }

  /** `s.endsWith(q)` */
  predicate EndsWith(s: string, q: string) {
    |q| <= |s| && s[|s| - |q|..] == q
  }

  /** `pat` occurs in `s` at index `i`. */
  predicate OccursAt(s: string, pat: string, i: nat) {
    i <= |s| && IsPrefix(pat, s[i..])
  }

  /** `s.includes(pat)` */
  predicate Contains(s: string, pat: string) {
    exists i: nat | i <= |s| :: OccursAt(s, pat, i)
  }

  /** `s.indexOf(pat)`, with `None` for -1: the first index at which `pat` occurs. */
  function IndexOf(s: string, pat: string): (r: Option<nat>)
    ensures r.Some? ==> OccursAt(s, pat, r.value) && r.value + |pat| <= |s|
    ensures r.Some? ==> forall j: nat :: j < r.value ==> !OccursAt(s, pat, j)
    ensures r.None? <==> !Contains(s, pat)
    decreases |s|
  {
    if IsPrefix(pat, s) then
      assert OccursAt(s, pat, 0) by { assert s[0..] == s; }
      Some(0)
    else if |s| == 0 then None
    else
      match IndexOf(s[1..], pat)
      case None =>
        assert forall j: nat :: 1 <= j ==> (OccursAt(s, pat, j) <==> OccursAt(s[1..], pat, j - 1)) by {
          forall j: nat | 1 <= j ensures OccursAt(s, pat, j) <==> OccursAt(s[1..], pat, j - 1) {
            if j <= |s| { assert s[j..] == s[1..][j - 1..]; }
          }
        }
        assert !Contains(s, pat) by {
          forall i: nat ensures !OccursAt(s, pat, i) {
            if i >= 1 { assert !OccursAt(s[1..], pat, i - 1); }
          }
        }
        None
      case Some(i) =>
        assert s[i + 1..] == s[1..][i..];
        assert OccursAt(s, pat, i + 1);
        forall j: nat | j < i + 1 ensures !OccursAt(s, pat, j) {
          if j == 0 {
            assert s[0..] == s;
          } else {
            assert s[j..] == s[1..][j - 1..];
            assert !OccursAt(s[1..], pat, j - 1);
          }
        }
        Some(i + 1)
  }

  /** `s.replace(pat, rep)` with a literal pattern: only the first occurrence is
      replaced. */
  function ReplaceFirst(s: string, pat: string, rep: string): (r: string)
    ensures !Contains(s, pat) ==> r == s
    ensures Contains(s, pat) ==>
      var i := IndexOf(s, pat).value; r == s[..i] + rep + s[i + |pat|..]
  {
    match IndexOf(s, pat)
    case None => s
    case Some(i) => s[..i] + rep + s[i + |pat|..]
  }

  /** Global replacement of a literal pattern by a literal text: occurrences
      are found left to right and do not overlap. This is what
      `s.replace(new RegExp(escaped(pat), 'g'), rep)` does when `rep` holds no
      `$` (see `GlobalReplace`). */
  function ReplaceAll(s: string, pat: string, rep: string): string
    requires |pat| > 0
    decreases |s|
  {
    if |s| == 0 then []
    else if IsPrefix(pat, s) then rep + ReplaceAll(s[|pat|..], pat, rep)
    else [s[0]] + ReplaceAll(s[1..], pat, rep)
  }

  /** A string in which the pattern does not occur is left unchanged. */
  lemma {:induction false} ReplaceAllAbsent(s: string, pat: string, rep: string)
    requires |pat| > 0
    requires !Contains(s, pat)
    ensures ReplaceAll(s, pat, rep) == s
    decreases |s|
  {
    if |s| > 0 {
      assert !OccursAt(s, pat, 0);
      assert !Contains(s[1..], pat) by {
        forall i: nat ensures !OccursAt(s[1..], pat, i) {
          assert !OccursAt(s, pat, i + 1);
          if i <= |s[1..]| { assert s[1..][i..] == s[i + 1..]; }
        }
      }
      ReplaceAllAbsent(s[1..], pat, rep);
    }
  }

  /** Undoing a global replacement: replacing `pat` by a marker character that
      does not occur in the input, then the marker back by `pat`, restores the
      input. So every occurrence the scan found is exactly one insertion. */
  lemma {:induction false} ReplaceAllInverse(s: string, pat: string, m: char)
    requires |pat| > 0
    requires m !in s
    ensures ReplaceAll(ReplaceAll(s, pat, [m]), [m], pat) == s
    decreases |s|
  {
    if |s| == 0 {
    } else if IsPrefix(pat, s) {
      var rest := ReplaceAll(s[|pat|..], pat, [m]);
      assert m !in s[|pat|..] by {
        forall i | 0 <= i < |s[|pat|..]| ensures s[|pat|..][i] != m {
          assert s[|pat|..][i] == s[i + |pat|];
        }
      }
      ReplaceAllInverse(s[|pat|..], pat, m);
      assert ([m] + rest)[1..] == rest;
      assert s == pat + s[|pat|..];
    } else {
      var rest := ReplaceAll(s[1..], pat, [m]);
      assert s[0] != m;
      assert !IsPrefix([m], [s[0]] + rest);
      assert ([s[0]] + rest)[1..] == rest;
      ReplaceAllInverse(s[1..], pat, m);
      assert s == [s[0]] + s[1..];
    }
  }

  /** The replacement text of one match, with JavaScript's `$` patterns
      expanded for a regular expression without capture groups: `$$` is a
      dollar sign, `$&` the matched text, `` $` `` the text before the match,
      `$'` the text after it; any other `$` is kept literally. */
  function Expand(rep: string, matched: string, before: string, after: string): string
    decreases |rep|
  {
    if |rep| == 0 then []
    else if rep[0] == '$' && |rep| >= 2 && rep[1] in {'$', '&', '`', '\''} then
      var piece := if rep[1] == '$' then "$" else if rep[1] == '&' then matched
                   else if rep[1] == '`' then before else after;
      piece + Expand(rep[2..], matched, before, after)
    else [rep[0]] + Expand(rep[1..], matched, before, after)
  }

  /** A replacement without `$` is inserted as written. */
  lemma {:induction false} ExpandLiteral(rep: string, matched: string, before: string, after: string)
    requires '$' !in rep
    ensures Expand(rep, matched, before, after) == rep
    decreases |rep|
  {
    if |rep| > 0 {
      assert '$' !in rep[1..];
      ExpandLiteral(rep[1..], matched, before, after);
    }
  }

  /** `s.replace(new RegExp(escaped(pat), 'g'), rep)`: scanning `s` from index
      `i`, each match is replaced by `rep` with its `$` patterns expanded
      against the whole input. */
  function GlobalReplaceFrom(s: string, pat: string, rep: string, i: nat): string
    requires |pat| > 0 && i <= |s|
    decreases |s| - i
  {
    if i == |s| then []
    else if OccursAt(s, pat, i) then
      Expand(rep, pat, s[..i], s[i + |pat|..]) + GlobalReplaceFrom(s, pat, rep, i + |pat|)
    else [s[i]] + GlobalReplaceFrom(s, pat, rep, i + 1)
  }

  function GlobalReplace(s: string, pat: string, rep: string): string
    requires |pat| > 0
  {
    GlobalReplaceFrom(s, pat, rep, 0)
  }

  /** Without `$` patterns the JavaScript replacement is the literal one. */
  lemma GlobalReplaceLiteral(s: string, pat: string, rep: string)
    requires |pat| > 0 && '$' !in rep
    ensures GlobalReplace(s, pat, rep) == ReplaceAll(s, pat, rep)
  {
    GlobalReplaceFromLiteral(s, pat, rep, 0);
    assert s[0..] == s;
  }

  lemma {:induction false} GlobalReplaceFromLiteral(s: string, pat: string, rep: string, i: nat)
    requires |pat| > 0 && '$' !in rep && i <= |s|
    ensures GlobalReplaceFrom(s, pat, rep, i) == ReplaceAll(s[i..], pat, rep)
    decreases |s| - i
  {
    if i < |s| {
      var t := s[i..];
      if OccursAt(s, pat, i) {
        assert IsPrefix(pat, t);
        ExpandLiteral(rep, pat, s[..i], s[i + |pat|..]);
        GlobalReplaceFromLiteral(s, pat, rep, i + |pat|);
        assert t[|pat|..] == s[i + |pat|..];
        assert ReplaceAll(t, pat, rep) == rep + ReplaceAll(s[i + |pat|..], pat, rep);
      } else {
        assert !IsPrefix(pat, t);
        GlobalReplaceFromLiteral(s, pat, rep, i + 1);
        assert t[1..] == s[i + 1..];
        assert ReplaceAll(t, pat, rep) == [s[i]] + ReplaceAll(s[i + 1..], pat, rep);
      }
    }
  }

  /** Whatever the replacement, a string in which the pattern does not occur is
      returned unchanged. */
  lemma GlobalReplaceAbsent(s: string, pat: string, rep: string)
    requires |pat| > 0 && !Contains(s, pat)
    ensures GlobalReplace(s, pat, rep) == s
  {
    GlobalReplaceFromAbsent(s, pat, rep, 0);
  }

  lemma {:induction false} GlobalReplaceFromAbsent(s: string, pat: string, rep: string, i: nat)
    requires |pat| > 0 && i <= |s| && !Contains(s, pat)
    ensures GlobalReplaceFrom(s, pat, rep, i) == s[i..]
    decreases |s| - i
  {
    if i < |s| {
      assert !OccursAt(s, pat, i);
      GlobalReplaceFromAbsent(s, pat, rep, i + 1);
    }
  }

  /* -------------------------------------------------------- split and join */

  /** `s.split(sep)` for a one-character separator: never empty, no piece holds
      the separator. */
  function Split(s: string, sep: char): (parts: seq<string>)
    ensures |parts| >= 1
    ensures forall i :: 0 <= i < |parts| ==> sep !in parts[i]
    decreases |s|
  {
    if |s| == 0 then [[]]
    else if s[0] == sep then [[]] + Split(s[1..], sep)
    else
      var rest := Split(s[1..], sep);
      [[s[0]] + rest[0]] + rest[1..]
  }

  /** A piece free of the separator, followed by the separator, splits off
      as one part. */
  lemma {:induction false} SplitAfterPiece(x: string, y: string, sep: char)
    requires sep !in x
    ensures Split(x + [sep] + y, sep) == [x] + Split(y, sep)
    decreases |x|
  {
    if |x| == 0 {
      assert x + [sep] + y == [sep] + y;
      assert ([sep] + y)[1..] == y;
    } else {
      assert (x + [sep] + y)[1..] == x[1..] + [sep] + y;
      assert sep !in x[1..];
      SplitAfterPiece(x[1..], y, sep);
      assert [x[0]] + x[1..] == x;
    }
  }

  /** `parts.join(sep)` */
  function Join(parts: seq<string>, sep: string): string
  {
    if |parts| == 0 then []
    else if |parts| == 1 then parts[0]
    else parts[0] + sep + Join(parts[1..], sep)
  }

  /** Splitting on a character and joining with the same character is the
      identity. */
  lemma {:induction false} JoinSplit(s: string, sep: char)
    ensures Join(Split(s, sep), [sep]) == s
    decreases |s|
  {
    if |s| > 0 {
      var rest := Split(s[1..], sep);
      JoinSplit(s[1..], sep);
      if s[0] == sep {
        assert ([[]] + rest)[1..] == rest;
      } else {
        var parts := [[s[0]] + rest[0]] + rest[1..];
        if |rest| > 1 {
          assert parts[1..] == rest[1..];
          assert Join(rest, [sep]) == rest[0] + [sep] + Join(rest[1..], [sep]);
        }
      }
      assert s == [s[0]] + s[1..];
    }
  }

  /** The text before the first occurrence of `sep` (the whole string when there
      is none): `s.split(sep)[0]`. */
  function BeforeFirst(s: string, sep: char): (r: string)
    ensures sep !in r
    ensures IsPrefix(r, s)
    ensures |r| < |s| ==> s[|r|] == sep
    ensures sep !in s ==> r == s
  {
    FirstPiece(s, sep);
    Split(s, sep)[0]
  }

  lemma {:induction false} FirstPiece(s: string, sep: char)
    ensures IsPrefix(Split(s, sep)[0], s)
    ensures |Split(s, sep)[0]| < |s| ==> s[|Split(s, sep)[0]|] == sep
    decreases |s|
  {
    if |s| > 0 && s[0] != sep {
      FirstPiece(s[1..], sep);
    }
  }

  /* ------------------------------------------------------------ case maps */

  function UpperChar(c: char): char {
    if 'a' <= c <= 'z' then (c as int - 32) as char else c
  }

  function LowerChar(c: char): char {
    if 'A' <= c <= 'Z' then (c as int + 32) as char else c
  }

  /** `s.toUpperCase()` restricted to the ASCII letters. */
  function ToUpper(s: string): (r: string)
    ensures |r| == |s|
    ensures forall i :: 0 <= i < |s| ==> r[i] == UpperChar(s[i])
  {
    seq(|s|, i requires 0 <= i < |s| => UpperChar(s[i]))
  }

  /** `s.toLowerCase()` restricted to the ASCII letters. */
  function ToLower(s: string): (r: string)
    ensures |r| == |s|
    ensures forall i :: 0 <= i < |s| ==> r[i] == LowerChar(s[i])
  {
    seq(|s|, i requires 0 <= i < |s| => LowerChar(s[i]))
  }

  /** Upper-casing works character by character, so it distributes over
      concatenation. */
  lemma ToUpperAppend(a: string, b: string)
    ensures ToUpper(a + b) == ToUpper(a) + ToUpper(b)
  {
    assert forall i :: 0 <= i < |a| + |b| ==> ToUpper(a + b)[i] == (ToUpper(a) + ToUpper(b))[i];
  }

  /** Upper-casing forgets case: two names equal up to ASCII case give the
      same upper-case form. */
  lemma ToUpperOfLower(s: string)
    ensures ToUpper(ToLower(s)) == ToUpper(s)
  {
  }

  /* ------------------------------------------------------------- numerals */

  predicate IsDecimalDigit(c: char) {
    '0' <= c <= '9'
  }

  predicate IsHexDigit(c: char) {
    IsDecimalDigit(c) || 'a' <= c <= 'f' || 'A' <= c <= 'F'
  }

  function DigitValue(c: char): nat
    requires IsHexDigit(c)
  {
    if IsDecimalDigit(c) then c as int - '0' as int
    else if 'a' <= c <= 'f' then c as int - 'a' as int + 10
    else c as int - 'A' as int + 10
  }

  predicate IsDigitIn(c: char, radix: nat) {
    if radix == 16 then IsHexDigit(c) else IsDecimalDigit(c)
  }

  /** Length of the longest prefix of `s` made of digits of the radix. */
  function DigitRun(s: string, radix: nat): (k: nat)
    ensures k <= |s|
    ensures forall i :: 0 <= i < k ==> IsDigitIn(s[i], radix)
    ensures k < |s| ==> !IsDigitIn(s[k], radix)
  {
    if |s| > 0 && IsDigitIn(s[0], radix) then 1 + DigitRun(s[1..], radix) else 0
  }

  /** The value of a digit string, most significant digit first. */
  function DigitsValue(ds: string, radix: nat): nat
    requires forall i :: 0 <= i < |ds| ==> IsDigitIn(ds[i], radix)
  {
    if |ds| == 0 then 0
    else
      assert IsDigitIn(ds[|ds| - 1], radix);
      DigitsValue(ds[..|ds| - 1], radix) * radix + DigitValue(ds[|ds| - 1])
  }

  /** The value of the longest digit prefix of `v`; `None` when `v` does not
      start with a digit of the radix. */
  function ReadDigits(v: string, radix: nat): (r: Option<nat>)
    ensures r.None? <==> |v| == 0 || !IsDigitIn(v[0], radix)
  {
    var k := DigitRun(v, radix);
    if k == 0 then None else Some(DigitsValue(v[..k], radix))
  }

  /** An unsigned numeral: a `0x`/`0X` prefix selects base 16, otherwise base 10. */
  function ReadMagnitude(u: string): Option<nat> {
    if |u| >= 2 && u[0] == '0' && (u[1] == 'x' || u[1] == 'X') then ReadDigits(u[2..], 16)
    else ReadDigits(u, 10)
  }

  /** `parseInt(s)` with no radix argument, `None` standing for NaN: leading
      white space is skipped, one sign is accepted, and the longest run of
      digits that follows is read. */
  function ParseInt(s: string): Option<int> {
    var t := TrimStart(s);
    if |t| > 0 && t[0] == '-' then
      match ReadMagnitude(t[1..])
      case None => None
      case Some(n) => Some(-(n as int))
    else if |t| > 0 && t[0] == '+' then
      match ReadMagnitude(t[1..])
      case None => None
      case Some(n) => Some(n)
    else
      match ReadMagnitude(t)
      case None => None
      case Some(n) => Some(n)
  }

  /** The decimal numeral of a natural number, as `String(n)` writes it. */
  function NatToDecimal(n: nat): (r: string)
    ensures |r| >= 1
    ensures forall i :: 0 <= i < |r| ==> IsDecimalDigit(r[i])
    ensures |r| > 1 ==> r[0] != '0'
  {
    var d := ['0' + (n % 10) as char];
    if n < 10 then d else NatToDecimal(n / 10) + d
  }

  lemma {:induction false} DecimalValue(n: nat)
    ensures DigitsValue(NatToDecimal(n), 10) == n
  {
    var r := NatToDecimal(n);
    if n >= 10 {
      DecimalValue(n / 10);
      assert r[..|r| - 1] == NatToDecimal(n / 10);
    }
  }

  /** `parseInt(String(n)) == n`: the decimal numeral of a natural number parses
      back to that number. */
  lemma ParseIntOfDecimal(n: nat)
    ensures ParseInt(NatToDecimal(n)) == Some(n)
  {
    var r := NatToDecimal(n);
    assert IsDecimalDigit(r[0]);
    assert !IsSpace(r[0]);
    assert TrimStart(r) == r;
    assert r[0] != '-' && r[0] != '+';
    assert DigitRun(r, 10) == |r| by { DigitRunAll(r, 10); }
    assert r[..|r|] == r;
    assert |r| >= 2 ==> IsDecimalDigit(r[1]);
    assert ReadMagnitude(r) == ReadDigits(r, 10);
    DecimalValue(n);
    assert ReadDigits(r, 10) == Some(n);
  }

  lemma {:induction false} DigitRunAll(s: string, radix: nat)
    requires forall i :: 0 <= i < |s| ==> IsDigitIn(s[i], radix)
    ensures DigitRun(s, radix) == |s|
    decreases |s|
  {
    if |s| > 0 {
      DigitRunAll(s[1..], radix);
    }
  }
}

=== FILE: template_service.dfy ===
/** `templateService.js`: placeholder substitution, the parsing of a template
    file into subject and body, and the mood-to-file table with the start-up
    load of template moods. File reads and the mood table in the database are
    parameters. */
module TemplateService {
  import opened Wrappers
  import opened Strings
  import opened Config

  /* ------------------------------------------------------------ rendering */

  const SENDER_NAME: string := "[Sender Name]"
  const RECIPIENT_NAME: string := "[Recipient Name]"
  const CAMPAIGN_NAME: string := "[Campaign Name]"
  const SENDER_NOTE: string := "[Sender Note]"

  /** The placeholders, in the order in which they are substituted. */
  const PLACEHOLDERS: seq<string> := [SENDER_NAME, RECIPIENT_NAME, CAMPAIGN_NAME, SENDER_NOTE]

  /** The `data` argument of `renderTemplate`; an omitted field is `None`. */
  datatype TemplateData = TemplateData(
    senderName: Option<string>,
    recipientName: Option<string>,
    campaignName: Option<string>,
    senderNote: Option<string>)

  /** `v || fallback` for a string field: an absent or empty value falls back. */
  function OrElse(v: Option<string>, fallback: string): (r: string)
    ensures v.Some? && v.value != "" ==> r == v.value
    ensures v.None? || v.value == "" ==> r == fallback
  {
    if v.Some? && v.value != "" then v.value else fallback
  }

  /** The text each placeholder is replaced by, in substitution order. */
  function Values(data: TemplateData): (vs: seq<string>)
    ensures |vs| == 4
    ensures vs[0] == OrElse(data.senderName, "Unknown Sender")
    ensures vs[1] == OrElse(data.recipientName, "Dear Friend")
    ensures vs[2] == OrElse(data.campaignName, "Campaign")
    ensures vs[3] == OrElse(data.senderNote, "")
  {
    [OrElse(data.senderName, "Unknown Sender"), OrElse(data.recipientName, "Dear Friend"),
     OrElse(data.campaignName, "Campaign"), OrElse(data.senderNote, "")]
  }

  /** `renderTemplate(template, data)`: four global replacements, one per
      placeholder, each applied to the result of the previous one. A template
      without any `[` has no placeholder and comes back unchanged. */
  function RenderTemplate(template: string, data: TemplateData): (r: string)
    ensures '[' !in template ==> r == template
  {
    var vs := Values(data);
    var s1 := GlobalReplace(template, SENDER_NAME, vs[0]);
    var s2 := GlobalReplace(s1, RECIPIENT_NAME, vs[1]);
    var s3 := GlobalReplace(s2, CAMPAIGN_NAME, vs[2]);
    var s4 := GlobalReplace(s3, SENDER_NOTE, vs[3]);
    if '[' !in template then
      AbsentWithoutBracket(template, SENDER_NAME);
      GlobalReplaceAbsent(template, SENDER_NAME, vs[0]);
      AbsentWithoutBracket(template, RECIPIENT_NAME);
      GlobalReplaceAbsent(template, RECIPIENT_NAME, vs[1]);
      AbsentWithoutBracket(template, CAMPAIGN_NAME);
      GlobalReplaceAbsent(template, CAMPAIGN_NAME, vs[2]);
      AbsentWithoutBracket(template, SENDER_NOTE);
      GlobalReplaceAbsent(template, SENDER_NOTE, vs[3]);
      s4
    else s4
  }

  /** A pattern that starts with `[` cannot occur in a string without one. */
  lemma AbsentWithoutBracket(s: string, p: string)
    requires |p| > 0 && p[0] == '[' && '[' !in s
    ensures !Contains(s, p)
  {
    forall i: nat | i <= |s| ensures !OccursAt(s, p, i) {
      if i < |s| {
        assert s[i..][0] == s[i];
      }
    }
  }

  /** `p` opens with `[` and holds no other `[`. */
  predicate Bracketed(p: string) {
    |p| > 0 && p[0] == '[' && forall k :: 1 <= k < |p| ==> p[k] != '['
  }

  predicate AllBracketed(pats: seq<string>) {
    forall j :: 0 <= j < |pats| ==> Bracketed(pats[j])
  }

  lemma PlaceholdersBracketed()
    ensures AllBracketed(PLACEHOLDERS)
    ensures forall k :: 0 <= k < 4 ==> '$' !in PLACEHOLDERS[k]
  {
    assert Bracketed(SENDER_NAME);
    assert Bracketed(RECIPIENT_NAME);
    assert Bracketed(CAMPAIGN_NAME);
    assert Bracketed(SENDER_NOTE);
  }

  /** Every `[` of `s` opens an occurrence of one of `pats`. */
  predicate Anchored(s: string, pats: seq<string>) {
    forall i :: 0 <= i < |s| && s[i] == '[' ==> exists j :: 0 <= j < |pats| && OccursAt(s, pats[j], i)
  }

  lemma AnchoredSuffix(s: string, k: nat, pats: seq<string>)
    requires k <= |s| && Anchored(s, pats)
    ensures Anchored(s[k..], pats)
  {
    forall i | 0 <= i < |s| - k && s[k..][i] == '['
      ensures exists j :: 0 <= j < |pats| && OccursAt(s[k..], pats[j], i)
    {
      var j :| 0 <= j < |pats| && OccursAt(s, pats[j], k + i);
      assert s[k..][i..] == s[k + i..];
      assert OccursAt(s[k..], pats[j], i);
    }
  }

  /** Text without `[` in front of an anchored string keeps it anchored. */
  lemma AnchoredPrependFree(u: string, t: string, pats: seq<string>)
    requires '[' !in u && Anchored(t, pats)
    ensures Anchored(u + t, pats)
  {
    forall i | 0 <= i < |u + t| && (u + t)[i] == '['
      ensures exists j :: 0 <= j < |pats| && OccursAt(u + t, pats[j], i)
    {
      assert i >= |u|;
      var j :| 0 <= j < |pats| && OccursAt(t, pats[j], i - |u|);
      assert (u + t)[i..] == t[i - |u|..];
      assert OccursAt(u + t, pats[j], i);
    }
  }

  /** One of the patterns in front of an anchored string keeps it anchored. */
  lemma AnchoredPrependPattern(q: string, t: string, pats: seq<string>, j: nat)
    requires j < |pats| && q == pats[j] && Bracketed(q) && Anchored(t, pats)
    ensures Anchored(q + t, pats)
  {
    forall i | 0 <= i < |q + t| && (q + t)[i] == '['
      ensures exists j' :: 0 <= j' < |pats| && OccursAt(q + t, pats[j'], i)
    {
      assert i == 0 || i >= |q|;
      if i == 0 {
        assert (q + t)[0..][..|q|] == q;
        assert OccursAt(q + t, pats[j], 0);
      } else {
        var j' :| 0 <= j' < |pats| && OccursAt(t, pats[j'], i - |q|);
        assert (q + t)[i..] == t[i - |q|..];
        assert OccursAt(q + t, pats[j'], i);
      }
    }
  }

  /** A pattern starting with `[` cannot match inside text without `[`, so the
      replacement passes over such text unchanged. */
  lemma {:induction false} ReplaceSkipsFree(u: string, t: string, p: string, v: string)
    requires |p| > 0 && p[0] == '[' && '[' !in u
    ensures ReplaceAll(u + t, p, v) == u + ReplaceAll(t, p, v)
    decreases |u|
  {
    if |u| > 0 {
      assert u[0] in u;
      assert (u + t)[0] == u[0];
      assert !IsPrefix(p, u + t);
      assert (u + t)[1..] == u[1..] + t;
      assert ReplaceAll(u + t, p, v) == [u[0]] + ReplaceAll(u[1..] + t, p, v);
      assert '[' !in u[1..];
      ReplaceSkipsFree(u[1..], t, p, v);
      assert [u[0]] + u[1..] == u;
      assert [u[0]] + (u[1..] + ReplaceAll(t, p, v)) == u + ReplaceAll(t, p, v);
    } else {
      assert u + t == t;
    }
  }

  /** One substitution pass: if every `[` opens one of `pats` and the value
      has no `[`, then after replacing `pats[0]` every `[` opens one of the
      remaining patterns. */
  lemma {:induction false} PassAnchored(s: string, pats: seq<string>, v: string)
    requires |pats| > 0 && AllBracketed(pats) && Anchored(s, pats) && '[' !in v
    ensures Anchored(ReplaceAll(s, pats[0], v), pats[1..])
    decreases |s|
  {
    var p := pats[0];
    if |s| == 0 {
    } else if IsPrefix(p, s) {
      AnchoredSuffix(s, |p|, pats);
      PassAnchored(s[|p|..], pats, v);
      AnchoredPrependFree(v, ReplaceAll(s[|p|..], p, v), pats[1..]);
    } else if s[0] != '[' {
      AnchoredSuffix(s, 1, pats);
      PassAnchored(s[1..], pats, v);
      AnchoredPrependFree([s[0]], ReplaceAll(s[1..], p, v), pats[1..]);
    } else {
      var j :| 0 <= j < |pats| && OccursAt(s, pats[j], 0);
      assert s[0..] == s;
      assert j != 0;
      var q := pats[j];
      var t := s[|q|..];
      assert s == q + t;
      assert Bracketed(q);
      assert '[' !in q[1..];
      assert s[1..] == q[1..] + t;
      ReplaceSkipsFree(q[1..], t, p, v);
      assert ReplaceAll(s, p, v) == q + ReplaceAll(t, p, v) by {
        assert [q[0]] + q[1..] == q;
      }
      AnchoredSuffix(s, |q|, pats);
      PassAnchored(t, pats, v);
      assert q == pats[1..][j - 1];
      AnchoredPrependPattern(q, ReplaceAll(t, p, v), pats[1..], j - 1);
    }
  }

  /** The values a rendering inserts hold neither `[` nor a `$` pattern. */
  predicate PlainValues(data: TemplateData) {
    var vs := Values(data);
    forall k :: 0 <= k < 4 ==> '[' !in vs[k] && '$' !in vs[k]
  }

  /** When every `[` of the template opens one of the four placeholders and no
      value holds `[` or `$`, the rendered text holds no `[` at all, so none of
      the placeholders survives. */
  lemma RenderLeavesNoBracket(template: string, data: TemplateData)
    requires Anchored(template, PLACEHOLDERS) && PlainValues(data)
    ensures '[' !in RenderTemplate(template, data)
    ensures forall k :: 0 <= k < 4 ==> !Contains(RenderTemplate(template, data), PLACEHOLDERS[k])
  {
    var vs := Values(data);
    PlaceholdersBracketed();
    var P := PLACEHOLDERS;
    var s1 := GlobalReplace(template, SENDER_NAME, vs[0]);
    GlobalReplaceLiteral(template, SENDER_NAME, vs[0]);
    PassAnchored(template, P, vs[0]);
    var s2 := GlobalReplace(s1, RECIPIENT_NAME, vs[1]);
    GlobalReplaceLiteral(s1, RECIPIENT_NAME, vs[1]);
    assert P[1..][0] == RECIPIENT_NAME;
    PassAnchored(s1, P[1..], vs[1]);
    var s3 := GlobalReplace(s2, CAMPAIGN_NAME, vs[2]);
    GlobalReplaceLiteral(s2, CAMPAIGN_NAME, vs[2]);
    assert P[1..][1..] == P[2..];
    assert P[2..][0] == CAMPAIGN_NAME;
    PassAnchored(s2, P[2..], vs[2]);
    var s4 := GlobalReplace(s3, SENDER_NOTE, vs[3]);
    GlobalReplaceLiteral(s3, SENDER_NOTE, vs[3]);
    assert P[2..][1..] == P[3..];
    assert P[3..][0] == SENDER_NOTE;
    PassAnchored(s3, P[3..], vs[3]);
    assert P[3..][1..] == [];
    assert s4 == RenderTemplate(template, data);
    forall k | 0 <= k < 4 ensures !Contains(s4, P[k]) {
      AbsentWithoutBracket(s4, P[k]);
    }
  }

  /** Rendering an already rendered text again changes nothing, under the
      same conditions. */
  lemma RenderIdempotent(template: string, data: TemplateData)
    requires Anchored(template, PLACEHOLDERS) && PlainValues(data)
    ensures RenderTemplate(RenderTemplate(template, data), data) == RenderTemplate(template, data)
  {
    RenderLeavesNoBracket(template, data);
  }

  /** A pattern that starts with `[` cannot occur in a different text that
      holds `[` only at its start, unless it is a prefix of it. */
  lemma AbsentFromBracketed(t: string, p: string)
    requires Bracketed(t) && |p| > 0 && p[0] == '[' && !IsPrefix(p, t)
    ensures !Contains(t, p)
  {
    assert t[0..] == t;
    forall i: nat | i <= |t| ensures !OccursAt(t, p, i) {
      if i < |t| {
        assert t[i..][0] == t[i];
      }
    }
  }

  /** Replacing a whole text that is exactly the pattern yields the value. */
  lemma ReplaceWhole(p: string, v: string)
    requires |p| > 0
    ensures GlobalReplace(p, p, v) == Expand(v, p, [], [])
  {
    assert p[..0] == [] && p[|p|..] == [];
    assert p[0..][..|p|] == p;
    assert OccursAt(p, p, 0);
    assert GlobalReplaceFrom(p, p, v, |p|) == [];
  }

  /** A template made of one placeholder renders to that field's value, the
      default when the field is absent or empty (`Unknown Sender`,
      `Dear Friend`, `Campaign`, the empty string). */
  lemma RenderSinglePlaceholder(data: TemplateData, k: nat)
    requires k < 4 && PlainValues(data)
    ensures RenderTemplate(PLACEHOLDERS[k], data) == Values(data)[k]
  {
    var vs := Values(data);
    PassesOfSingle(k, vs, 4);
    RenderIsPasses(PLACEHOLDERS[k], data);
  }

  /** The first `m` substitution passes. */
  function RenderPasses(t: string, vs: seq<string>, m: nat): string
    requires m <= 4 && |vs| == 4
  {
    if m == 0 then t else GlobalReplace(RenderPasses(t, vs, m - 1), PLACEHOLDERS[m - 1], vs[m - 1])
  }

  lemma RenderIsPasses(t: string, data: TemplateData)
    ensures RenderTemplate(t, data) == RenderPasses(t, Values(data), 4)
  {
    var vs := Values(data);
    var P := PLACEHOLDERS;
    assert P[0] == SENDER_NAME && P[1] == RECIPIENT_NAME && P[2] == CAMPAIGN_NAME && P[3] == SENDER_NOTE;
    assert RenderPasses(t, vs, 1) == GlobalReplace(t, SENDER_NAME, vs[0]);
    assert RenderPasses(t, vs, 2) == GlobalReplace(RenderPasses(t, vs, 1), RECIPIENT_NAME, vs[1]);
    assert RenderPasses(t, vs, 3) == GlobalReplace(RenderPasses(t, vs, 2), CAMPAIGN_NAME, vs[2]);
    assert RenderPasses(t, vs, 4) == GlobalReplace(RenderPasses(t, vs, 3), SENDER_NOTE, vs[3]);
  }

  /** No placeholder is a prefix of another one. */
  lemma PlaceholdersUnrelated(m: nat, k: nat)
    requires m < 4 && k < 4 && m != k
    ensures !IsPrefix(PLACEHOLDERS[m], PLACEHOLDERS[k])
  {
    var P := PLACEHOLDERS;
    assert P[0][1] == 'S' && P[1][1] == 'R' && P[2][1] == 'C' && P[3][1] == 'S';
    assert P[0][9] == 'a' && P[3][9] == 'o';
    assert P[m][1] != P[k][1] || P[m][9] != P[k][9];
  }

  lemma {:induction false} PassesOfSingle(k: nat, vs: seq<string>, m: nat)
    requires k < 4 && m <= 4 && |vs| == 4
    requires forall i :: 0 <= i < 4 ==> '[' !in vs[i] && '$' !in vs[i]
    ensures RenderPasses(PLACEHOLDERS[k], vs, m) == if m <= k then PLACEHOLDERS[k] else vs[k]
  {
    if m > 0 {
      PassesOfSingle(k, vs, m - 1);
      var P := PLACEHOLDERS;
      var s := RenderPasses(P[k], vs, m - 1);
      PlaceholdersBracketed();
      if m - 1 == k {
        ReplaceWhole(P[k], vs[k]);
        ExpandLiteral(vs[k], P[k], [], []);
      } else if m - 1 < k {
        PlaceholdersUnrelated(m - 1, k);
        AbsentFromBracketed(P[k], P[m - 1]);
        GlobalReplaceAbsent(P[k], P[m - 1], vs[m - 1]);
      } else {
        AbsentWithoutBracket(s, P[m - 1]);
        GlobalReplaceAbsent(s, P[m - 1], vs[m - 1]);
      }
    }
  }

  /* -------------------------------------------------- template file parsing */

  datatype TemplateParts = TemplateParts(subject: Option<string>, body: string)

  /** Index of the first line that starts with `Subject:` (`lines.find`). */
  function FirstSubjectLine(lines: seq<string>): (r: Option<nat>)
    ensures r.Some? ==> r.value < |lines| && StartsWith(lines[r.value], "Subject:")
    ensures r.Some? ==> forall i :: 0 <= i < r.value ==> !StartsWith(lines[i], "Subject:")
    ensures r.None? ==> forall i :: 0 <= i < |lines| ==> !StartsWith(lines[i], "Subject:")
  {
    if |lines| == 0 then None
    else if StartsWith(lines[0], "Subject:") then Some(0)
    else match FirstSubjectLine(lines[1..])
      case None => None
      case Some(i) => Some(i + 1)
  }

  /** `line.trim() === ''`: the line is all white space (`TrimEmptyIff`). */
  predicate Blank(line: string) {
    AllSpace(line)
  }

  /** Index of the first line that is blank after trimming (`lines.findIndex`). */
  function FirstBlankLine(lines: seq<string>): (r: Option<nat>)
    ensures r.Some? ==> r.value < |lines| && Blank(lines[r.value])
    ensures r.Some? ==> forall i :: 0 <= i < r.value ==> !Blank(lines[i])
    ensures r.None? ==> forall i :: 0 <= i < |lines| ==> !Blank(lines[i])
  {
    if |lines| == 0 then None
    else if Blank(lines[0]) then Some(0)
    else match FirstBlankLine(lines[1..])
      case None => None
      case Some(i) => Some(i + 1)
  }

  /** The subject and body of a template file. The subject is the first line
      starting with `Subject:`, with the first `Subject: ` removed and the
      rest trimmed. The body is every line after the first blank one, joined
      back with newlines and trimmed; `findIndex` yields -1 when there is no
      blank line, so the body then starts at line 0 and is the whole file. */
  function ParseTemplateFile(content: string): (r: TemplateParts)
    ensures var lines := Split(content, '\n');
      r.subject.Some? <==> exists i :: 0 <= i < |lines| && StartsWith(lines[i], "Subject:")
    ensures FirstBlankLine(Split(content, '\n')).None? ==> r.body == Trim(content)
  {
    var lines := Split(content, '\n');
    JoinSplit(content, '\n');
    assert lines[0..] == lines;
    TemplateParts(SubjectOf(lines), BodyOf(lines))
  }

  /** The subject part of the parse. */
  function SubjectOf(lines: seq<string>): (r: Option<string>)
    ensures r.Some? <==> FirstSubjectLine(lines).Some?
  {
    match FirstSubjectLine(lines)
    case None => None
    case Some(i) => Some(Trim(ReplaceFirst(lines[i], "Subject: ", "")))
  }

  /** The body part of the parse. */
  function BodyOf(lines: seq<string>): (r: string)
    ensures FirstBlankLine(lines).None? ==> r == Trim(Join(lines, "\n"))
  {
    var start := match FirstBlankLine(lines)
      case None => 0
      case Some(i) => i + 1;
    assert lines[0..] == lines;
    Trim(Join(lines[start..], "\n"))
  }

  /** The file layout the templates use: a subject line, a blank line, the body. */
  function FormatTemplate(subject: string, body: string): string {
    "Subject: " + subject + "\n\n" + body
  }

  predicate Trimmed(s: string) {
    s == [] || (!IsSpace(s[0]) && !IsSpace(s[|s| - 1]))
  }

  /** The lines of a file in that layout. */
  lemma FormatLines(subject: string, body: string)
    requires '\n' !in subject
    ensures Split(FormatTemplate(subject, body), '\n') == ["Subject: " + subject, []] + Split(body, '\n')
  {
    var head := "Subject: " + subject;
    assert '\n' !in "Subject: ";
    assert '\n' !in head;
    assert FormatTemplate(subject, body) == head + ['\n'] + ([] + ['\n'] + body);
    SplitAfterPiece(head, [] + ['\n'] + body, '\n');
    SplitAfterPiece([], body, '\n');
  }

  /** The subject line gives back the subject. */
  lemma SubjectOfHead(subject: string)
    requires Trimmed(subject)
    ensures var head := "Subject: " + subject;
      && StartsWith(head, "Subject:")
      && Trim(ReplaceFirst(head, "Subject: ", "")) == subject
      && !Blank(head)
  {
    var head := "Subject: " + subject;
    assert head[..9] == "Subject: ";
    assert head[..8] == "Subject:";
    assert IsPrefix("Subject: ", head[0..]) by { assert head[0..] == head; }
    assert IndexOf(head, "Subject: ") == Some(0);
    assert head[9..] == subject;
    TrimOfTrimmed(subject);
    assert !IsSpace(head[0]);
  }

  /** Parsing a file in that layout gives back its subject and body, when the
      subject is one trimmed line and the body is trimmed. */
  lemma ParseFormat(subject: string, body: string)
    requires '\n' !in subject && Trimmed(subject) && Trimmed(body)
    ensures ParseTemplateFile(FormatTemplate(subject, body)) == TemplateParts(Some(subject), body)
  {
    FormatLines(subject, body);
    var lines := Split(FormatTemplate(subject, body), '\n');
    FormatSubject(subject, lines[2..]);
    FormatBody(subject, body);
  }

  lemma FormatSubject(subject: string, rest: seq<string>)
    requires Trimmed(subject)
    ensures SubjectOf(["Subject: " + subject, []] + rest) == Some(subject)
  {
    var lines := ["Subject: " + subject, []] + rest;
    SubjectOfHead(subject);
    assert lines[0] == "Subject: " + subject;
    assert FirstSubjectLine(lines) == Some(0);
  }

  lemma FormatBody(subject: string, body: string)
    requires Trimmed(body)
    ensures BodyOf(["Subject: " + subject, []] + Split(body, '\n')) == body
  {
    var head := "Subject: " + subject;
    var lines := [head, []] + Split(body, '\n');
    assert head[0] == 'S';
    assert !Blank(head) by { assert !IsSpace(head[0]); }
    assert lines[0] == head && lines[1] == [];
    assert Blank([]);
    assert FirstBlankLine(lines) == Some(1);
    assert lines[2..] == Split(body, '\n');
    JoinSplit(body, '\n');
    TrimOfTrimmed(body);
  }

  /* ------------------------------------------------------ mood -> file table */

  /** The property name a computed key `[config.MOODS.X]` produces: the mood's
      name, or the string "undefined" for a mood the configuration lacks. */
  function MoodPropertyName(k: MoodKey): (r: string)
    ensures Mood(k).Some? ==> r == Mood(k).value
    ensures Mood(k).None? ==> r == "undefined"
  {
    match Mood(k)
    case Some(name) => name
    case None => "undefined"
  }

  /** The object literal's entries in source order. */
  const MOOD_FILES: seq<(MoodKey, string)> := [
    (HAPPY, "happy.txt"), (CHEERFUL, "cheerful.txt"), (ECSTATIC, "ecstatic.txt"),
    (GRATEFUL, "grateful.txt"), (PROFESSIONAL, "professional.txt"), (WARM, "warm.txt"),
    (ENTHUSIASTIC, "enthusiastic.txt"), (HEARTFELT, "heartfelt.txt"), (INSPIRING, "inspiring.txt")
  ]

  type Table = seq<(string, string)>

  function Keys(t: Table): (ks: seq<string>)
    ensures |ks| == |t| && forall i :: 0 <= i < |t| ==> ks[i] == t[i].0
  {
    if |t| == 0 then [] else [t[0].0] + Keys(t[1..])
  }

  lemma {:induction false} KeysAppend(a: Table, b: Table)
    ensures Keys(a + b) == Keys(a) + Keys(b)
    decreases |a|
  {
    if |a| > 0 {
      assert (a + b)[1..] == a[1..] + b;
      KeysAppend(a[1..], b);
    } else {
      assert a + b == b;
    }
  }

  predicate DistinctKeys(t: Table) {
    forall i, j :: 0 <= i < j < |t| ==> t[i].0 != t[j].0
  }

  /** The value stored under a key, if any. */
  function Lookup(t: Table, key: string): (r: Option<string>)
    ensures r.None? <==> key !in Keys(t)
  {
    if |t| == 0 then None
    else if t[0].0 == key then Some(t[0].1)
    else Lookup(t[1..], key)
  }

  /** Property assignment in an object literal: a key seen before keeps its
      place and takes the new value; a new key is appended. */
  function Assign(t: Table, key: string, value: string): (r: Table)
    ensures key in Keys(t) ==> |r| == |t| && Keys(r) == Keys(t)
    ensures key !in Keys(t) ==> r == t + [(key, value)]
  {
    if |t| == 0 then [(key, value)]
    else if t[0].0 == key then [(key, value)] + t[1..]
    else
      var rest := Assign(t[1..], key, value);
      assert ([t[0]] + rest)[1..] == rest;
      [t[0]] + rest
  }

  /** Assignment stores the value under its key and leaves other keys alone. */
  lemma {:induction false} AssignLookup(t: Table, key: string, value: string, other: string)
    ensures Lookup(Assign(t, key, value), key) == Some(value)
    ensures other != key ==> Lookup(Assign(t, key, value), other) == Lookup(t, other)
    decreases |t|
  {
    if |t| > 0 && t[0].0 != key {
      AssignLookup(t[1..], key, value, other);
      assert Assign(t, key, value)[1..] == Assign(t[1..], key, value);
    } else if |t| > 0 {
      assert Assign(t, key, value)[1..] == t[1..];
    }
  }

  lemma {:induction false} AssignDistinct(t: Table, key: string, value: string)
    requires DistinctKeys(t)
    ensures DistinctKeys(Assign(t, key, value))
    decreases |t|
  {
    var r := Assign(t, key, value);
    if key in Keys(t) {
      assert forall i :: 0 <= i < |r| ==> r[i].0 == Keys(r)[i];
    } else {
      forall i | 0 <= i < |t| ensures t[i].0 != key {
        assert Keys(t)[i] == t[i].0;
      }
    }
  }

  /** The object built by assigning the entries in order. */
  function BuildTable(entries: Table): (r: Table)
    ensures DistinctKeys(r)
    ensures forall k :: k in Keys(r) <==> k in Keys(entries)
  {
    if |entries| == 0 then []
    else
      var last := entries[|entries| - 1];
      var init := entries[..|entries| - 1];
      var t := BuildTable(init);
      AssignDistinct(t, last.0, last.1);
      assert entries == init + [last];
      KeysAppend(init, [last]);
      KeysAppend(t, [(last.0, last.1)]);
      Assign(t, last.0, last.1)
  }

  /** The last assignment to a key decides its value. */
  lemma {:induction false} BuildTableLast(entries: Table, i: nat)
    requires i < |entries|
    requires forall j :: i < j < |entries| ==> entries[j].0 != entries[i].0
    ensures Lookup(BuildTable(entries), entries[i].0) == Some(entries[i].1)
    decreases |entries|
  {
    var last := entries[|entries| - 1];
    var init := entries[..|entries| - 1];
    AssignLookup(BuildTable(init), last.0, last.1, entries[i].0);
    if i < |entries| - 1 {
      BuildTableLast(init, i);
    }
  }

  /** In a table with distinct keys, each entry is what its key looks up. */
  lemma {:induction false} LookupDistinct(t: Table, i: nat)
    requires DistinctKeys(t) && i < |t|
    ensures Lookup(t, t[i].0) == Some(t[i].1)
    decreases |t|
  {
    if i > 0 {
      assert t[0].0 != t[i].0;
      assert DistinctKeys(t[1..]);
      LookupDistinct(t[1..], i - 1);
    }
  }

  /** Where a key that is found sits in the table. */
  lemma {:induction false} LookupIndex(t: Table, key: string) returns (i: nat)
    requires Lookup(t, key).Some?
    ensures i < |t| && t[i].0 == key && Lookup(t, key) == Some(t[i].1)
    decreases |t|
  {
    if t[0].0 == key {
      i := 0;
    } else {
      var k := LookupIndex(t[1..], key);
      i := k + 1;
    }
  }

  function MoodEntries(): Table {
    seq(|MOOD_FILES|, i requires 0 <= i < |MOOD_FILES| => (MoodPropertyName(MOOD_FILES[i].0), MOOD_FILES[i].1))
  }

  /** `moodTemplates` as `Object.entries` yields it. */
  function MoodTemplates(): (r: Table)
    ensures DistinctKeys(r)
  {
    BuildTable(MoodEntries())
  }

  /** The set of keys of a table. */
  function KeySet(t: Table): set<string> {
    set k | k in Keys(t)
  }

  /** A table with distinct keys has one entry per key. */
  lemma {:induction false} DistinctSize(t: Table)
    requires DistinctKeys(t)
    ensures |t| == |KeySet(t)|
    decreases |t|
  {
    if |t| > 0 {
      DistinctSize(t[1..]);
      assert KeySet(t) == {t[0].0} + KeySet(t[1..]);
      assert t[0].0 !in KeySet(t[1..]) by {
        forall i | 0 <= i < |t| - 1 ensures Keys(t[1..])[i] != t[0].0 {
          assert t[1..][i] == t[i + 1];
        }
      }
    }
  }

  /** Only three moods are configured, so the six other entries share the key
      "undefined": the table has four entries. */
  lemma MoodTableKeys()
    ensures forall k :: Lookup(MoodTemplates(), k).Some? <==> IsMoodKey(k)
    ensures |MoodTemplates()| == 4
  {
    MoodEntriesAt();
    TableOfMoodShape(MoodEntries());
  }

  /** The object built from nine entries with the keys the mood literal has. */
  lemma TableOfMoodShape(e: Table)
    requires |e| == 9 && e[0].0 == "Happy" && e[1].0 == "Cheerful" && e[2].0 == "Ecstatic"
    requires forall i :: 3 <= i < 9 ==> e[i].0 == "undefined"
    ensures forall k :: Lookup(BuildTable(e), k).Some? <==> IsMoodKey(k)
    ensures |BuildTable(e)| == 4
  {
    ShapeKeys(e);
    BuildTableKeys(e);
  }

  lemma ShapeKeys(e: Table)
    requires |e| == 9 && e[0].0 == "Happy" && e[1].0 == "Cheerful" && e[2].0 == "Ecstatic"
    requires forall i :: 3 <= i < 9 ==> e[i].0 == "undefined"
    ensures forall k :: k in KeySet(e) <==> IsMoodKey(k)
    ensures |KeySet(e)| == 4
  {
    EntryKeys(e);
    MoodKeyCount();
  }

  /** The keys of `moodTemplates`: the three configured moods and "undefined". */
  predicate IsMoodKey(k: string) {
    k == "Happy" || k == "Cheerful" || k == "Ecstatic" || k == "undefined"
  }

  lemma MoodKeyCount()
    ensures |{"Happy", "Cheerful", "Ecstatic", "undefined"}| == 4
  {
    assert "Happy" != "Cheerful" && "Happy" != "Ecstatic" && "Cheerful" != "Ecstatic";
  }

  /** The object has exactly one entry per distinct key of the literal. */
  lemma BuildTableKeys(e: Table)
    ensures forall k :: Lookup(BuildTable(e), k).Some? <==> k in KeySet(e)
    ensures |BuildTable(e)| == |KeySet(e)|
  {
    DistinctSize(BuildTable(e));
    assert KeySet(BuildTable(e)) == KeySet(e);
  }

  lemma EntryKeys(e: Table)
    requires |e| == 9 && e[0].0 == "Happy" && e[1].0 == "Cheerful" && e[2].0 == "Ecstatic"
    requires forall i :: 3 <= i < 9 ==> e[i].0 == "undefined"
    ensures KeySet(e) == {"Happy", "Cheerful", "Ecstatic", "undefined"}
  {
    var ks := Keys(e);
    forall k | k in KeySet(e) ensures k in {"Happy", "Cheerful", "Ecstatic", "undefined"} {
      var i :| 0 <= i < |ks| && ks[i] == k;
      assert k == e[i].0;
    }
    assert ks[0] == "Happy" && ks[1] == "Cheerful" && ks[2] == "Ecstatic" && ks[3] == "undefined";
  }

  /** The file each key of `moodTemplates` ends up with: the configured
      moods keep their own, and "undefined" keeps the last file assigned to
      it. */
  function MoodFile(name: string): string {
    if name == "Happy" then "happy.txt"
    else if name == "Cheerful" then "cheerful.txt"
    else if name == "Ecstatic" then "ecstatic.txt"
    else "inspiring.txt"
  }

  /** The object literal, evaluated, maps each of its keys to `MoodFile`. */
  lemma MoodTableFiles()
    ensures Lookup(MoodTemplates(), "Happy") == Some("happy.txt")
    ensures Lookup(MoodTemplates(), "Cheerful") == Some("cheerful.txt")
    ensures Lookup(MoodTemplates(), "Ecstatic") == Some("ecstatic.txt")
    ensures Lookup(MoodTemplates(), "undefined") == Some("inspiring.txt")
  {
    MoodFileAt(0);
    MoodFileAt(1);
    MoodFileAt(2);
    MoodFileAt(8);
  }

  lemma MoodFileAt(i: nat)
    requires i in {0, 1, 2, 8}
    ensures Lookup(MoodTemplates(), MoodEntries()[i].0) == Some(MoodEntries()[i].1)
  {
    MoodEntriesAt();
    BuildTableLast(MoodEntries(), i);
  }

  /** The four lookups, as one statement about `MoodFile`. */
  lemma FileOfKey(t: Table, k: string)
    requires Lookup(t, "Happy") == Some("happy.txt") && Lookup(t, "Cheerful") == Some("cheerful.txt")
    requires Lookup(t, "Ecstatic") == Some("ecstatic.txt") && Lookup(t, "undefined") == Some("inspiring.txt")
    requires IsMoodKey(k)
    ensures Lookup(t, k) == Some(MoodFile(k))
  {
  }

  /** The entries of the object literal, one by one: the six moods the
      configuration lacks all produce the key "undefined". */
  lemma MoodEntriesAt()
    ensures |MoodEntries()| == 9
    ensures MoodEntries()[0] == ("Happy", "happy.txt")
    ensures MoodEntries()[1] == ("Cheerful", "cheerful.txt")
    ensures MoodEntries()[2] == ("Ecstatic", "ecstatic.txt")
    ensures forall i :: 3 <= i < 9 ==> MoodEntries()[i].0 == "undefined"
    ensures MoodEntries()[8] == ("undefined", "inspiring.txt")
  {
  }

}

/** The rows of the `template_moods` table. */
module MoodRows {
  import opened Wrappers
  import opened TemplateService

  /** A `TemplateMood` row. */
  datatype MoodRow = MoodRow(name: string, subjectLine: string, bodyText: string)

  /** `TemplateMood.findOne({ where: { name } })` finds a row. */
  predicate Named(rows: seq<MoodRow>, name: string) {
    exists j :: 0 <= j < |rows| && rows[j].name == name
  }

  /** `row` is one the load may add: its name is a key of the table not
      stored before, and it is what the key's entry yields. */
  predicate Added(table: Table, rows: seq<MoodRow>, make: (string, string) -> Option<MoodRow>, row: MoodRow) {
    Lookup(table, row.name).Some? && !Named(rows, row.name)
      && make(row.name, Lookup(table, row.name).value) == Some(row)
  }

  /** Every added row is one of the moods, holding what its file yields. */
  lemma AddedMoodRows(t: Table, rows: seq<MoodRow>, make: (string, string) -> Option<MoodRow>, out: seq<MoodRow>)
    requires forall k :: Lookup(t, k).Some? ==> IsMoodKey(k)
    requires Lookup(t, "Happy") == Some("happy.txt") && Lookup(t, "Cheerful") == Some("cheerful.txt")
    requires Lookup(t, "Ecstatic") == Some("ecstatic.txt") && Lookup(t, "undefined") == Some("inspiring.txt")
    requires forall j :: |rows| <= j < |out| ==> Added(t, rows, make, out[j])
    ensures forall j :: |rows| <= j < |out| ==>
      IsMoodKey(out[j].name) && make(out[j].name, MoodFile(out[j].name)) == Some(out[j])
  {
    forall j | |rows| <= j < |out|
      ensures IsMoodKey(out[j].name) && make(out[j].name, MoodFile(out[j].name)) == Some(out[j])
    {
      FileOfKey(t, out[j].name);
    }
  }

  /** Every entry of the table whose row can be created is stored in `out`. */
  predicate StoredEach(t: Table, make: (string, string) -> Option<MoodRow>, out: seq<MoodRow>) {
    forall i :: 0 <= i < |t| && make(t[i].0, t[i].1).Some? ==> Named(out, t[i].0)
  }

  /** Every mood that can be created ends up stored. */
  lemma CreatableStored(t: Table, rows: seq<MoodRow>, make: (string, string) -> Option<MoodRow>, out: seq<MoodRow>)
    requires Lookup(t, "Happy") == Some("happy.txt") && Lookup(t, "Cheerful") == Some("cheerful.txt")
    requires Lookup(t, "Ecstatic") == Some("ecstatic.txt") && Lookup(t, "undefined") == Some("inspiring.txt")
    requires StoredEach(t, make, out)
    ensures forall name :: IsMoodKey(name) && make(name, MoodFile(name)).Some? ==> Named(out, name)
  {
    forall name | IsMoodKey(name) && make(name, MoodFile(name)).Some?
      ensures Named(out, name)
    {
      CreatableStoredAt(t, make, out, name);
    }
  }

  lemma CreatableStoredAt(t: Table, make: (string, string) -> Option<MoodRow>, out: seq<MoodRow>, name: string)
    requires Lookup(t, "Happy") == Some("happy.txt") && Lookup(t, "Cheerful") == Some("cheerful.txt")
    requires Lookup(t, "Ecstatic") == Some("ecstatic.txt") && Lookup(t, "undefined") == Some("inspiring.txt")
    requires StoredEach(t, make, out)
    requires IsMoodKey(name) && make(name, MoodFile(name)).Some?
    ensures Named(out, name)
  {
    FileOfKey(t, name);
    StoredIfCreatable(t, make, out, name, MoodFile(name));
  }

  lemma StoredIfCreatable(t: Table, make: (string, string) -> Option<MoodRow>, out: seq<MoodRow>,
                          name: string, file: string)
    requires StoredEach(t, make, out)
    requires Lookup(t, name) == Some(file) && make(name, file).Some?
    ensures Named(out, name)
  {
    var i := LookupIndex(t, name);
  }
}

/** The start-up load of `initializeTemplateMoods`: for each entry of the
    mood-to-file table, a `TemplateMood` row is created when none with that
    name exists and the file parses. */
module TemplateMoods {
  import opened Wrappers
  import opened TemplateService
  import opened MoodRows

  /** The row a template file yields: only when both the parsed subject and
      the parsed body are non-empty (`subjectLine && bodyText`). */
  function ParsedRow(name: string, content: string): (r: Option<MoodRow>)
    ensures r.Some? ==> r.value.name == name && r.value.subjectLine != "" && r.value.bodyText != ""
  {
    var p := ParseTemplateFile(content);
    match p.subject
    case Some(subject) =>
      if subject != "" && p.body != "" then Some(MoodRow(name, subject, p.body)) else None
    case None => None
  }

  /** The row holds exactly the parsed subject and body, and there is one
      exactly when both are non-empty. */
  lemma ParsedRowIff(name: string, content: string)
    ensures var p := ParseTemplateFile(content);
      ParsedRow(name, content).Some? <==> p.subject.Some? && p.subject.value != "" && p.body != ""
    ensures var p := ParseTemplateFile(content);
      ParsedRow(name, content).Some? ==>
        ParsedRow(name, content).value == MoodRow(name, p.subject.value, p.body)
  {
  }

  /** The row that would be inserted for `name`: the file must exist, parse,
      and the store must accept the name (the `name` column is an ENUM; a
      rejected insert is caught and logged). */
  function Candidate(files: map<string, string>, accepted: set<string>, name: string, file: string): (r: Option<MoodRow>)
    ensures r.Some? ==> file in files && name in accepted && r == ParsedRow(name, files[file])
    ensures file in files && name in accepted && ParsedRow(name, files[file]).Some? ==> r.Some?
  {
    if file in files && name in accepted then ParsedRow(name, files[file]) else None
  }

  /** A candidate row carries the name it was made for. */
  lemma CandidateNamed(files: map<string, string>, accepted: set<string>)
    ensures forall n, f :: Candidate(files, accepted, n, f).Some? ==> Candidate(files, accepted, n, f).value.name == n
  {
  }

  /** One entry of the loop: skip a name already stored, otherwise insert
      the row the entry yields, if any. */
  function LoadStep(out: seq<MoodRow>, name: string, file: string, make: (string, string) -> Option<MoodRow>): seq<MoodRow> {
    if !Named(out, name) && make(name, file).Some? then out + [make(name, file).value] else out
  }

  /** What the load promises about its result `out` over `rows`. */
  predicate LoadInvariant(table: Table, upTo: nat, rows: seq<MoodRow>, make: (string, string) -> Option<MoodRow>,
                          out: seq<MoodRow>)
    requires upTo <= |table|
  {
    && |out| >= |rows| && out[..|rows|] == rows
    && (forall j :: |rows| <= j < |out| ==> Added(table, rows, make, out[j]))
    && (forall j, k :: |rows| <= j < k < |out| ==> out[j].name != out[k].name)
    && (forall m :: 0 <= m < upTo && make(table[m].0, table[m].1).Some? ==>
          Named(out, table[m].0))
  }

  /** The loop of `initializeTemplateMoods` over the entries of a table with
      distinct keys; `make(name, file)` is the row the entry yields, if any.
      Rows already stored are kept; every added row is what an entry not
      stored before yields, the added names are distinct, and every entry
      that yields a row ends up stored. */
  method LoadMoods(table: Table, rows: seq<MoodRow>, make: (string, string) -> Option<MoodRow>)
    returns (out: seq<MoodRow>)
    requires DistinctKeys(table)
    requires forall n, f :: make(n, f).Some? ==> make(n, f).value.name == n
    ensures |out| >= |rows| && out[..|rows|] == rows
    ensures forall j :: |rows| <= j < |out| ==> Added(table, rows, make, out[j])
    ensures forall j, k :: |rows| <= j < k < |out| ==> out[j].name != out[k].name
    ensures StoredEach(table, make, out)
  {
    out := rows;
    for i := 0 to |table|
      invariant LoadInvariant(table, i, rows, make, out)
    {
      var (name, file) := table[i];
      var next := LoadStep(out, name, file, make);
      StepKeepsInvariant(table, i, rows, make, out);
      out := next;
    }
  }

  lemma StepKeepsInvariant(table: Table, i: nat, rows: seq<MoodRow>, make: (string, string) -> Option<MoodRow>,
                           out: seq<MoodRow>)
    requires DistinctKeys(table) && i < |table|
    requires forall n, f :: make(n, f).Some? ==> make(n, f).value.name == n
    requires LoadInvariant(table, i, rows, make, out)
    ensures LoadInvariant(table, i + 1, rows, make, LoadStep(out, table[i].0, table[i].1, make))
  {
    var (name, file) := table[i];
    if !Named(out, name) && make(name, file).Some? {
      var row := make(name, file).value;
      LookupDistinct(table, i);
      AppendKeepsNamed(out, row);
      AppendFresh(rows, out, row);
      assert Added(table, rows, make, row);
    }
  }

  /** Appending a row keeps every stored name and adds its own. */
  lemma AppendKeepsNamed(out: seq<MoodRow>, row: MoodRow)
    ensures forall n :: Named(out, n) ==> Named(out + [row], n)
    ensures Named(out + [row], row.name)
  {
    forall n | Named(out, n) ensures Named(out + [row], n) {
      var j :| 0 <= j < |out| && out[j].name == n;
      assert (out + [row])[j] == out[j];
    }
    assert (out + [row])[|out|] == row;
  }

  /** Appending a row with a new name keeps the prefix and the new names
      distinct. */
  lemma AppendFresh(rows: seq<MoodRow>, out: seq<MoodRow>, row: MoodRow)
    requires |out| >= |rows| && out[..|rows|] == rows && !Named(out, row.name)
    requires forall j, k :: |rows| <= j < k < |out| ==> out[j].name != out[k].name
    ensures (out + [row])[..|rows|] == rows
    ensures forall j, k :: |rows| <= j < k < |out| + 1 ==> (out + [row])[j].name != (out + [row])[k].name
  {
    assert (out + [row])[..|rows|] == out[..|rows|];
    forall j, k | |rows| <= j < k < |out| + 1 ensures (out + [row])[j].name != (out + [row])[k].name {
      if k == |out| {
        assert (out + [row])[j] == out[j];
      } else {
        assert (out + [row])[j] == out[j] && (out + [row])[k] == out[k];
      }
    }
  }

  /** `initializeTemplateMoods`: the load over `moodTemplates`. A row is
      added only for one of the table's keys not stored before, holding what
      that key's file parses to; each such key whose file exists and parses
      and whose name the store accepts gets exactly one row. */
  method InitializeMoods(rows: seq<MoodRow>, files: map<string, string>, accepted: set<string>)
    returns (out: seq<MoodRow>)
    ensures |out| >= |rows| && out[..|rows|] == rows
    ensures forall j :: |rows| <= j < |out| ==>
      IsMoodKey(out[j].name) && !Named(rows, out[j].name)
      && Candidate(files, accepted, out[j].name, MoodFile(out[j].name)) == Some(out[j])
    ensures forall j, k :: |rows| <= j < k < |out| ==> out[j].name != out[k].name
    ensures forall name :: IsMoodKey(name) && Candidate(files, accepted, name, MoodFile(name)).Some? ==>
      Named(out, name)
  {
    var make := (n, f) => Candidate(files, accepted, n, f);
    var t := MoodTemplates();
    CandidateNamed(files, accepted);
    MoodTableKeys();
    out := LoadMoods(t, rows, make);
    MoodTableFiles();
    AddedMoodRows(t, rows, make, out);
    CreatableStored(t, rows, make, out);
  }


}

module TemplateServiceExamples {
  import opened Wrappers
  import opened Strings
  import opened TemplateService

  /** A bracketed lead that does not start the pattern is passed over. */
  lemma ReplaceSkipsLead(u: string, t: string, p: string, v: string)
    requires |p| > 0 && p[0] == '[' && |u| > 0 && '[' !in u[1..] && !IsPrefix(p, u + t)
    ensures ReplaceAll(u + t, p, v) == u + ReplaceAll(t, p, v)
  {
    assert (u + t)[1..] == u[1..] + t;
    ReplaceSkipsFree(u[1..], t, p, v);
    assert [u[0]] + u[1..] == u;
    assert [u[0]] + (u[1..] + ReplaceAll(t, p, v)) == u + ReplaceAll(t, p, v);
  }

  /** Substitution order: a sender name that is itself a later placeholder
      is rewritten by that placeholder's pass. */
  lemma LaterPassRewritesEarlierValue(data: TemplateData, j: nat)
    requires 1 <= j < 4 && data.senderName == Some(PLACEHOLDERS[j])
    requires var vs := Values(data); forall k :: 1 <= k < 4 ==> '[' !in vs[k] && '$' !in vs[k]
    ensures RenderTemplate(SENDER_NAME, data) == Values(data)[j]
  {
    var vs := Values(data);
    PlaceholdersBracketed();
    assert vs[0] == PLACEHOLDERS[j];
    PassesAfterFirst(j, vs, 4);
    RenderIsPasses(SENDER_NAME, data);
  }

  lemma {:induction false} PassesAfterFirst(j: nat, vs: seq<string>, m: nat)
    requires 1 <= j < 4 && m <= 4 && |vs| == 4 && vs[0] == PLACEHOLDERS[j]
    requires forall k :: 1 <= k < 4 ==> '[' !in vs[k] && '$' !in vs[k]
    ensures RenderPasses(SENDER_NAME, vs, m) ==
      if m == 0 then SENDER_NAME else if m <= j then PLACEHOLDERS[j] else vs[j]
  {
    var P := PLACEHOLDERS;
    PlaceholdersBracketed();
    if m == 1 {
      assert P[0] == SENDER_NAME;
      ReplaceWhole(P[0], vs[0]);
      ExpandLiteral(vs[0], P[0], [], []);
    } else if m > 1 {
      PassesAfterFirst(j, vs, m - 1);
      var s := RenderPasses(SENDER_NAME, vs, m - 1);
      if m - 1 == j {
        ReplaceWhole(P[j], vs[j]);
        ExpandLiteral(vs[j], P[j], [], []);
      } else if m - 1 < j {
        PlaceholdersUnrelated(m - 1, j);
        AbsentFromBracketed(P[j], P[m - 1]);
        GlobalReplaceAbsent(P[j], P[m - 1], vs[m - 1]);
      } else {
        AbsentWithoutBracket(s, P[m - 1]);
        GlobalReplaceAbsent(s, P[m - 1], vs[m - 1]);
      }
    }
  }

  /** `[Sender [Campaign Name]]`: a template whose campaign-name placeholder
      sits inside the words of a sender-name placeholder. */
  const NESTED: string := "[Sender " + CAMPAIGN_NAME + "]"

  const NESTED_LEAD: string := "[Sender "
  const NESTED_TAIL: string := CAMPAIGN_NAME + "]"

  lemma NestedShape()
    ensures NESTED == NESTED_LEAD + NESTED_TAIL
    ensures '[' !in NESTED_LEAD[1..] && '[' !in NESTED_TAIL[1..]
    ensures |NESTED_LEAD| > 0 && |NESTED_TAIL| > 0
    ensures !IsPrefix(SENDER_NAME, NESTED) && !IsPrefix(SENDER_NAME, NESTED_TAIL)
    ensures !IsPrefix(RECIPIENT_NAME, NESTED) && !IsPrefix(RECIPIENT_NAME, NESTED_TAIL)
    ensures !IsPrefix(CAMPAIGN_NAME, NESTED) && IsPrefix(CAMPAIGN_NAME, NESTED_TAIL)
  {
    assert NESTED[8] != SENDER_NAME[8];
    assert NESTED_TAIL[1] != SENDER_NAME[1];
    assert NESTED[1] != RECIPIENT_NAME[1];
    assert NESTED_TAIL[1] != RECIPIENT_NAME[1];
    assert NESTED[1] != CAMPAIGN_NAME[1];
    assert NESTED_TAIL[..|CAMPAIGN_NAME|] == CAMPAIGN_NAME;
  }

  /** A pass whose placeholder starts neither piece leaves the template alone. */
  lemma NestedPassSkips(p: string, v: string)
    requires |p| > 0 && p[0] == '['
    requires !IsPrefix(p, NESTED) && !IsPrefix(p, NESTED_TAIL)
    ensures ReplaceAll(NESTED, p, v) == NESTED
  {
    NestedShape();
    ReplaceSkipsLead(NESTED_LEAD, NESTED_TAIL, p, v);
    assert NESTED_TAIL + [] == NESTED_TAIL;
    ReplaceSkipsLead(NESTED_TAIL, [], p, v);
  }

  /** The campaign-name pass completes the outer placeholder. */
  lemma NestedCampaignPass(v: string)
    ensures ReplaceAll(NESTED, CAMPAIGN_NAME, v) == NESTED_LEAD + v + "]"
  {
    NestedShape();
    ReplaceSkipsLead(NESTED_LEAD, NESTED_TAIL, CAMPAIGN_NAME, v);
    assert NESTED_TAIL[|CAMPAIGN_NAME|..] == "]";
    assert ReplaceAll("]", CAMPAIGN_NAME, v) == "]";
  }

  /** Values free of placeholders are not enough to rid the output of them:
      with the campaign name `Name`, the template `[Sender [Campaign Name]]`
      renders to `[Sender Name]`, although no value holds a placeholder. */
  lemma PlaceholderCanSurvive(data: TemplateData)
    requires data.campaignName == Some("Name") && PlainValues(data)
    ensures forall k :: 0 <= k < 4 ==> !Contains(Values(data)[k], PLACEHOLDERS[k])
    ensures RenderTemplate(NESTED, data) == SENDER_NAME
  {
    var vs := Values(data);
    forall k | 0 <= k < 4 ensures !Contains(vs[k], PLACEHOLDERS[k]) {
      AbsentWithoutBracket(vs[k], PLACEHOLDERS[k]);
    }
    assert NESTED_LEAD + vs[2] + "]" == SENDER_NAME;
    PlaceholdersBracketed();
    PlaceholdersUnrelated(3, 0);
    AbsentFromBracketed(SENDER_NAME, SENDER_NOTE);
    NestedRender(vs);
    RenderIsPasses(NESTED, data);
  }

  lemma NestedRender(vs: seq<string>)
    requires |vs| == 4 && forall k :: 0 <= k < 4 ==> '$' !in vs[k]
    requires !Contains(NESTED_LEAD + vs[2] + "]", SENDER_NOTE)
    ensures RenderPasses(NESTED, vs, 4) == NESTED_LEAD + vs[2] + "]"
  {
    NestedFirstPasses(vs);
    var s2 := RenderPasses(NESTED, vs, 2);
    assert RenderPasses(NESTED, vs, 3) == GlobalReplace(s2, PLACEHOLDERS[2], vs[2]);
    assert PLACEHOLDERS[2] == CAMPAIGN_NAME;
    GlobalReplaceLiteral(NESTED, CAMPAIGN_NAME, vs[2]);
    NestedCampaignPass(vs[2]);
    var s3 := RenderPasses(NESTED, vs, 3);
    assert RenderPasses(NESTED, vs, 4) == GlobalReplace(s3, PLACEHOLDERS[3], vs[3]);
    assert PLACEHOLDERS[3] == SENDER_NOTE;
    GlobalReplaceAbsent(NESTED_LEAD + vs[2] + "]", SENDER_NOTE, vs[3]);
  }

  lemma NestedFirstPasses(vs: seq<string>)
    requires |vs| == 4 && '$' !in vs[0] && '$' !in vs[1]
    ensures RenderPasses(NESTED, vs, 2) == NESTED
  {
    NestedShape();
    assert RenderPasses(NESTED, vs, 1) == GlobalReplace(NESTED, PLACEHOLDERS[0], vs[0]);
    assert PLACEHOLDERS[0] == SENDER_NAME;
    GlobalReplaceLiteral(NESTED, SENDER_NAME, vs[0]);
    NestedPassSkips(SENDER_NAME, vs[0]);
    assert RenderPasses(NESTED, vs, 2) == GlobalReplace(RenderPasses(NESTED, vs, 1), PLACEHOLDERS[1], vs[1]);
    assert PLACEHOLDERS[1] == RECIPIENT_NAME;
    GlobalReplaceLiteral(NESTED, RECIPIENT_NAME, vs[1]);
    NestedPassSkips(RECIPIENT_NAME, vs[1]);
  }
}

=== FILE: theme.dfy ===
/** The browser theme selector of `theme.js` (`ThemeManager`). The page is
    reduced to the state the selector reads and writes: the `data-theme`
    attribute of the document, the `dark-theme` body class, the saved
    preference in local storage and the system's dark-mode preference. */
module Theme {
  import opened Wrappers

  const LIGHT: string := "light"
  const DARK: string := "dark"

  /** `attr` is the `data-theme` attribute (`None` when unset), `darkClass`
      whether the body has the `dark-theme` class, `saved` the stored
      preference (`None` when nothing is stored), `systemDark` whether the
      system prefers dark. */
  datatype Page = Page(attr: Option<string>, darkClass: bool, saved: Option<string>, systemDark: bool)

  /** `!!value` of a stored string. */
  predicate Present(v: Option<string>) {
    v.Some? && v.value != ""
  }

  /** `getCurrentTheme()`: the attribute, or light when it is unset or empty. */
  function CurrentTheme(p: Page): string {
    if Present(p.attr) then p.attr.value else LIGHT
  }

  /** `isDarkMode()` */
  predicate IsDarkMode(p: Page) {
    CurrentTheme(p) == DARK
  }

  /** `isLightMode()` */
  predicate IsLightMode(p: Page) {
    CurrentTheme(p) == LIGHT
  }

  /** The page shows a valid theme and its body class agrees with it. */
  predicate Consistent(p: Page) {
    p.attr.Some? && (p.attr.value == LIGHT || p.attr.value == DARK) && p.darkClass == (p.attr.value == DARK)
  }

  /** The theme `setTheme` applies: the one asked for when it is light or
      dark, light otherwise. */
  function Validated(theme: string): (t: string)
    ensures t == LIGHT || t == DARK
    ensures theme == LIGHT || theme == DARK ==> t == theme
    ensures theme != LIGHT && theme != DARK ==> t == LIGHT
  {
    if theme == LIGHT || theme == DARK then theme else LIGHT
  }

  /** `setTheme(theme, save)`: the validated theme is shown, the body class
      follows it, and it is stored exactly when `save` is set. */
  function SetTheme(p: Page, theme: string, save: bool): (r: Page)
    ensures Consistent(r)
    ensures r.attr == Some(Validated(theme))
    ensures save ==> r.saved == Some(Validated(theme))
    ensures !save ==> r.saved == p.saved
    ensures r.systemDark == p.systemDark
  {
    var t := Validated(theme);
    Page(Some(t), t == DARK, if save then Some(t) else p.saved, p.systemDark)
  }

  /** The theme the system preference stands for. */
  function SystemTheme(dark: bool): string {
    if dark then DARK else LIGHT
  }

  /** `init()` on a page: the saved theme if there is one (validated), else
      the system preference; nothing is stored. */
  function Init(p: Page): (r: Page)
    ensures Consistent(r) && r.saved == p.saved
    ensures Present(p.saved) ==> r.attr == Some(Validated(p.saved.value))
    ensures !Present(p.saved) ==> r.attr == Some(SystemTheme(p.systemDark))
  {
    SetTheme(p, if Present(p.saved) then p.saved.value else SystemTheme(p.systemDark), false)
  }

  /** `toggleTheme()`: dark becomes light and anything else, an unset
      attribute included, becomes dark; the new theme is stored. */
  function Toggle(p: Page): (r: Page)
    ensures Consistent(r)
    ensures IsDarkMode(p) ==> r.attr == Some(LIGHT)
    ensures !IsDarkMode(p) ==> r.attr == Some(DARK)
    ensures r.saved == r.attr
  {
    SetTheme(p, if CurrentTheme(p) == DARK then LIGHT else DARK, true)
  }

  /** The listener for a change of the system preference: the page follows
      it, without storing it, only when no theme is stored. */
  function SystemChanged(p: Page, matches: bool): (r: Page)
    ensures r.systemDark == matches && r.saved == p.saved
    ensures Present(p.saved) ==> r == p.(systemDark := matches)
    ensures !Present(p.saved) ==> r.attr == Some(SystemTheme(matches)) && Consistent(r)
  {
    var q := p.(systemDark := matches);
    if Present(q.saved) then q else SetTheme(q, SystemTheme(matches), false)
  }

  /** `resetToSystemPreference()`: the system theme is shown and stored. */
  function ResetToSystem(p: Page): (r: Page)
    ensures Consistent(r) && r.attr == Some(SystemTheme(p.systemDark)) && r.saved == r.attr
  {
    SetTheme(p, SystemTheme(p.systemDark), true)
  }

  /** `setDarkMode()` */
  function SetDarkMode(p: Page): (r: Page)
    ensures IsDarkMode(r) && r.saved == Some(DARK)
  {
    SetTheme(p, DARK, true)
  }

  /** `setLightMode()` */
  function SetLightMode(p: Page): (r: Page)
    ensures IsLightMode(r) && r.saved == Some(LIGHT)
  {
    SetTheme(p, LIGHT, true)
  }

  /* ------------------------------------------------------------ properties */

  /** On a consistent page exactly one of dark and light mode holds, and the
      body class is present exactly in dark mode. */
  lemma ExactlyOneMode(p: Page)
    requires Consistent(p)
    ensures IsDarkMode(p) != IsLightMode(p)
    ensures p.darkClass <==> IsDarkMode(p)
  {
  }

  /** An invalid theme shows light. */
  lemma InvalidShowsLight(p: Page, theme: string, save: bool)
    requires theme != LIGHT && theme != DARK
    ensures IsLightMode(SetTheme(p, theme, save)) && !SetTheme(p, theme, save).darkClass
  {
  }

  /** Toggling twice comes back to the theme shown before, provided it was
      a valid one, and leaves that theme stored. */
  lemma ToggleTwice(p: Page)
    requires Consistent(p)
    ensures var r := Toggle(Toggle(p));
      r.attr == p.attr && r.darkClass == p.darkClass && r.saved == p.attr && r.systemDark == p.systemDark
  {
  }

  /** Before any theme is shown, toggling picks dark. */
  lemma ToggleUnset(p: Page)
    requires p.attr.None?
    ensures IsDarkMode(Toggle(p))
  {
  }

  /** Once the theme is reset to the system preference it is stored, so
      later changes of the system preference are ignored. */
  lemma ResetPinsTheme(p: Page, matches: bool)
    ensures var r := ResetToSystem(p);
      SystemChanged(r, matches).attr == r.attr
  {
  }

  /** Initialising a page whose stored theme is valid shows that theme,
      whatever the system prefers, and following a system change then
      changes nothing shown. */
  lemma SavedThemeWins(p: Page, matches: bool)
    requires p.saved == Some(LIGHT) || p.saved == Some(DARK)
    ensures Init(p).attr == p.saved
    ensures SystemChanged(Init(p), matches).attr == p.saved
  {
  }

  /** An operation the selector performs on a page. */
  datatype Op = OpSet(theme: string, save: bool) | OpToggle | OpSystem(matches: bool) | OpReset

  function Apply(p: Page, op: Op): Page {
    match op
    case OpSet(t, s) => SetTheme(p, t, s)
    case OpToggle => Toggle(p)
    case OpSystem(m) => SystemChanged(p, m)
    case OpReset => ResetToSystem(p)
  }

  function ApplyAll(p: Page, ops: seq<Op>): Page
    decreases |ops|
  {
    if |ops| == 0 then p else ApplyAll(Apply(p, ops[0]), ops[1..])
  }

  /** After initialisation the page stays consistent whatever happens, and
      whatever is stored was stored by the selector or was there before. */
  lemma {:induction false} AlwaysConsistent(p: Page, ops: seq<Op>)
    requires Consistent(p)
    ensures Consistent(ApplyAll(p, ops))
    ensures var s := ApplyAll(p, ops).saved; s == p.saved || s == Some(LIGHT) || s == Some(DARK)
    decreases |ops|
  {
    if |ops| > 0 {
      var q := Apply(p, ops[0]);
      AlwaysConsistent(q, ops[1..]);
    }
  }
}

=== FILE: user_model.dfy ===
/** The User record and its encrypted OAuth token blob. AES encryption is an
    opaque inverse pair here: a blob is either the sealed form of a token
    record or text that does not decrypt. */
module UserModel {
  import opened Wrappers
  import opened Config

  /** The decrypted token record `{ access_token, refresh_token, expires_at }`;
      a field that was `undefined` when serialised is absent (`None`). */
  datatype Tokens = Tokens(accessToken: Option<string>, refreshToken: Option<string>, expiresAt: Option<int>)

  datatype Blob = Sealed(tokens: Tokens) | Garbled(text: string)

  /** `encryptTokens` */
  function EncryptTokens(t: Tokens): (b: Blob)
    ensures DecryptTokens(b) == Ok(t)
  {
    Sealed(t)
  }

  /** `decryptTokens`: fails on a blob that was not produced by `encryptTokens`.
      The source's error text also carries the cipher's own message after
      "Decryption failed: "; that cause is not modelled, so the text here is
      the bare prefix. */
  function DecryptTokens(b: Blob): (r: Result<Tokens, string>)
    ensures r.Ok? <==> b.Sealed?
  {
    match b
    case Sealed(t) => Ok(t)
    case Garbled(_) => Err("Decryption failed")
  }

  datatype User = User(
    id: string,
    email: string,
    name: string,
    oauthEncryptedTokens: Option<Blob>,
    tier: Tier,
    isAdmin: bool)

  /** The user with the given primary key, if any (`User.findByPk`). */
  function FindUser(users: seq<User>, id: string): (r: Option<User>)
    ensures r.Some? ==> r.value in users && r.value.id == id
    ensures r.None? ==> forall u :: u in users ==> u.id != id
  {
    if |users| == 0 then None
    else if users[0].id == id then Some(users[0])
    else FindUser(users[1..], id)
  }

  /** Index of the first element of `xs` that `matches` accepts, if any. */
  function FirstIndex<T>(xs: seq<T>, matches: T -> bool): (r: Option<nat>)
    ensures r.Some? ==> r.value < |xs| && matches(xs[r.value])
    ensures r.Some? ==> forall j :: 0 <= j < r.value ==> !matches(xs[j])
    ensures r.None? ==> forall i :: 0 <= i < |xs| ==> !matches(xs[i])
  {
    if |xs| == 0 then None
    else if matches(xs[0]) then Some(0)
    else match FirstIndex(xs[1..], matches)
      case None => None
      case Some(i) => Some(i + 1)
  }

  /** Index of the first user with the given e-mail (`User.findOne({ where: { email } })`). */
  function FindByEmail(users: seq<User>, email: string): (r: Option<nat>)
    ensures r.Some? ==> r.value < |users| && users[r.value].email == email
    ensures r.Some? ==> forall j :: 0 <= j < r.value ==> users[j].email != email
    ensures r.None? ==> forall i :: 0 <= i < |users| ==> users[i].email != email
  {
    FirstIndex(users, (u: User) => u.email == email)
  }

  /** Index of the first user with the given id. */
  function IndexOfUser(users: seq<User>, id: string): (r: Option<nat>)
    ensures r.Some? ==> r.value < |users| && users[r.value].id == id
    ensures r.Some? ==> forall j :: 0 <= j < r.value ==> users[j].id != id
    ensures r.None? ==> forall i :: 0 <= i < |users| ==> users[i].id != id
  {
    FirstIndex(users, (u: User) => u.id == id)
  }
}

=== FILE: wrappers.dfy ===
/** Option and Result, the failure-carrying datatypes the model uses in place of
    JavaScript's null/undefined and thrown errors. */
module Wrappers {

  datatype Option<+T> = None | Some(value: T) {
    function GetOr(default: T): T {
      match this
      case Some(v) => v
      case None => default
    }
  }

  datatype Result<+R, +E> = Ok(value: R) | Err(error: E) {
    predicate IsFailure() {
      Err?
    }

    function PropagateFailure<U>(): Result<U, E>
      requires Err?
    {
      Err(error)
    }

    function Extract(): R
      requires Ok?
    {
      value
    }
  }
}
